=== FILE: README.md ===
# Flix-Finder core, modelled in Dafny

Flix-Finder is a Stremio add-on. For an IMDb id it looks up the title and
asks the Knaben search API, or scrapes 1337x and TorrentGalaxy, for torrents.
It filters the hits by quality and keywords taken from a configuration
string, and can turn them into direct links through a debrid service
(Real-Debrid, TorBox, AllDebrid, …). The configured stream handler finally
appends a "support me" entry. A small HTTP server routes Stremio's URLs,
optionally below a base path, to the handlers.

This project models the logic of that core as pure Dafny functions and proves
what it promises:

- `wrappers.dfy`, `text.dfy`, `js.dfy` and `lists.dfy` hold shared vocabulary:
  `Option`/`Result`, string trimming, splitting and case, JavaScript's
  `parseInt` and number printing, truthy query values, and filtering and
  subsequences.
- `magnet.dfy` holds the `urn:btih:` match that both hash extractors use, and
  `dedup.dfy` holds the "skip what was seen" loop used by three searches.
- `records.dfy` holds the stream record, the configuration and the reply.
- `debrid.dfy` covers `lib/debrid.js`: hash extraction, file normalisation,
  the largest-video pick, `requestFirst`, the put.io token, and
  `resolveDebridStreams`. Each provider's HTTP conversation is an oracle.
- `ext.dfy` covers `lib/ext.js`: configuration parsing, id parsing, stream
  filtering, the episode query, and the Knaben hit dedup.
- `scrapers.dfy` covers `lib/scrapers.js`: `extractInfoHash`, both scrapers
  over abstract table rows, and the merge by seeders.
- `server.dfy` covers `server.js`: the base path, query parsing, method
  checks, route classification, and `runHandler`'s 500 reply.
- `config_stream.dfy` covers `api/config-stream.js`: configuration decoding,
  the support link, and the handler's order of steps and its fallbacks.

Every network access is a function parameter: the title lookup, the Knaben
POST, the scrapers' search and detail pages, the debrid resolvers and the
base64/JSON decoder. The model states what the code does with whatever those
return.

Where the code and its description disagree, the model follows the code:

- A base32 info hash is kept in base32, lower-cased. It is not converted to
  hex.
- A TorrentGalaxy row without a name is skipped before its hash is marked
  seen.
- An `id` given twice in the query string of `/api/config-stream` makes
  `id.split` throw in the configured stream handler, so the server answers
  500. The path routes set `id` from the path, over any query value, so they
  answer 200.
- The server groups the query parameters on a plain object, so a
  `__proto__` parameter never reaches a handler (see Findings).

## Model

| member | source | states |
|---|---|---|
| Debrid.BtihFromMagnet | lib/debrid.js:54-57 | null exactly when no `urn:btih:` is followed by 40 hex digits (case-insensitive); otherwise the lower-cased 40 hex digits of the leftmost such match |
| Debrid.FirstNonEmpty | lib/debrid.js:60 | the `a \|\| b \|\| …` chain over name fields yields the first non-empty one, or "" when all are empty |
| Debrid.FirstTruthy | lib/debrid.js:61 | the size chain yields the first truthy number, or 0 when none is truthy |
| Debrid.SizeOf | lib/debrid.js:61-67 | the size comes from the first truthy one of the four size fields: its value when finite, 0 when it is infinite; 0 when all four are falsy |
| Debrid.UrlOf | lib/debrid.js:62 | no url exactly when all four url fields are empty; otherwise the first non-empty one |
| Debrid.NormalizeFile | lib/debrid.js:59-70 | keeps the original record; the name is the trimmed first non-empty name field and has no surrounding white space; the lower-case name is its lower-cased form; size and url are read as `SizeOf` and `UrlOf` state |
| Debrid.PickLargest | lib/debrid.js:72-79 | null exactly for an empty list; otherwise the largest-size file among the videos, or among all files when there is no video, and the earliest among equals |
| Debrid.PickLargestVideoFile | lib/debrid.js:72-79 | the same, stated over the raw records after normalisation; the pick is a video exactly when some file is |
| Debrid.LargestCandidateIsLargestEligible | lib/debrid.js:76-78 | the survivor of `reduce` over the candidates is the largest eligible file, earliest among equals |
| Debrid.VideosExist | lib/debrid.js:76-77 | the video filter is non-empty exactly when some file has a video extension |
| Debrid.RequestFirst | lib/debrid.js:81-93 | succeeds exactly when some thunk yields a value, and returns the first one; no earlier thunk yielded; on failure every thunk ran and the error is the last thrown one, else "No request succeeded" |
| Debrid.RequestFirstIgnoresLaterCalls | lib/debrid.js:83-86 | thunks after the first one that yields are never invoked: changing them does not change the outcome |
| Debrid.ParsePutioToken | lib/debrid.js:360-365 | the result holds no `@`; blank input gives ""; without `@` it is the trimmed token; otherwise the trimmed token ends with `@` followed by the result |
| Debrid.ProviderOfServiceKey | lib/debrid.js:461-470 | every provider is registered under its own key in `RESOLVERS` |
| Debrid.ProviderOf | lib/debrid.js:461-470 | a provider found for a service name is the one registered under that key |
| Debrid.BadgedTitle | lib/debrid.js:514-520 | the title is `[badge` … `] title`, and it has the `+` marker exactly when the resolver's name ends in `+` |
| Debrid.AttemptStream | lib/debrid.js:505-525 | a stream is skipped exactly when its magnet (from the hash, else the url) is not a `magnet:?` URI; it resolves exactly when the resolver succeeds, giving the resolver's url under the badged resolver title; otherwise it fails with the resolver's message, or a non-empty default |
| Debrid.CollectMatchesAttempts | lib/debrid.js:502-526 | the `results` array is non-empty exactly when some attempt resolved, and `errors` exactly when some attempt failed |
| Debrid.ResultsInInputOrder | lib/debrid.js:505-522 | the results are the resolved streams in input order, none missing: an increasing index list maps each result to its attempt and covers every resolved attempt |
| Debrid.ResolvedStreamsBadged | lib/debrid.js:512-522 | each resolved stream is the resolver's answer for the magnet of a distinct input stream, in input order: its url is the resolver's url and its title the badge followed by the resolver's title |
| Debrid.FirstErrorIsFirstFailure | lib/debrid.js:523-539 | the error entry's message is that of the first attempt that failed |
| Debrid.ErrorEntry | lib/debrid.js:531-542 | the fallback entry links to the provider's home page, carries the first stream's magnet, and has the title `[BADGE:error] message` |
| Debrid.ResolveWith | lib/debrid.js:502-547 | results if any stream resolved; else, if some attempt failed, the error entry followed by all the originals; else the originals unchanged |
| Debrid.ResolveDebridStreams | lib/debrid.js:494-548 | the streams are untouched unless the lower-cased service is known and a token is set; then as `ResolveWith` for that provider |
| Debrid.SkippedStreamIsNoError | lib/debrid.js:507-511 | a stream with neither a hash nor a magnet url is skipped and records no error |
| Ext.MaxResults | lib/ext.js:19 | `Math.max(parseInt(v) \|\| 10, 0)`: 10 when the parse is falsy, 0 for negatives, otherwise the parsed value |
| Ext.ParseConfig | lib/ext.js:11-21 | the service is lower-case, the token trimmed, every keyword non-empty and trimmed, and `maxResults` non-negative |
| Ext.ParseConfigDefaults | lib/ext.js:11-21 | an empty query gives quality "any", service "none", no token, no keywords and 10 results |
| Ext.ParseConfigOfSettings | lib/ext.js:11-21 | a configuration already in parsed shape, written to a query under its own keys (keywords comma-joined, the limit printed), parses back to itself (round trip) |
| Ext.ParseConfigMissingKeys | lib/ext.js:14-19 | a missing or falsy key gives that field's default ("any", "none", "", [], [], 10), whatever the other keys hold |
| Ext.ParseConfigOfUntidy | lib/ext.js:11-21 | untidy spellings parse to the clean configuration: the service in any letter case, the token with surrounding whitespace, each keyword padded with whitespace and an empty piece after the last comma all give back exactly that configuration |
| Ext.PaddedKeywords | lib/ext.js:17-18 | splitting on commas, trimming each piece and dropping empty ones recovers the keywords from a comma-joined list whose pieces carry whitespace around them and an empty tail |
| Ext.KeywordListOfJoin | lib/ext.js:17-18 | splitting a comma-joined list of clean keywords returns that list (round trip), the empty list included |
| Ext.MaxResultsOfIntToString | lib/ext.js:19 | a printed positive count reads back as itself, 0 reads as 10, and a negative count reads as 0 |
| Ext.FindImdbTag | lib/ext.js:26 | `id.match(/tt\d+/i)`: empty exactly when no `tt` followed by a digit occurs; otherwise the leftmost such tag with all of its digits |
| Ext.ParseId | lib/ext.js:23-33 | null exactly for an empty id, or one whose first part lacks `tt` and that has no `tt<digits>` anywhere; the IMDb id begins with `tt` (any case) and holds no `:`; when the first part does not start with `tt` it is the leftmost `tt<digits>` tag; season and episode are `parseInt` of the non-empty second and third parts |
| Ext.ParseEpisodeId | lib/ext.js:23-33 | `tt…:S:E` parses back to its IMDb id, season and episode (round trip) |
| Ext.ParseMovieId | lib/ext.js:23-33 | a bare `tt…` id parses to itself, with no season or episode |
| Ext.NormalizeImdbId | lib/ext.js:35-38 | null exactly when `parseId` is null, else its IMDb id |
| Ext.NormalizeImdbIdIdempotent | lib/ext.js:35-38 | normalising an already normalised id changes nothing |
| Ext.FilterStreams | lib/ext.js:48-71 | every stream kept passes the quality, include and exclude tests; the result is a subsequence of the input; it holds at most `maxResults` streams when that is non-zero |
| Ext.StagedIsOneFilter | lib/ext.js:51-68 | the three successive filters equal one filter by their conjunction |
| Ext.FilterStreamsReference | lib/ext.js:48-71 | `filterStreams` equals one filter by the conjunction of the quality, include and exclude tests, followed by a prefix of `maxResults` streams when that is non-zero and no truncation when it is 0 |
| Ext.FilterStreamsKeepsAll | lib/ext.js:70 | with `maxResults` 0 no passing stream is dropped |
| Ext.SearchQuery | lib/ext.js:81-86 | the query starts with the title, and it is the bare title unless a series id has both a season and an episode |
| Ext.EpisodeQuery | lib/ext.js:82-85 | for a series episode the query is the title followed by ` SxxEyy`, zero-padded to two digits; below 100 the query is the title, ` S`, two digits that parse back to the season, `E` and two digits that parse back to the episode |
| Ext.TagRoundTrip | lib/ext.js:83-84 | a number below 100 pads to two digits that parse back to it |
| Ext.KnabenRequestFor | lib/ext.js:92-101 | the POST body asks for the query, from 0, size 10 |
| Ext.HitStream | lib/ext.js:111-123 | a hit yields a stream exactly when its magnet (`magnetUrl`, else `link`) starts with `magnet:`; the stream's url is that magnet; its title is two lines: the hit's title (or "Unknown"), a newline, the formatted size and ` | S:`, then text from which `parseInt` reads back the seeders, and it ends with ` | ` and the cached origin (or "Unknown") |
| Ext.HitTitleReads | lib/ext.js:114-121 | in a title `head + String(seeders) + " | " + source`, the head is a prefix, `parseInt` of what follows it is the seeders figure, and the title ends with ` | ` and the source |
| Ext.KnabenStreams | lib/ext.js:107-126 | at most one stream per hit, every url a magnet, no external link, and no magnet twice |
| Ext.KnabenKeepsEveryMagnet | lib/ext.js:110-113 | every hit with a magnet is represented: some stream has its magnet |
| Ext.SearchTorrents | lib/ext.js:73-130 | an unparsable id gives []; a thrown title lookup propagates; a missing title or a failed POST gives []; a successful POST gives exactly the deduplicated Knaben streams of its hits, for the episode-aware query; no stream carries an external link |
| Ext.SearchKeepsEveryMagnet | lib/ext.js:73-126 | when the title lookup and the POST succeed, every hit with a `magnet:` link is represented in the search result by a stream with that link |
| Dedup.CollectIsSubsequence | lib/ext.js:107-124 | the "seen" loop keeps a subsequence of the built entries |
| Dedup.CollectUnique | lib/ext.js:108-113 | the "seen" loop keeps no key twice and none that was seen before it started |
| Dedup.CollectIsComplete | lib/ext.js:110-113 | every built entry's key is among the kept ones, unless it was seen before the loop |
| Dedup.CollectKeepsFirst | lib/ext.js:112-113 | of entries with equal keys, the first one is kept |
| Scrapers.ExtractInfoHash | lib/scrapers.js:15-23 | null exactly when there is neither a 40-hex nor a 32-base32 `urn:btih:` match; a hex match wins and gives 40 characters; the result is the lower-cased capture of the leftmost match, and base32 is used only without a hex match |
| Scrapers.ExtractAgreesWithDebrid | lib/scrapers.js:15-18 | whenever the debrid extractor finds a hash, the scraper extractor finds the same hash |
| Scrapers.ExtractOfHexMagnet | lib/scrapers.js:17-18 | a magnet built from a lower-case hex hash yields that hash (round trip) |
| Scrapers.ExtractOfBase32Magnet | lib/scrapers.js:20-21 | a magnet built from a lower-case base32 hash yields that hash (round trip) |
| Scrapers.Count | lib/scrapers.js:54-55 | the count is the number `parseInt` reads from the trimmed text, and 0 when that text does not parse |
| Scrapers.CountReads | lib/scrapers.js:54-55 | a cell holding digits followed by other text (`012`, `12 seeds`) counts as the value of those digits |
| Js.ParseIntReads | lib/scrapers.js:54 | `parseInt(text, 10)` skips leading whitespace, takes an optional sign and reads the longest run of digits, ignoring whatever follows |
| Text.TrimIsSlice | lib/ext.js:16 | `trim()` returns the slice of the string between its leading and its trailing whitespace |
| Scrapers.CountOfIntToString | lib/scrapers.js:54-55 | a printed count reads back as itself |
| Scrapers.DropTrailingDigits | lib/scrapers.js:56 | `.replace(/\d+$/, '')` removes the maximal run of trailing digits and nothing else |
| Scrapers.Scrape1337x | lib/scrapers.js:52-79 | a row yields a hit exactly when it has a detail path, a name, and a detail page whose magnet link carries a hash; that hash becomes the hit's hash, its seeders are the `Count` of the seeders cell (0 when missing or not a number) and its source is "1337x" |
| Scrapers.ScrapeTgx | lib/scrapers.js:113-135 | a row yields a hit exactly when it has a name (title attribute or link text) and its magnet has a hash, which becomes the hit's hash; its seeders are the `Count` of the seeders text (0 when missing or not a number) and its source is "torrentgalaxy" |
| Scrapers.Visited | lib/scrapers.js:47-110 | only the first `limit` rows are visited (10 for 1337x, 15 for TorrentGalaxy), and all of them when there are that many |
| Scrapers.Search1337x | lib/scrapers.js:31-91 | a failed search gives []; at most 10 hits, no hash twice, each tagged as a 1337x hit |
| Scrapers.Search1337xFrom | lib/scrapers.js:47-79 | every hit comes from one of the first 10 rows |
| Scrapers.Search1337xCovers | lib/scrapers.js:69-71 | every usable row among the first 10 has its hash represented |
| Scrapers.SearchTorrentGalaxy | lib/scrapers.js:94-147 | a failed search gives []; at most 15 hits, no hash twice, each tagged as a TorrentGalaxy hit |
| Scrapers.SearchTorrentGalaxyFrom | lib/scrapers.js:109-135 | every hit comes from one of the first 15 rows |
| Scrapers.SearchTorrentGalaxyCovers | lib/scrapers.js:126-128 | every usable row among the first 15 has its hash represented |
| Scrapers.Insert | lib/scrapers.js:169 | inserting into a list sorted by seeders keeps it sorted and adds exactly that hit |
| Scrapers.SortBySeeders | lib/scrapers.js:169 | the sort yields a permutation in non-increasing seeder order |
| Scrapers.SortSorted | lib/scrapers.js:169 | a list already in seeder order is left as it is |
| Scrapers.SearchAll | lib/scrapers.js:155-172 | the merge is sorted by seeders, holds at most 25 hits, and is exactly the multiset union of the selected scrapers' hits |
| Server.DropTrailingSlashes | server.js:21 | `.replace(/\/+$/, '')` removes the maximal run of trailing slashes and nothing else |
| Server.NormalizeBasePath | server.js:17-22 | a blank value or "/" gives ""; otherwise the result starts with `/` and does not end with one |
| Server.NormalizeBasePathFixed | server.js:17-22 | a normalised base path is a fixed point |
| Server.NormalizeBasePathName | server.js:20 | a bare name gains a leading slash |
| Server.StripBasePath | server.js:24-32 | no base leaves the path alone; otherwise the result is the path itself, "/" for the base, or the remainder after the base, which starts with `/` |
| Server.StripBasePathBelow | server.js:26-29 | the base maps to "/" and `base/rest` to `/rest` |
| Server.StripBasePathTextualPrefix | server.js:27 | a path that merely starts with the base's text (`/appx` under `/app`) is not stripped |
| Server.ParseQueryGroups | server.js:56-70 | a key's value is its single value, or the array of all its values in order, and absent exactly when it never occurs |
| Server.ParseQueryKeepsCount | server.js:56-70 | no value is lost: the values under all keys add up to the number of parameters |
| Server.ParseQueryAsWritten | server.js:56-70 | the code as written never stores a `__proto__` key |
| Server.ParseQueryAsWrittenDropsProto | server.js:59-60 | the code as written equals the intended grouping of the parameters other than `__proto__` |
| Server.ProtoParameterLost | server.js:59-60 | `?__proto__=x` is lost as written, though the intended grouping keeps it |
| Server.SegmentsDetermine | server.js:123-238 | comparing path segments decides equality of paths, so the segment-based classification sees exactly what the literal comparisons see |
| Server.Dispatch | server.js:105-121 | OPTIONS is answered as a preflight, and exactly the methods other than OPTIONS, GET and HEAD are refused; GET and HEAD are routed with the query grouped as written, which is the intended grouping of the parameters other than `__proto__`, so no handler receives a `__proto__` key |
| Server.RouteDropsProto | server.js:119-121 | a request routed with the query grouped as written reaches its handler with the intended grouping of its non-`__proto__` parameters, and never with a `__proto__` key |
| Server.RouteKeepsQuery | server.js:138-210 | each route hands on the query it was given: only `config`, `type`, `id`, `service` and `infoHash` are set from the path, every other key keeps its value, and no other key appears |
| Server.DispatchUnderBase | server.js:119-121 | with a base path configured, `base/rest` is routed exactly as `/rest` is without one |
| Server.RunHandler | server.js:90-99 | a handler that throws yields status 500 with no streams; otherwise its own reply |
| Server.RouteStream | server.js:145-154 | `/stream/T/ID.json` reaches the stream handler with `type` T and `id` ID |
| Server.RouteConfigStream | server.js:156-166 | `/C/stream/T/ID.json` reaches the configured stream handler with `config` C, `type` T and `id` ID |
| Server.RouteApiStream | server.js:156-177 | `/api/stream/T/ID` reaches the stream handler; with a `.json` suffix, though, the configured stream route claims it first, with config "api" |
| Server.RouteResolve | server.js:189-198 | `/resolve/S/H` reaches the resolver with `service` S and `infoHash` H |
| Server.RouteResolveNamed | server.js:156-198 | `/resolve/stream/H/X.json` is claimed by the configured stream route before the resolve route sees it |
| ConfigStream.NormalizeConfigString | api/config-stream.js:9-13 | the result is padded with `=` to a multiple of four, at most three characters longer; each input character maps to its standard base64 form; no space, `-` or `_` remains |
| ConfigStream.NormalizeIdempotent | api/config-stream.js:9-13 | normalising twice equals normalising once |
| ConfigStream.NormalizeUrlSafe | api/config-stream.js:9-13 | the URL-safe spelling of an unpadded base64 body normalises back to the body with its padding (round trip) |
| ConfigStream.DecodeConfig | api/config-stream.js:6-19 | a falsy config decodes to {}; otherwise to the decoder's reading of the normalised string when the decoder succeeds, and to {} when it fails |
| ConfigStream.DecodeConfigOfUrlSafe | api/config-stream.js:6-19 | a URL-safe configuration without its padding is decoded as the decoder reads the standard, padded base64 text it came from |
| ConfigStream.WithSupportLink | api/config-stream.js:21-30 | the streams are kept in order, followed by one entry linking to the support page |
| ConfigStream.WithSupportLinkAddsOne | api/config-stream.js:21-30 | exactly one support link is added |
| ConfigStream.Handle | api/config-stream.js:32-53 | throws exactly for an array id; otherwise 200, with no streams for a non-IMDb id or a failed search, and otherwise the search filtered, then resolved, then given the support link |
| ConfigStream.ServedStatus | api/config-stream.js:32-53 | run through the server's handler wrapper, the reply is 500 with no streams exactly when the query's `id` is an array, and 200 otherwise; only `/api/config-stream` can deliver an array `id`, since the path routes set `id` from the path |
| ConfigStream.RepliesWithoutDebrid | api/config-stream.js:47-49 | without a debrid service every stream before the support link passes the filters and comes from the search |
| ConfigStream.ResolvedHasNoSupportLink | api/config-stream.js:48-49 | resolution never produces a support-page link |
| ConfigStream.SupportLinkOnce | api/config-stream.js:47-49 | a successful reply carries exactly one support link, and it is the last entry |
| ConfigStream.HandleSupportLinkOnce | api/config-stream.js:32-53 | a handled reply to an IMDb id whose search succeeded carries exactly one support link, as its last entry; a reply without a search result carries none |

## Left out

- HTTP, `fetch`, timers and the file system are left out. Every remote answer is a function parameter, and static files are not modelled: a path that matches no route is classified as static-or-missing.
- HTML parsing (cheerio) is left out: a scraper row is a record of the texts and attributes the code reads from it.
- `formatBytes` in `lib/ext.js` uses floating point. It is a parameter.
- `Buffer.from(…, 'base64')` and `JSON.parse` are one decoder oracle. The oracle maps a non-object result to {}. Inside the object, each property becomes a `Value` as follows:
  - a falsy JSON value (`0`, `false`, `null`, `""`) becomes `Str("")`, so `{"quality":0}` gives "any" as lib/ext.js:14 does;
  - any other scalar becomes `Str` of its `String()` form (`true` gives "true", `5` gives "5"), and a nested object becomes `Str("[object Object]")`;
  - an array becomes `List` of its elements' `String()` forms, with `null` elements as "", because `String(array)` joins them that way.
- `decodeURIComponent` on path segments and `URLSearchParams` decoding are left out: segments and query entries arrive decoded.
- Server.Dispatch: it always yields a target, while the code can fail before any handler runs. A malformed escape in a path segment (`GET /stream/movie/%E0.json`) makes `decodeURIComponent` throw a `URIError` (server.js:140, 149-150, 160-162, 172-173, 193-194, 207-208), and a `Host` header that is not a valid host makes `new URL` throw (server.js:119). Both throws happen outside `runHandler`, so the request gets no reply and the request callback's promise is rejected unhandled.
- Ext.EpisodeQuery: JavaScript numbers are doubles, while the model's integers are unbounded. `parseInt` loses digits beyond 2^53, and `String(n)` switches to exponent form from 1e21. For `tt1:1000000000000000000000:1` the code builds `S1e+21E01` (lib/ext.js:83-84), while the model keeps all the digits. Ext.ParseEpisodeId, Ext.TagRoundTrip, Ext.MaxResultsOfIntToString and Scrapers.CountOfIntToString likewise hold for the code only below 2^53.
- ConfigStream.NormalizeConfigString: `.length` counts UTF-16 code units, while the model counts characters. For a configuration holding a character outside the Basic Multilingual Plane, `padEnd` (api/config-stream.js:13) pads to a different length than PaddedLength.
- The eight providers' submit/poll/unlock conversations and their poll loops are left out. They form the `Resolver` oracle; `requestFirst` is modelled over abstract thunk outcomes.
- Service names that are keys of `Object.prototype` (`RESOLVERS["constructor"]`) are left out: only the eight registered keys resolve.
- `toLowerCase` is modelled for ASCII letters only.
- Size fields that hold strings are left out: provider sizes are modelled as numbers, NaN or infinite.
- An array query value with no elements cannot arise from a query string, so it is not modelled.
- The order in which `Promise.allSettled` finishes the two scrapers is the `tgxFirst` parameter. The stable sort leaves ties in that order.
- The `knaben` entry of `searchAll`'s default providers selects nothing, as in the code.
- `api/resolve.js`, the manifests, `lib/support.js` and the tests are left out.
- Server.Route: its own contract only fixes the static-or-missing path. The route classification is stated by the route lemmas, one per route pattern.
- Server.NormalizeBasePath: idempotence is proved only for values that are already normalised (Server.NormalizeBasePathFixed). With whitespace before trailing slashes (`"/a /"`), a second pass trims again and changes the value.

## Findings

| source | as written | input that shows it | evidently intended | confidence | as-written member | corrected member |
|---|---|---|---|---|---|---|
| server.js:59-60 | `query[key] = value` on a plain object literal: for the key `__proto__` this invokes the prototype setter, which ignores a string, so the parameter vanishes | `?__proto__=x` gives a query without `__proto__` | every query parameter is kept under its own key | not executed | Server.ParseQueryAsWritten, Server.ProtoParameterLost, Server.Dispatch | Server.ParseQuery, Server.ParseQueryGroups |

Server.Dispatch follows the code as written. Its contract states the routed
query through the corrected grouping, applied to the parameters other than
`__proto__`.

=== FILE: config_stream.dfy ===
/** api/config-stream.js: the stream handler for a configured install. The
    configuration travels in the path as URL-safe base64 of a JSON object;
    the base64 and JSON decoding is an oracle, the text clean-up before it is
    modelled. */
module ConfigStream {
  import opened Wrappers
  import opened Text
  import opened Js
  import opened Lists
  import opened Records
  import Ext
  import Debrid
  import Server

  const SupportUrl: string := "https://ko-fi.com/sandortoth"

  // ---------------------------------------------------------------------------
  // decodeConfig

  /** The character the clean-up puts in place of `c`: URL-safe base64 and
      the `+` a form decoder turned into a space go back to standard base64. */
  function StandardChar(c: char): (d: char)
    ensures d != ' ' && d != '-' && d != '_'
  {
    if c == ' ' || c == '-' then '+' else if c == '_' then '/' else c
  }

  /** `Math.ceil(n / 4) * 4`. */
  function PaddedLength(n: nat): nat {
    (n + 3) / 4 * 4
  }

  /** The text `decodeConfig` hands to the base64 decoder: spaces and `-`
      become `+`, `_` becomes `/`, and `=` pads the length up to the next
      multiple of four. */
  function NormalizeConfigString(s: string): (r: string)
    ensures |r| % 4 == 0 && |s| <= |r| < |s| + 4
    ensures forall i :: 0 <= i < |s| ==> r[i] == StandardChar(s[i])
    ensures forall i :: |s| <= i < |r| ==> r[i] == '='
    ensures forall i :: 0 <= i < |r| ==> r[i] != ' ' && r[i] != '-' && r[i] != '_'
  {
    var raw := ReplaceChar(s, ' ', '+');
    var normalized := ReplaceChar(ReplaceChar(raw, '-', '+'), '_', '/');
    PadEnd(normalized, PaddedLength(|raw|), '=')
  }

  /** Cleaning up twice is cleaning up once. */
  lemma NormalizeIdempotent(s: string)
    ensures NormalizeConfigString(NormalizeConfigString(s)) == NormalizeConfigString(s)
  {
    var r := NormalizeConfigString(s);
    var r2 := NormalizeConfigString(r);
    assert |r2| == |r|;
    forall i | 0 <= i < |r|
      ensures r2[i] == r[i]
    {
      assert StandardChar(r[i]) == r[i];
    }
  }

  /** The standard base64 alphabet, without the padding character. */
  predicate Base64Char(c: char) {
    'A' <= c <= 'Z' || 'a' <= c <= 'z' || '0' <= c <= '9' || c == '+' || c == '/'
  }

  /** The URL-safe spelling of standard base64 text, without padding: what
      the configure page puts in the path. */
  function UrlSafe(body: string): (u: string)
    ensures |u| == |body|
  {
    seq(|body|, i requires 0 <= i < |body| => if body[i] == '+' then '-' else if body[i] == '/' then '_' else body[i])
  }

  /** The clean-up undoes the URL-safe spelling and restores the padding. */
  lemma NormalizeUrlSafe(body: string, pad: nat)
    requires forall i :: 0 <= i < |body| ==> Base64Char(body[i])
    requires pad < 4 && (|body| + pad) % 4 == 0
    ensures NormalizeConfigString(UrlSafe(body)) == body + Repeat('=', pad)
  {
    var r := NormalizeConfigString(UrlSafe(body));
    var want := body + Repeat('=', pad);
    assert |r| == |want|;
    forall i | 0 <= i < |r|
      ensures r[i] == want[i]
    {
      if i < |body| {
        assert Base64Char(body[i]);
      }
    }
  }

  /** `decodeConfig`: `{}` for a missing or empty value and whenever the
      decoder fails; otherwise what the decoder makes of the cleaned-up text.
      `decode` stands for base64 then `JSON.parse`; a parsed value that is not
      an object reads as `{}`, as `parseConfig` treats it. */
  function DecodeConfig(config: Value, decode: string -> Option<Ext.Query>): (q: Ext.Query)
    ensures !config.Truthy() ==> q == map[]
    ensures q == map[] || decode(NormalizeConfigString(config.ToStr())) == Some(q)
    ensures config.Truthy() && decode(NormalizeConfigString(config.ToStr())).Some? ==>
              q == decode(NormalizeConfigString(config.ToStr())).value
    ensures config.Truthy() && decode(NormalizeConfigString(config.ToStr())).None? ==> q == map[]
  {
    if !config.Truthy() then map[]
    else decode(NormalizeConfigString(config.ToStr())).GetOr(map[])
  }

  /** A configuration the configure page wrote, URL-safe and without its
      padding, reaches the decoder as the standard padded base64 text. */
  lemma DecodeConfigOfUrlSafe(body: string, pad: nat, decode: string -> Option<Ext.Query>)
    requires body != [] && forall i :: 0 <= i < |body| ==> Base64Char(body[i])
    requires pad < 4 && (|body| + pad) % 4 == 0
    ensures decode(body + Repeat('=', pad)).Some? ==>
              DecodeConfig(Str(UrlSafe(body)), decode) == decode(body + Repeat('=', pad)).value
    ensures decode(body + Repeat('=', pad)).None? ==> DecodeConfig(Str(UrlSafe(body)), decode) == map[]
  {
    NormalizeUrlSafe(body, pad);
  }

  // ---------------------------------------------------------------------------
  // withSupportLink

  /** The entry pointing at the author's support page. */
  const SupportEntry: Stream :=
    Stream(AddonName, "\U{2615} Support me\nIf Flix-Finder helped you, buy me a coffee", "", "", SupportUrl)

  /** `withSupportLink`: the streams, then the support entry. */
  function WithSupportLink(streams: seq<Stream>): (r: seq<Stream>)
    ensures |r| == |streams| + 1 && r[..|streams|] == streams
    ensures r[|streams|].externalUrl == SupportUrl
  {
    streams + [SupportEntry]
  }

  /** The number of entries linking to the support page. */
  function SupportLinks(streams: seq<Stream>): nat {
    if streams == [] then 0
    else (if streams[0].externalUrl == SupportUrl then 1 else 0) + SupportLinks(streams[1..])
  }

  lemma {:induction false} SupportLinksConcat(a: seq<Stream>, b: seq<Stream>)
    ensures SupportLinks(a + b) == SupportLinks(a) + SupportLinks(b)
  {
    if a != [] {
      assert (a + b)[1..] == a[1..] + b;
      SupportLinksConcat(a[1..], b);
    } else {
      assert a + b == b;
    }
  }

  lemma {:induction false} NoSupportLinks(streams: seq<Stream>)
    requires forall i :: 0 <= i < |streams| ==> streams[i].externalUrl != SupportUrl
    ensures SupportLinks(streams) == 0
  {
    if streams != [] {
      NoSupportLinks(streams[1..]);
    }
  }

  /** Appending adds exactly one support link. */
  lemma WithSupportLinkAddsOne(streams: seq<Stream>)
    ensures SupportLinks(WithSupportLink(streams)) == SupportLinks(streams) + 1
  {
    SupportLinksConcat(streams, [SupportEntry]);
    assert [SupportEntry][1..] == [];
  }

  // ---------------------------------------------------------------------------
  // The handler

  /** The handler. `decode` is the configuration decoder, `meta`, `knaben`
      and `formatBytes` are the search's oracles, `resolve` the debrid
      provider. `Failure` is an exception leaving the handler: an `id` given
      twice in the query string arrives as an array, which has no `split`. */
  function Handle(query: Ext.Query, decode: string -> Option<Ext.Query>,
                  meta: (string, string) -> Result<string, string>,
                  knaben: Ext.KnabenRequest -> Result<seq<Ext.Hit>, string>,
                  formatBytes: int -> string, resolve: Debrid.Resolver): (r: Result<Reply, string>)
    ensures r.Failure? <==> Ext.Get(query, "id").List?
    ensures r.Success? ==> r.value.status == 200
    ensures r.Success? && Ext.NormalizeImdbId(Ext.Get(query, "id").s).None? ==> r.value.streams == []
    ensures r.Success? && Ext.NormalizeImdbId(Ext.Get(query, "id").s).Some? ==>
      var config := Ext.ParseConfig(DecodeConfig(Ext.Get(query, "config"), decode));
      match Ext.SearchTorrents(Ext.Get(query, "id").s, Ext.Get(query, "type").ToStr(), meta, knaben, formatBytes)
      case Failure(_) => r.value.streams == []
      case Success(found) =>
        r.value.streams == WithSupportLink(Debrid.ResolveDebridStreams(Ext.FilterStreams(found, config), config, resolve))
  {
    match Ext.Get(query, "id")
    case List(_) => Failure("id.split is not a function")
    case Str(id) =>
      if Ext.NormalizeImdbId(id).None? then Success(Reply(200, []))
      else
        var config := Ext.ParseConfig(DecodeConfig(Ext.Get(query, "config"), decode));
        match Ext.SearchTorrents(id, Ext.Get(query, "type").ToStr(), meta, knaben, formatBytes)
        case Failure(_) => Success(Reply(200, []))
        case Success(found) =>
          var filtered := Ext.FilterStreams(found, config);
          var resolved := Debrid.ResolveDebridStreams(filtered, config, resolve);
          Success(Reply(200, WithSupportLink(resolved)))
  }

  /** Run by the server, the handler answers 500 exactly when the query's
      `id` was given more than once, and 200 otherwise. Only the query-string
      route can see a repeated `id`: the path routes set `id` from the path. */
  lemma ServedStatus(query: Ext.Query, decode: string -> Option<Ext.Query>,
                     meta: (string, string) -> Result<string, string>,
                     knaben: Ext.KnabenRequest -> Result<seq<Ext.Hit>, string>,
                     formatBytes: int -> string, resolve: Debrid.Resolver)
    ensures var reply := Server.RunHandler(Handle(query, decode, meta, knaben, formatBytes, resolve));
      && (reply.status == 500 <==> Ext.Get(query, "id").List?)
      && (reply.status != 500 ==> reply.status == 200)
      && (reply.status == 500 ==> reply.streams == [])
  {
  }

  /** Without an active debrid service, a successful reply lists streams
      that each pass the configured filters, followed by the support link. */
  lemma RepliesWithoutDebrid(found: seq<Stream>, config: Config, resolve: Debrid.Resolver)
    requires !Debrid.Active(config)
    ensures var r := WithSupportLink(Debrid.ResolveDebridStreams(Ext.FilterStreams(found, config), config, resolve));
      && r[|r| - 1] == SupportEntry
      && forall i :: 0 <= i < |r| - 1 ==> Ext.Keep(config, r[i]) && r[i] in found
  {
    var filtered := Ext.FilterStreams(found, config);
    Ext.SubsequenceKeeps(filtered, found);
  }

  /** Resolved streams carry no external link. */
  lemma ResultsHaveNoLink(p: Debrid.Provider, token: string, resolve: Debrid.Resolver, streams: seq<Stream>)
    ensures var results := Debrid.Collect(Debrid.Attempts(p, token, resolve, streams)).results;
      forall j :: 0 <= j < |results| ==> results[j].externalUrl == []
  {
    var attempts := Debrid.Attempts(p, token, resolve, streams);
    var results := Debrid.Collect(attempts).results;
    var idx := Debrid.ResultsInInputOrder(attempts);
    forall j | 0 <= j < |results|
      ensures results[j].externalUrl == []
    {
      assert attempts[idx[j]] == Debrid.Streamed(results[j]);
    }
  }

  /** Resolution with a provider links to that provider, never to the
      support page. */
  lemma ResolveWithHasNoSupportLink(p: Debrid.Provider, token: string, resolve: Debrid.Resolver, streams: seq<Stream>)
    requires forall i :: 0 <= i < |streams| ==> streams[i].externalUrl != SupportUrl
    ensures var r := Debrid.ResolveWith(p, token, resolve, streams);
      forall i :: 0 <= i < |r| ==> r[i].externalUrl != SupportUrl
  {
    var r := Debrid.ResolveWith(p, token, resolve, streams);
    var attempts := Debrid.Attempts(p, token, resolve, streams);
    if Debrid.AnyStreamed(attempts) {
      ResultsHaveNoLink(p, token, resolve, streams);
      assert r == Debrid.Collect(attempts).results;
      assert forall j :: 0 <= j < |r| ==> r[j].externalUrl == [];
    } else if Debrid.AnyFailed(attempts) {
      assert r[0].externalUrl == Debrid.HomeUrl(p);
      forall j | 0 <= j < |r|
        ensures r[j].externalUrl != SupportUrl
      {
        if j > 0 {
          assert r[j] == streams[j - 1];
        }
      }
    }
  }

  /** `resolveDebridStreams` adds no support link. */
  lemma ResolvedHasNoSupportLink(streams: seq<Stream>, config: Config, resolve: Debrid.Resolver)
    requires forall i :: 0 <= i < |streams| ==> streams[i].externalUrl != SupportUrl
    ensures var r := Debrid.ResolveDebridStreams(streams, config, resolve);
      forall i :: 0 <= i < |r| ==> r[i].externalUrl != SupportUrl
  {
    if Debrid.Active(config) {
      ResolveWithHasNoSupportLink(Debrid.ProviderOf(Debrid.ServiceName(config)).value, config.debridToken, resolve, streams);
    }
  }

  /** A successful reply to a searchable id carries exactly one support link,
      at the end, provided the search itself produced none. */
  lemma SupportLinkOnce(found: seq<Stream>, config: Config, resolve: Debrid.Resolver)
    requires forall i :: 0 <= i < |found| ==> found[i].externalUrl != SupportUrl
    ensures var r := WithSupportLink(Debrid.ResolveDebridStreams(Ext.FilterStreams(found, config), config, resolve));
      SupportLinks(r) == 1 && r[|r| - 1].externalUrl == SupportUrl
  {
    var filtered := Ext.FilterStreams(found, config);
    Ext.SubsequenceKeeps(filtered, found);
    ResolvedHasNoSupportLink(filtered, config, resolve);
    var resolved := Debrid.ResolveDebridStreams(filtered, config, resolve);
    NoSupportLinks(resolved);
    WithSupportLinkAddsOne(resolved);
  }

  /** Handled end to end: a reply to a searchable id whose search succeeded
      carries exactly one support link, as its last entry; a reply without a
      search result carries none. */
  lemma HandleSupportLinkOnce(query: Ext.Query, decode: string -> Option<Ext.Query>,
                              meta: (string, string) -> Result<string, string>,
                              knaben: Ext.KnabenRequest -> Result<seq<Ext.Hit>, string>,
                              formatBytes: int -> string, resolve: Debrid.Resolver)
    ensures var r := Handle(query, decode, meta, knaben, formatBytes, resolve);
      r.Success? && Ext.NormalizeImdbId(Ext.Get(query, "id").s).Some? &&
      Ext.SearchTorrents(Ext.Get(query, "id").s, Ext.Get(query, "type").ToStr(), meta, knaben, formatBytes).Success? ==>
        SupportLinks(r.value.streams) == 1 && r.value.streams[|r.value.streams| - 1] == SupportEntry
    ensures var r := Handle(query, decode, meta, knaben, formatBytes, resolve);
      r.Success? && (Ext.NormalizeImdbId(Ext.Get(query, "id").s).None? ||
      Ext.SearchTorrents(Ext.Get(query, "id").s, Ext.Get(query, "type").ToStr(), meta, knaben, formatBytes).Failure?) ==>
        SupportLinks(r.value.streams) == 0
  {
    if Ext.Get(query, "id").Str? && Ext.NormalizeImdbId(Ext.Get(query, "id").s).Some? {
      var search := Ext.SearchTorrents(Ext.Get(query, "id").s, Ext.Get(query, "type").ToStr(), meta, knaben, formatBytes);
      if search.Success? {
        var config := Ext.ParseConfig(DecodeConfig(Ext.Get(query, "config"), decode));
        SupportLinkOnce(search.value, config, resolve);
      }
    }
  }
}

=== FILE: debrid.dfy ===
/** lib/debrid.js: the provider-independent logic of the debrid resolver.
    The per-provider submit/poll/unlock protocols are HTTP conversations and are
    represented by an oracle that, given the provider, the magnet URI and the
    token, either yields a resolved link or fails with a message. */
module Debrid {
  import opened Wrappers
  import opened Text
  import opened Lists
  import opened Records
  import Magnet

  // ---------------------------------------------------------------------------
  // btihFromMagnet

  predicate IsLowerHexDigit(c: char) {
    '0' <= c <= '9' || 'a' <= c <= 'f'
  }

  /** `btihFromMagnet`: the 40 hexadecimal characters after the leftmost
      `urn:btih:`, lower-cased, or nothing. */
  function BtihFromMagnet(magnet: string): (r: Option<string>)
    ensures r.None? <==> forall i :: !Magnet.BtihAt(magnet, i, 40, IsHexDigit)
    ensures r.Some? ==> |r.value| == 40
    ensures r.Some? ==> forall k :: 0 <= k < 40 ==> IsLowerHexDigit(r.value[k])
    ensures r.Some? ==> exists i :: Magnet.LeftmostBtih(magnet, i, 40, IsHexDigit)
                                    && r.value == ToLower(Magnet.Captured(magnet, i, 40))
  {
    var r := Magnet.FindBtih(magnet, 40, IsHexDigit);
    match Magnet.FirstBtihFrom(magnet, 0, 40, IsHexDigit)
    case None => r
    case Some(i) =>
      assert Magnet.LeftmostBtih(magnet, i, 40, IsHexDigit);
      assert r.value == ToLower(Magnet.Captured(magnet, i, 40));
      assert forall k :: 0 <= k < 40 ==> IsLowerHexDigit(r.value[k]) by {
        forall k | 0 <= k < 40
          ensures IsLowerHexDigit(r.value[k])
        {
          assert IsHexDigit(magnet[i + |Magnet.BtihPrefix| + k]);
        }
      }
      r
  }

  // ---------------------------------------------------------------------------
  // normalizeFile and pickLargestVideoFile

  /** A JavaScript number read from a provider's file record. */
  datatype Num = Finite(n: int) | NaN | Infinite {

    /** `NaN` and `0` are falsy; infinities are truthy. */
    predicate Truthy() {
      (Finite? && n != 0) || Infinite?
    }
  }

  /** A provider's file record, reduced to the fields `normalizeFile` consults;
      an absent string field is "" and an absent number is `Finite(0)`. */
  datatype RawFile = RawFile(
    name: string, filename: string, file_name: string, short_name: string, path: string,
    size: Num, bytes: Num, length: Num, filesize: Num,
    url: string, download: string, downloadUrl: string, link: string)

  /** A normalized file: the original record plus the derived `__name`,
      `__nameLower`, `__size` and `__url`. */
  datatype File = File(raw: RawFile, name: string, nameLower: string, size: int, url: Option<string>)

  /** `xs[i]` is the first truthy number: the one an `||` chain stops at. */
  predicate FirstTruthyAt(xs: seq<Num>, i: int) {
    0 <= i < |xs| && xs[i].Truthy() && forall j :: 0 <= j < i ==> !xs[j].Truthy()
  }

  /** `xs[i]` is the first non-empty string: the one an `||` chain stops at. */
  predicate FirstNonEmptyAt(xs: seq<string>, i: int) {
    0 <= i < |xs| && xs[i] != [] && forall j :: 0 <= j < i ==> xs[j] == []
  }

  /** `a || b || ...` over strings, "" when all are empty. */
  function FirstNonEmpty(xs: seq<string>): (r: string)
    ensures r != [] <==> exists i :: 0 <= i < |xs| && xs[i] != []
    ensures r != [] ==> exists i :: 0 <= i < |xs| && xs[i] == r && forall j :: 0 <= j < i ==> xs[j] == []
    ensures forall i :: FirstNonEmptyAt(xs, i) ==> r == xs[i]
  {
    if xs == [] then []
    else if xs[0] != [] then xs[0]
    else
      var r := FirstNonEmpty(xs[1..]);
      assert forall i :: 1 <= i < |xs| ==> xs[i] == xs[1..][i - 1];
      assert forall i :: FirstNonEmptyAt(xs, i) ==> i > 0 && FirstNonEmptyAt(xs[1..], i - 1);
      r
  }

  /** `a || b || ... || 0` over numbers. */
  function FirstTruthy(xs: seq<Num>): (r: Num)
    ensures r.Truthy() || r == Finite(0)
    ensures r.Truthy() ==> exists i :: 0 <= i < |xs| && xs[i] == r && forall j :: 0 <= j < i ==> !xs[j].Truthy()
    ensures !r.Truthy() ==> forall i :: 0 <= i < |xs| ==> !xs[i].Truthy()
    ensures forall i :: FirstTruthyAt(xs, i) ==> r == xs[i]
  {
    if xs == [] then Finite(0)
    else if xs[0].Truthy() then xs[0]
    else
      var r := FirstTruthy(xs[1..]);
      assert forall i :: 1 <= i < |xs| ==> xs[i] == xs[1..][i - 1];
      assert forall i :: FirstTruthyAt(xs, i) ==> i > 0 && FirstTruthyAt(xs[1..], i - 1);
      r
  }

  function NameFields(f: RawFile): seq<string> {
    [f.name, f.filename, f.file_name, f.short_name, f.path]
  }

  function SizeFields(f: RawFile): (r: seq<Num>)
    ensures |r| == 4
  {
    [f.size, f.bytes, f.length, f.filesize]
  }

  function UrlFields(f: RawFile): (r: seq<string>)
    ensures |r| == 4
  {
    [f.url, f.download, f.downloadUrl, f.link]
  }

  /** `Number(size || bytes || length || filesize || 0)`, with `NaN` and the
      infinities read as 0: the first truthy field decides, and an infinite
      one gives 0. */
  function SizeOf(f: RawFile): (size: int)
    ensures forall i :: FirstTruthyAt(SizeFields(f), i) ==>
              size == (if SizeFields(f)[i].Finite? then SizeFields(f)[i].n else 0)
    ensures (forall i :: 0 <= i < 4 ==> !SizeFields(f)[i].Truthy()) ==> size == 0
  {
    var n := FirstTruthy(SizeFields(f));
    if n.Finite? then n.n else 0
  }

  /** `url || download || downloadUrl || link || null`: the first non-empty
      field, or none. */
  function UrlOf(f: RawFile): (url: Option<string>)
    ensures url.None? <==> forall i :: 0 <= i < 4 ==> UrlFields(f)[i] == []
    ensures forall i :: FirstNonEmptyAt(UrlFields(f), i) ==> url == Some(UrlFields(f)[i])
  {
    var u := FirstNonEmpty(UrlFields(f));
    if u == [] then None else Some(u)
  }

  /** `normalizeFile`. */
  function NormalizeFile(f: RawFile): (r: File)
    ensures r.raw == f
    ensures r.name == Trim(FirstNonEmpty(NameFields(f))) && r.nameLower == ToLower(r.name)
    ensures r.size == SizeOf(f) && r.url == UrlOf(f)
    ensures Trimmed(r.name) && IsLower(r.nameLower)
  {
    var name := Trim(FirstNonEmpty(NameFields(f)));
    ToLowerIsLower(name);
    File(f, name, ToLower(name), SizeOf(f), UrlOf(f))
  }

  const VideoExtensions: seq<string> := [".mkv", ".mp4", ".avi", ".mov", ".m4v", ".wmv", ".ts", ".m2ts", ".webm"]

  /** The lower-cased name ends in one of the video extensions. */
  predicate IsVideo(f: File) {
    exists i :: 0 <= i < |VideoExtensions| && EndsWith(f.nameLower, VideoExtensions[i])
  }

  function Normalized(files: seq<RawFile>): (n: seq<File>)
    ensures |n| == |files|
    ensures forall i :: 0 <= i < |files| ==> n[i] == NormalizeFile(files[i])
  {
    seq(|files|, i requires 0 <= i < |files| => NormalizeFile(files[i]))
  }

  /** Some file of the list has a video extension. */
  predicate HasVideo(n: seq<File>) {
    exists i :: 0 <= i < |n| && IsVideo(n[i])
  }

  /** The file at index `i` takes part in the size comparison: it is a video,
      or the list holds no video at all. */
  predicate Eligible(n: seq<File>, i: nat)
    requires i < |n|
  {
    IsVideo(n[i]) || !HasVideo(n)
  }

  /** The list `reduce` runs over: the videos if there are any, else every file. */
  function Candidates(n: seq<File>): seq<File> {
    var videos := Filter(IsVideo, n);
    if |videos| > 0 then videos else n
  }

  /** `candidates.reduce((largest, current) => current.__size > largest.__size ? current : largest)`
      from index `i` on, with `best` the index of the running maximum. */
  function ReduceLargest(c: seq<File>, i: nat, best: nat): (k: nat)
    requires best < i <= |c|
    requires forall j :: 0 <= j < i ==> c[j].size <= c[best].size
    requires forall j :: 0 <= j < best ==> c[j].size < c[best].size
    ensures k < |c|
    ensures forall j :: 0 <= j < |c| ==> c[j].size <= c[k].size
    ensures forall j :: 0 <= j < k ==> c[j].size < c[k].size
    decreases |c| - i
  {
    if i == |c| then best
    else ReduceLargest(c, i + 1, if c[i].size > c[best].size then i else best)
  }

  /** `f` is the file `pickLargestVideoFile` must return from the normalized
      list `n`: an eligible entry at least as large as every eligible entry and
      strictly larger than every eligible entry before it. */
  ghost predicate IsLargestEligible(n: seq<File>, f: File) {
    exists k :: 0 <= k < |n| && f == n[k] && Eligible(n, k)
      && (forall j :: 0 <= j < |n| && Eligible(n, j) ==> n[j].size <= f.size)
      && (forall j :: 0 <= j < k && Eligible(n, j) ==> n[j].size < f.size)
  }

  /** `pickLargestVideoFile`, applied to the normalized list. */
  function PickLargest(n: seq<File>): (r: Option<File>)
    ensures r.None? <==> n == []
    ensures r.Some? ==> IsLargestEligible(n, r.value)
    ensures r.Some? ==> (IsVideo(r.value) <==> HasVideo(n))
  {
    if n == [] then None
    else
      var c := Candidates(n);
      CandidatesNonEmpty(n);
      var best := ReduceLargest(c, 1, 0);
      LargestCandidateIsLargestEligible(n, best);
      Some(c[best])
  }

  /** `pickLargestVideoFile`: null for an empty list, otherwise the largest
      video, or the largest file when there is no video. */
  function PickLargestVideoFile(files: seq<RawFile>): (r: Option<File>)
    ensures r.None? <==> files == []
    ensures r.Some? ==> IsLargestEligible(Normalized(files), r.value)
    ensures r.Some? ==> (IsVideo(r.value) <==> HasVideo(Normalized(files)))
  {
    PickLargest(Normalized(files))
  }

  lemma CandidatesNonEmpty(n: seq<File>)
    requires n != []
    ensures |Candidates(n)| > 0
  {
  }

  /** The video filter is non-empty exactly when some file is a video. */
  lemma VideosExist(n: seq<File>)
    ensures |Filter(IsVideo, n)| > 0 <==> HasVideo(n)
  {
    if HasVideo(n) {
      var i :| 0 <= i < |n| && IsVideo(n[i]);
      var m := FilterFind(IsVideo, n, i);
    }
    if |Filter(IsVideo, n)| > 0 {
      var k := FilterPosition(IsVideo, n, 0);
    }
  }

  /** A largest candidate, earliest among equals, is the file the source must pick. */
  lemma LargestCandidateIsLargestEligible(n: seq<File>, b: nat)
    requires b < |Candidates(n)|
    requires forall j :: 0 <= j < |Candidates(n)| ==> Candidates(n)[j].size <= Candidates(n)[b].size
    requires forall j :: 0 <= j < b ==> Candidates(n)[j].size < Candidates(n)[b].size
    ensures IsLargestEligible(n, Candidates(n)[b])
    ensures IsVideo(Candidates(n)[b]) <==> HasVideo(n)
  {
    VideosExist(n);
    if HasVideo(n) {
      LargestVideoIsLargestEligible(n, Filter(IsVideo, n), b);
    } else {
      assert Eligible(n, b);
    }
  }

  lemma LargestVideoIsLargestEligible(n: seq<File>, videos: seq<File>, b: nat)
    requires videos == Filter(IsVideo, n)
    requires b < |videos|
    requires forall j :: 0 <= j < |videos| ==> videos[j].size <= videos[b].size
    requires forall j :: 0 <= j < b ==> videos[j].size < videos[b].size
    ensures IsLargestEligible(n, videos[b])
    ensures IsVideo(videos[b])
  {
    var k := FilterPosition(IsVideo, n, b);
    assert HasVideo(n);
    forall j | 0 <= j < |n| && Eligible(n, j)
      ensures n[j].size <= videos[b].size
      ensures j < k ==> n[j].size < videos[b].size
    {
      var m := FilterFind(IsVideo, n, j);
      if j < k {
        var m' := FilterFind(IsVideo, n[..k], j);
        assert videos[..b][m'] == n[j];
      }
    }
    assert Eligible(n, k);
  }

  // ---------------------------------------------------------------------------
  // requestFirst

  /** What one request thunk does: yield a value, yield `null`/`undefined`, or throw. */
  datatype Call<T> = Returns(value: T) | ReturnsNull | Throws(message: string)

  /** The outcome of `requestFirst` and how many thunks it invoked. */
  datatype Completion<T> = Completion(result: Result<T, string>, invoked: nat)

  /** The message of the last thunk that throws, if any. */
  function LastThrown<T>(calls: seq<Call<T>>): Option<string> {
    if calls == [] then None
    else if calls[|calls| - 1].Throws? then Some(calls[|calls| - 1].message)
    else LastThrown(calls[..|calls| - 1])
  }

  /** The loop of `requestFirst` from thunk `i` on, `lastError` the last error caught. */
  function RequestFirstFrom<T>(calls: seq<Call<T>>, i: nat, lastError: Option<string>): (r: Completion<T>)
    requires i <= |calls|
    requires lastError == LastThrown(calls[..i])
    ensures i <= r.invoked <= |calls|
    ensures r.result.Success? ==> r.invoked > i && calls[r.invoked - 1] == Returns(r.result.value)
    ensures forall j :: i <= j < r.invoked - 1 ==> !calls[j].Returns?
    ensures r.result.Failure? ==> r.invoked == |calls|
    ensures r.result.Failure? ==> forall j :: i <= j < |calls| ==> !calls[j].Returns?
    ensures r.result.Failure? ==> r.result.error == LastThrown(calls).GetOr("No request succeeded")
    decreases |calls| - i
  {
    if i == |calls| then
      assert calls[..i] == calls;
      Completion(Failure(lastError.GetOr("No request succeeded")), |calls|)
    else
      assert calls[..i + 1][..i] == calls[..i];
      match calls[i]
      case Returns(v) => Completion(Success(v), i + 1)
      case ReturnsNull => RequestFirstFrom(calls, i + 1, lastError)
      case Throws(e) => RequestFirstFrom(calls, i + 1, Some(e))
  }

  /** `requestFirst`: the first non-null value in list order; otherwise the
      last error thrown, or "No request succeeded" when none threw. */
  function RequestFirst<T>(calls: seq<Call<T>>): (r: Completion<T>)
    ensures r.invoked <= |calls|
    ensures r.result.Success? <==> exists i :: 0 <= i < |calls| && calls[i].Returns?
    ensures r.result.Success? ==> r.invoked > 0 && calls[r.invoked - 1] == Returns(r.result.value)
    ensures forall j :: 0 <= j < r.invoked - 1 ==> !calls[j].Returns?
    ensures r.result.Failure? ==> r.invoked == |calls|
    ensures r.result.Failure? ==> r.result.error == LastThrown(calls).GetOr("No request succeeded")
  {
    assert calls[..0] == [];
    RequestFirstFrom(calls, 0, None)
  }

  /** Thunks after the one that yields a value are never invoked: replacing
      them changes nothing. */
  lemma {:induction false} RequestFirstFromIgnoresLaterCalls<T>(calls: seq<Call<T>>, other: seq<Call<T>>, i: nat, lastError: Option<string>)
    requires i <= |calls| && lastError == LastThrown(calls[..i])
    requires RequestFirstFrom(calls, i, lastError).result.Success?
    requires RequestFirstFrom(calls, i, lastError).invoked <= |other|
    requires other[..RequestFirstFrom(calls, i, lastError).invoked] == calls[..RequestFirstFrom(calls, i, lastError).invoked]
    ensures i <= |other| && lastError == LastThrown(other[..i])
    ensures RequestFirstFrom(other, i, lastError) == RequestFirstFrom(calls, i, lastError)
    decreases |calls| - i
  {
    var n := RequestFirstFrom(calls, i, lastError).invoked;
    assert other[..i] == other[..n][..i] == calls[..n][..i] == calls[..i];
    assert other[i] == other[..n][i] == calls[..n][i] == calls[i];
    assert calls[..i + 1][..i] == calls[..i];
    match calls[i]
    case Returns(v) =>
    case ReturnsNull =>
      RequestFirstFromIgnoresLaterCalls(calls, other, i + 1, lastError);
    case Throws(e) =>
      RequestFirstFromIgnoresLaterCalls(calls, other, i + 1, Some(e));
  }

  lemma RequestFirstIgnoresLaterCalls<T>(calls: seq<Call<T>>, other: seq<Call<T>>)
    requires RequestFirst(calls).result.Success?
    requires RequestFirst(calls).invoked <= |other|
    requires other[..RequestFirst(calls).invoked] == calls[..RequestFirst(calls).invoked]
    ensures RequestFirst(other) == RequestFirst(calls)
  {
    assert calls[..0] == [] && other[..0] == [];
    RequestFirstFromIgnoresLaterCalls(calls, other, 0, None);
  }

  // ---------------------------------------------------------------------------
  // parsePutioToken

  /** `parsePutioToken`: the trimmed token, cut after its last `@`. */
  function ParsePutioToken(raw: string): (r: string)
    ensures '@' !in r
    ensures Trim(raw) == [] ==> r == []
    ensures '@' !in Trim(raw) ==> r == Trim(raw)
    ensures '@' in Trim(raw) ==> EndsWith(Trim(raw), "@" + r)
  {
    var token := Trim(raw);
    if token == [] then []
    else
      var at := LastIndexOf(token, '@');
      if at >= 0 then
        AfterLastSeparator(token, '@', at);
        token[at + 1..]
      else
        assert '@' !in token by {
          forall j | 0 <= j < |token|
            ensures token[j] != '@'
          {
          }
        }
        token
  }

  /** The tail after the last occurrence of `c` holds no `c`, and `c` followed
      by that tail ends the string. */
  lemma AfterLastSeparator(s: string, c: char, at: nat)
    requires at < |s| && s[at] == c
    requires forall j :: at < j < |s| ==> s[j] != c
    ensures c !in s[at + 1..]
    ensures EndsWith(s, [c] + s[at + 1..])
  {
    assert s[at..] == [c] + s[at + 1..];
    var t := s[at + 1..];
    assert forall j :: 0 <= j < |t| ==> t[j] == s[at + 1 + j];
  }

  // ---------------------------------------------------------------------------
  // resolveDebridStreams

  /** The keys of `RESOLVERS`. */
  datatype Provider = RealDebrid | TorBox | AllDebrid | DebridLink | Premiumize | Offcloud | PutIo | EasyDebrid

  function ServiceKey(p: Provider): string {
    match p
    case RealDebrid => "realdebrid"
    case TorBox => "torbox"
    case AllDebrid => "alldebrid"
    case DebridLink => "debridlink"
    case Premiumize => "premiumize"
    case Offcloud => "offcloud"
    case PutIo => "putio"
    case EasyDebrid => "easydebrid"
  }

  /** `RESOLVERS[service]`: the provider registered under a key, if any. */
  function ProviderOf(service: string): (r: Option<Provider>)
    ensures r.Some? ==> ServiceKey(r.value) == service
  {
    if service == "realdebrid" then Some(RealDebrid)
    else if service == "torbox" then Some(TorBox)
    else if service == "alldebrid" then Some(AllDebrid)
    else if service == "debridlink" then Some(DebridLink)
    else if service == "premiumize" then Some(Premiumize)
    else if service == "offcloud" then Some(Offcloud)
    else if service == "putio" then Some(PutIo)
    else if service == "easydebrid" then Some(EasyDebrid)
    else None
  }

  /** Every provider is found under its own key. */
  lemma ProviderOfServiceKey(p: Provider)
    ensures ProviderOf(ServiceKey(p)) == Some(p)
  {
  }

  /** `BADGES`. */
  function Badge(p: Provider): string {
    match p
    case RealDebrid => "RD"
    case TorBox => "TB"
    case AllDebrid => "AD"
    case DebridLink => "DL"
    case Premiumize => "PM"
    case Offcloud => "OC"
    case PutIo => "PUT"
    case EasyDebrid => "ED"
  }

  /** `HOME_URLS`. */
  function HomeUrl(p: Provider): string {
    match p
    case RealDebrid => "https://real-debrid.com"
    case TorBox => "https://torbox.app"
    case AllDebrid => "https://alldebrid.com"
    case DebridLink => "https://debrid-link.com"
    case Premiumize => "https://premiumize.me"
    case Offcloud => "https://offcloud.com"
    case PutIo => "https://put.io"
    case EasyDebrid => "https://easydebrid.com"
  }

  /** What a provider's resolver returns: `{ url, title, name }`. */
  datatype Resolved = Resolved(url: string, title: string, name: string)

  /** A provider's submit/poll/unlock conversation, as an oracle from the
      provider, the magnet URI and the token to a result or an error message. */
  type Resolver = (Provider, string, string) -> Result<Resolved, string>

  /** The service name `resolveDebridStreams` looks up: lower-cased, `none` when unset. */
  function ServiceName(config: Config): string {
    ToLower(if config.debridService == [] then "none" else config.debridService)
  }

  /** Resolution runs at all: a known service and a token. */
  predicate Active(config: Config) {
    ProviderOf(ServiceName(config)).Some? && config.debridToken != []
  }

  /** The magnet URI tried for a stream: one built from its hash, else its url. */
  function MagnetOf(s: Stream): string {
    if s.infoHash != [] then Magnet.MagnetPrefix + s.infoHash else s.url
  }

  /** `/^magnet:\?/i`. */
  predicate IsMagnetUri(m: string) {
    |m| >= 8 && ToLower(m[..7]) == "magnet:" && m[7] == '?'
  }

  /** The title of a resolved stream: the provider badge in brackets, with a
      `+` when the resolver's name ends in `+` (served from cache), then the
      resolver's title. */
  function BadgedTitle(p: Provider, res: Resolved): (t: string)
    ensures StartsWith(t, "[" + Badge(p))
    ensures EndsWith(t, "] " + res.title)
    ensures |t| == |Badge(p)| + |res.title| + (if EndsWith(res.name, "+") then 4 else 3)
    ensures t[|Badge(p)| + 1] == '+' <==> EndsWith(res.name, "+")
  {
    var badge := if EndsWith(res.name, "+") then "[" + Badge(p) + "+]" else "[" + Badge(p) + "]";
    badge + " " + res.title
  }

  /** What one pass of the loop body does with one stream. */
  datatype Attempt = Skipped | Streamed(stream: Stream) | Failed(message: string)

  function AttemptStream(p: Provider, token: string, resolve: Resolver, s: Stream): (a: Attempt)
    ensures a.Skipped? <==> !IsMagnetUri(MagnetOf(s))
    ensures a.Streamed? <==> IsMagnetUri(MagnetOf(s)) && resolve(p, MagnetOf(s), token).Success?
    ensures a.Streamed? ==> a.stream.name == AddonName && a.stream.url == resolve(p, MagnetOf(s), token).value.url
                            && a.stream.externalUrl == [] && a.stream.infoHash == []
    ensures a.Streamed? ==> a.stream.title == BadgedTitle(p, resolve(p, MagnetOf(s), token).value)
    ensures a.Failed? ==> a.message != []
    ensures a.Failed? && resolve(p, MagnetOf(s), token).error != [] ==> a.message == resolve(p, MagnetOf(s), token).error
  {
    var magnet := MagnetOf(s);
    if !IsMagnetUri(magnet) then Skipped
    else match resolve(p, magnet, token)
      case Success(res) => Streamed(Stream(AddonName, BadgedTitle(p, res), res.url, [], []))
      case Failure(msg) => Failed(if msg == [] then "Debrid failed" else msg)
  }

  /** The attempt the loop body makes for each stream. */
  function Attempts(p: Provider, token: string, resolve: Resolver, streams: seq<Stream>): (a: seq<Attempt>)
    ensures |a| == |streams|
    ensures forall i :: 0 <= i < |streams| ==> a[i] == AttemptStream(p, token, resolve, streams[i])
  {
    seq(|streams|, i requires 0 <= i < |streams| => AttemptStream(p, token, resolve, streams[i]))
  }

  /** The `results` and `errors` arrays the loop fills. */
  datatype Batch = Batch(results: seq<Stream>, errors: seq<string>)

  /** The sequential loop over the attempts, first stream first: resolved
      streams go to `results`, failure messages to `errors`. */
  function Collect(attempts: seq<Attempt>): (b: Batch)
    ensures |b.results| + |b.errors| <= |attempts|
  {
    if attempts == [] then Batch([], [])
    else
      var rest := Collect(attempts[1..]);
      match attempts[0]
      case Skipped => rest
      case Streamed(s) => Batch([s] + rest.results, rest.errors)
      case Failed(m) => Batch(rest.results, [m] + rest.errors)
  }

  /** Some attempt resolved a stream. */
  ghost predicate AnyStreamed(attempts: seq<Attempt>) {
    exists i :: 0 <= i < |attempts| && attempts[i].Streamed?
  }

  /** Some attempt failed. */
  ghost predicate AnyFailed(attempts: seq<Attempt>) {
    exists i :: 0 <= i < |attempts| && attempts[i].Failed?
  }

  /** The loop's arrays agree with the attempts: `results` is empty exactly
      when no stream resolves and `errors` exactly when none fails. */
  lemma {:induction false} CollectMatchesAttempts(attempts: seq<Attempt>)
    ensures Collect(attempts).results != [] <==> AnyStreamed(attempts)
    ensures Collect(attempts).errors != [] <==> AnyFailed(attempts)
  {
    if attempts != [] {
      var tail := attempts[1..];
      CollectMatchesAttempts(tail);
      if AnyStreamed(tail) {
        var i :| 0 <= i < |tail| && tail[i].Streamed?;
        assert attempts[i + 1].Streamed?;
      }
      if AnyFailed(tail) {
        var i :| 0 <= i < |tail| && tail[i].Failed?;
        assert attempts[i + 1].Failed?;
      }
      if AnyStreamed(attempts) && !attempts[0].Streamed? {
        var i :| 0 <= i < |attempts| && attempts[i].Streamed?;
        assert tail[i - 1].Streamed?;
      }
      if AnyFailed(attempts) && !attempts[0].Failed? {
        var i :| 0 <= i < |attempts| && attempts[i].Failed?;
        assert tail[i - 1].Failed?;
      }
    }
  }

  /** The informational entry put in front of the originals when nothing resolved. */
  function ErrorEntry(p: Provider, first: Stream, message: string): (e: Stream)
    ensures e.name == AddonName && e.externalUrl == HomeUrl(p)
    ensures e.url == MagnetOf(first)
    ensures e.title == "[" + Badge(p) + ":error] " + message
  {
    var fallbackMagnet := if first.infoHash != [] then Magnet.MagnetPrefix + first.infoHash else first.url;
    Stream(AddonName, "[" + Badge(p) + ":error] " + message, fallbackMagnet, [], HomeUrl(p))
  }

  /** The loop and its aftermath for a known provider and a token. */
  function ResolveWith(p: Provider, token: string, resolve: Resolver, streams: seq<Stream>): (r: seq<Stream>)
    ensures var attempts := Attempts(p, token, resolve, streams);
      && (AnyStreamed(attempts) ==> r == Collect(attempts).results && 0 < |r| <= |streams|)
      && (!AnyStreamed(attempts) && AnyFailed(attempts) ==>
            |r| == |streams| + 1 && r[1..] == streams && Collect(attempts).errors != []
            && r[0] == ErrorEntry(p, streams[0], Collect(attempts).errors[0]))
      && (!AnyStreamed(attempts) && !AnyFailed(attempts) ==> r == streams)
  {
    var attempts := Attempts(p, token, resolve, streams);
    var b := Collect(attempts);
    CollectMatchesAttempts(attempts);
    if |b.results| > 0 then b.results
    else if |b.errors| > 0 && |streams| > 0 then [ErrorEntry(p, streams[0], b.errors[0])] + streams
    else streams
  }

  /** `resolveDebridStreams`: untouched streams unless a known service and a
      token are configured; otherwise as `ResolveWith` for that provider. */
  function ResolveDebridStreams(streams: seq<Stream>, config: Config, resolve: Resolver): (r: seq<Stream>)
    ensures !Active(config) ==> r == streams
    ensures Active(config) ==> r == ResolveWith(ProviderOf(ServiceName(config)).value, config.debridToken, resolve, streams)
  {
    var service := ServiceName(config);
    if service == [] || service == "none" then streams
    else match ProviderOf(service)
      case None => streams
      case Some(p) =>
        if config.debridToken == [] then streams
        else ResolveWith(p, config.debridToken, resolve, streams)
  }

  /** `idx` lists, in increasing order, the positions of the attempts that
      resolved a stream, and `results` holds those streams in that order. */
  ghost predicate IndexesResults(attempts: seq<Attempt>, idx: seq<nat>, results: seq<Stream>) {
    && |idx| == |results|
    && (forall j :: 0 <= j < |idx| ==> idx[j] < |attempts| && attempts[idx[j]] == Streamed(results[j]))
    && Increasing(idx)
    && (forall i :: 0 <= i < |attempts| && attempts[i].Streamed? ==> i in idx)
  }

  ghost predicate Increasing(idx: seq<nat>) {
    forall j, k :: 0 <= j < k < |idx| ==> idx[j] < idx[k]
  }

  function Shift(idx: seq<nat>): (r: seq<nat>)
    ensures |r| == |idx| && forall j :: 0 <= j < |idx| ==> r[j] == idx[j] + 1
  {
    seq(|idx|, j requires 0 <= j < |idx| => idx[j] + 1)
  }

  /** Positions in `tail` are positions in `[a] + tail` shifted by one. */
  lemma ShiftedCovers(a: Attempt, tail: seq<Attempt>, idx: seq<nat>, results: seq<Stream>)
    requires IndexesResults(tail, idx, results)
    ensures forall j :: 0 <= j < |idx| ==> ([a] + tail)[Shift(idx)[j]] == Streamed(results[j])
    ensures forall i :: 0 < i < |tail| + 1 && ([a] + tail)[i].Streamed? ==> i in Shift(idx)
    ensures Increasing(Shift(idx))
  {
    var attempts := [a] + tail;
    var sh := Shift(idx);
    forall i | 0 < i < |attempts| && attempts[i].Streamed?
      ensures i in sh
    {
      assert tail[i - 1].Streamed?;
      var j :| 0 <= j < |idx| && idx[j] == i - 1;
      assert sh[j] == i;
    }
  }

  /** A first attempt that skipped or failed adds no result. */
  lemma ShiftedIndexesSkip(a: Attempt, tail: seq<Attempt>, idx: seq<nat>, results: seq<Stream>)
    requires IndexesResults(tail, idx, results) && !a.Streamed?
    ensures IndexesResults([a] + tail, Shift(idx), results)
  {
    ShiftedCovers(a, tail, idx, results);
  }

  /** A first attempt that resolved puts its stream at the head. */
  lemma ShiftedIndexesKeep(a: Attempt, tail: seq<Attempt>, idx: seq<nat>, results: seq<Stream>)
    requires IndexesResults(tail, idx, results) && a.Streamed?
    ensures IndexesResults([a] + tail, [0] + Shift(idx), [a.stream] + results)
  {
    ShiftedCovers(a, tail, idx, results);
    KeptMapsResults(a, tail, Shift(idx), results);
    KeptIncreasing(Shift(idx));
    KeptCovers(a, tail, Shift(idx));
  }

  /** With the head resolved, position 0 maps to its stream and the shifted
      positions to the rest. */
  lemma KeptMapsResults(a: Attempt, tail: seq<Attempt>, sh: seq<nat>, results: seq<Stream>)
    requires a.Streamed? && |sh| == |results|
    requires forall j :: 0 <= j < |sh| ==> sh[j] < |tail| + 1 && ([a] + tail)[sh[j]] == Streamed(results[j])
    ensures forall j :: 0 <= j < |sh| + 1 ==>
      ([0] + sh)[j] < |tail| + 1 && ([a] + tail)[([0] + sh)[j]] == Streamed(([a.stream] + results)[j])
  {
    forall j | 0 <= j < |sh| + 1
      ensures ([0] + sh)[j] < |tail| + 1 && ([a] + tail)[([0] + sh)[j]] == Streamed(([a.stream] + results)[j])
    {
      if j > 0 {
        assert ([0] + sh)[j] == sh[j - 1] && ([a.stream] + results)[j] == results[j - 1];
      }
    }
  }

  /** Shifted positions are positive, so 0 in front keeps them increasing. */
  lemma KeptIncreasing(sh: seq<nat>)
    requires Increasing(sh) && forall j :: 0 <= j < |sh| ==> sh[j] > 0
    ensures Increasing([0] + sh)
  {
    var idx' := [0] + sh;
    forall j, k | 0 <= j < k < |idx'|
      ensures idx'[j] < idx'[k]
    {
      assert idx'[k] == sh[k - 1];
      if j > 0 {
        assert idx'[j] == sh[j - 1];
      }
    }
  }

  /** Every resolved position is listed once 0 is put in front. */
  lemma KeptCovers(a: Attempt, tail: seq<Attempt>, sh: seq<nat>)
    requires forall i :: 0 < i < |tail| + 1 && ([a] + tail)[i].Streamed? ==> i in sh
    ensures forall i :: 0 <= i < |tail| + 1 && ([a] + tail)[i].Streamed? ==> i in [0] + sh
  {
    forall i | 0 <= i < |tail| + 1 && ([a] + tail)[i].Streamed?
      ensures i in [0] + sh
    {
      if i > 0 {
        assert i in sh;
        var j :| 0 <= j < |sh| && sh[j] == i;
        assert ([0] + sh)[j + 1] == i;
      }
    }
  }

  /** The successful entries are the resolved streams in input order, none missing. */
  lemma {:induction false} ResultsInInputOrder(attempts: seq<Attempt>) returns (idx: seq<nat>)
    ensures IndexesResults(attempts, idx, Collect(attempts).results)
  {
    if attempts == [] {
      idx := [];
    } else {
      var tail := attempts[1..];
      var rest := ResultsInInputOrder(tail);
      assert [attempts[0]] + tail == attempts;
      if attempts[0].Streamed? {
        ShiftedIndexesKeep(attempts[0], tail, rest, Collect(tail).results);
        idx := [0] + Shift(rest);
      } else {
        ShiftedIndexesSkip(attempts[0], tail, rest, Collect(tail).results);
        idx := Shift(rest);
      }
    }
  }

  /** When some stream resolves, every entry of the answer is a resolved
      stream: the badged title and the link the resolver gave for the magnet
      of one of the input streams, in input order. */
  lemma ResolvedStreamsBadged(p: Provider, token: string, resolve: Resolver, streams: seq<Stream>)
    returns (idx: seq<nat>)
    requires AnyStreamed(Attempts(p, token, resolve, streams))
    ensures var r := ResolveWith(p, token, resolve, streams);
      && |idx| == |r| && Increasing(idx)
      && forall j :: 0 <= j < |r| ==>
           && idx[j] < |streams|
           && resolve(p, MagnetOf(streams[idx[j]]), token).Success?
           && r[j].title == BadgedTitle(p, resolve(p, MagnetOf(streams[idx[j]]), token).value)
           && r[j].url == resolve(p, MagnetOf(streams[idx[j]]), token).value.url
  {
    var attempts := Attempts(p, token, resolve, streams);
    idx := ResultsInInputOrder(attempts);
    var r := ResolveWith(p, token, resolve, streams);
    assert r == Collect(attempts).results;
    forall j | 0 <= j < |r|
      ensures idx[j] < |streams|
      ensures resolve(p, MagnetOf(streams[idx[j]]), token).Success?
      ensures r[j].title == BadgedTitle(p, resolve(p, MagnetOf(streams[idx[j]]), token).value)
      ensures r[j].url == resolve(p, MagnetOf(streams[idx[j]]), token).value.url
    {
      assert attempts[idx[j]] == Streamed(r[j]);
      assert attempts[idx[j]] == AttemptStream(p, token, resolve, streams[idx[j]]);
    }
  }

  /** The error entry carries the message of the first attempt that failed. */
  lemma {:induction false} FirstErrorIsFirstFailure(attempts: seq<Attempt>) returns (i: nat)
    requires Collect(attempts).errors != []
    ensures i < |attempts| && attempts[i] == Failed(Collect(attempts).errors[0])
    ensures forall j :: 0 <= j < i ==> !attempts[j].Failed?
  {
    if attempts[0].Failed? {
      i := 0;
    } else {
      var i' := FirstErrorIsFirstFailure(attempts[1..]);
      i := i' + 1;
    }
  }

  /** A stream with neither a hash nor a magnet url is skipped without being
      counted as an error. */
  lemma SkippedStreamIsNoError(p: Provider, token: string, resolve: Resolver, s: Stream)
    requires s.infoHash == [] && !IsMagnetUri(s.url)
    ensures AttemptStream(p, token, resolve, s) == Skipped
  {
  }
}

=== FILE: dedup.dfy ===
/** The "seen set" loop that the Knaben search and both HTML scrapers run over
    their hits: build a record from each hit or skip it, skip it as well when
    its key was already seen, otherwise remember the key and keep the record. */
module Dedup {
  import opened Wrappers
  import opened Lists

  /** The records `build` accepts, in input order, before any deduplication. */
  function Accepted<T, U>(xs: seq<T>, build: T -> Option<U>): (r: seq<U>)
    ensures |r| <= |xs|
  {
    if xs == [] then []
    else match build(xs[0])
      case Some(u) => [u] + Accepted(xs[1..], build)
      case None => Accepted(xs[1..], build)
  }

  /** The key of every record, in order. */
  function Keys<U, K>(r: seq<U>, key: U -> K): (ks: seq<K>)
    ensures |ks| == |r|
    ensures forall i :: 0 <= i < |r| ==> ks[i] == key(r[i])
  {
    seq(|r|, i requires 0 <= i < |r| => key(r[i]))
  }

  /** The first accepted record with key `k`, if any. */
  function FirstWithKey<U, K(==)>(acc: seq<U>, key: U -> K, k: K): Option<U> {
    if acc == [] then None
    else if key(acc[0]) == k then Some(acc[0])
    else FirstWithKey(acc[1..], key, k)
  }

  /** Every record of `acc` has its key in `seen` or among the keys of `r`. */
  ghost predicate Accounted<U, K>(acc: seq<U>, key: U -> K, seen: set<K>, r: seq<U>) {
    forall i :: 0 <= i < |acc| ==> key(acc[i]) in seen || key(acc[i]) in Keys(r, key)
  }

  /** Every record of `r` is the first record of `acc` with its key. */
  ghost predicate KeepsFirst<U, K>(acc: seq<U>, key: U -> K, r: seq<U>) {
    forall j :: 0 <= j < |r| ==> FirstWithKey(acc, key, key(r[j])) == Some(r[j])
  }

  /** The loop itself, with `seen` the keys met so far. */
  function CollectUnique<T, U, K(==)>(xs: seq<T>, build: T -> Option<U>, key: U -> K, seen: set<K>): (r: seq<U>)
    ensures |r| <= |xs|
    ensures forall i :: 0 <= i < |r| ==> key(r[i]) !in seen
    ensures forall i, j :: 0 <= i < j < |r| ==> key(r[i]) != key(r[j])
    decreases |xs|
  {
    if xs == [] then []
    else match build(xs[0])
      case None => CollectUnique(xs[1..], build, key, seen)
      case Some(u) =>
        if key(u) in seen then CollectUnique(xs[1..], build, key, seen)
        else [u] + CollectUnique(xs[1..], build, key, seen + {key(u)})
  }

  /** The collected records keep the order in which they were accepted. */
  lemma {:induction false} CollectIsSubsequence<T, U, K>(xs: seq<T>, build: T -> Option<U>, key: U -> K, seen: set<K>)
    ensures IsSubsequence(CollectUnique(xs, build, key, seen), Accepted(xs, build))
    decreases |xs|
  {
    if xs != [] {
      var acc1 := Accepted(xs[1..], build);
      match build(xs[0])
      case None =>
        CollectIsSubsequence(xs[1..], build, key, seen);
      case Some(u) =>
        if key(u) in seen {
          CollectIsSubsequence(xs[1..], build, key, seen);
          SubsequenceSkip(u, CollectUnique(xs[1..], build, key, seen), acc1);
        } else {
          CollectIsSubsequence(xs[1..], build, key, seen + {key(u)});
          SubsequenceCons(u, CollectUnique(xs[1..], build, key, seen + {key(u)}), acc1);
        }
    }
  }

  /** No accepted record is lost without trace: its key was seen before the
      loop started or is the key of a collected record. */
  lemma {:induction false} CollectIsComplete<T, U, K>(xs: seq<T>, build: T -> Option<U>, key: U -> K, seen: set<K>)
    ensures Accounted(Accepted(xs, build), key, seen, CollectUnique(xs, build, key, seen))
    decreases |xs|
  {
    if xs != [] {
      var acc := Accepted(xs, build);
      var acc1 := Accepted(xs[1..], build);
      var r := CollectUnique(xs, build, key, seen);
      match build(xs[0])
      case None =>
        assert acc == acc1;
        assert r == CollectUnique(xs[1..], build, key, seen);
        CollectIsComplete(xs[1..], build, key, seen);
      case Some(u) =>
        assert acc == [u] + acc1;
        if key(u) in seen {
          var r1 := CollectUnique(xs[1..], build, key, seen);
          assert r == r1;
          CollectIsComplete(xs[1..], build, key, seen);
          forall i | 0 <= i < |acc|
            ensures key(acc[i]) in seen || key(acc[i]) in Keys(r, key)
          {
            if i > 0 {
              assert acc[i] == acc1[i - 1];
            }
          }
        } else {
          var seen' := seen + {key(u)};
          var r1 := CollectUnique(xs[1..], build, key, seen');
          CollectIsComplete(xs[1..], build, key, seen');
          assert r == [u] + r1;
          var ks := Keys(r, key);
          var ks1 := Keys(r1, key);
          assert ks == [key(u)] + ks1;
          forall i | 0 <= i < |acc|
            ensures key(acc[i]) in seen || key(acc[i]) in ks
          {
            if i == 0 {
              assert ks[0] == key(u);
            } else {
              assert acc[i] == acc1[i - 1];
              assert key(acc1[i - 1]) in seen' || key(acc1[i - 1]) in ks1;
            }
          }
        }
    }
  }

  /** The first record with a different key than `k` is skipped by the search. */
  lemma FirstWithKeySkips<U, K>(u: U, rest: seq<U>, key: U -> K, k: K)
    requires key(u) != k
    ensures FirstWithKey([u] + rest, key, k) == FirstWithKey(rest, key, k)
  {
    assert ([u] + rest)[1..] == rest;
  }

  /** Each collected record is the first accepted record with its key. */
  lemma {:induction false} CollectKeepsFirst<T, U, K>(xs: seq<T>, build: T -> Option<U>, key: U -> K, seen: set<K>)
    ensures KeepsFirst(Accepted(xs, build), key, CollectUnique(xs, build, key, seen))
    decreases |xs|
  {
    if xs != [] {
      var acc := Accepted(xs, build);
      var acc1 := Accepted(xs[1..], build);
      var r := CollectUnique(xs, build, key, seen);
      match build(xs[0])
      case None =>
        assert acc == acc1;
        assert r == CollectUnique(xs[1..], build, key, seen);
        CollectKeepsFirst(xs[1..], build, key, seen);
      case Some(u) =>
        assert acc == [u] + acc1;
        if key(u) in seen {
          var r1 := CollectUnique(xs[1..], build, key, seen);
          assert r == r1;
          CollectKeepsFirst(xs[1..], build, key, seen);
          forall j | 0 <= j < |r|
            ensures FirstWithKey(acc, key, key(r[j])) == Some(r[j])
          {
            FirstWithKeySkips(u, acc1, key, key(r[j]));
          }
        } else {
          var seen' := seen + {key(u)};
          var r1 := CollectUnique(xs[1..], build, key, seen');
          CollectKeepsFirst(xs[1..], build, key, seen');
          assert r == [u] + r1;
          forall j | 0 <= j < |r|
            ensures FirstWithKey(acc, key, key(r[j])) == Some(r[j])
          {
            if j > 0 {
              assert r[j] == r1[j - 1];
              assert key(r1[j - 1]) !in seen';
              FirstWithKeySkips(u, acc1, key, key(r[j]));
            }
          }
        }
    }
  }

  /** Every record `build` makes from an input is among the accepted records. */
  lemma {:induction false} AcceptedHas<T, U>(xs: seq<T>, build: T -> Option<U>, i: nat)
    requires i < |xs| && build(xs[i]).Some?
    ensures build(xs[i]).value in Accepted(xs, build)
  {
    if i > 0 {
      AcceptedHas(xs[1..], build, i - 1);
    }
  }

  /** Every input that `build` accepts leaves its key among the collected
      records' keys, unless that key was seen before the loop started. */
  lemma CollectCovers<T, U, K>(xs: seq<T>, build: T -> Option<U>, key: U -> K, seen: set<K>, i: nat)
    requires i < |xs| && build(xs[i]).Some?
    ensures key(build(xs[i]).value) in seen || key(build(xs[i]).value) in Keys(CollectUnique(xs, build, key, seen), key)
  {
    var acc := Accepted(xs, build);
    AcceptedHas(xs, build, i);
    CollectIsComplete(xs, build, key, seen);
    var j :| 0 <= j < |acc| && acc[j] == build(xs[i]).value;
  }

  /** Every collected record was built from one input, and its key was new. */
  lemma {:induction false} CollectFrom<T, U, K>(xs: seq<T>, build: T -> Option<U>, key: U -> K, seen: set<K>, k: nat) returns (i: nat)
    requires k < |CollectUnique(xs, build, key, seen)|
    ensures i < |xs| && build(xs[i]) == Some(CollectUnique(xs, build, key, seen)[k])
    decreases |xs|
  {
    var r := CollectUnique(xs, build, key, seen);
    match build(xs[0])
    case None =>
      var i' := CollectFrom(xs[1..], build, key, seen, k);
      i := i' + 1;
    case Some(u) =>
      if key(u) in seen {
        var i' := CollectFrom(xs[1..], build, key, seen, k);
        i := i' + 1;
      } else if k == 0 {
        i := 0;
      } else {
        assert r[k] == CollectUnique(xs[1..], build, key, seen + {key(u)})[k - 1];
        var i' := CollectFrom(xs[1..], build, key, seen + {key(u)}, k - 1);
        i := i' + 1;
      }
  }

  /** A property every built record has is shared by every collected record. */
  lemma {:induction false} CollectKeepsProperty<T, U, K>(xs: seq<T>, build: T -> Option<U>, key: U -> K, seen: set<K>, q: U -> bool)
    requires forall i :: 0 <= i < |xs| && build(xs[i]).Some? ==> q(build(xs[i]).value)
    ensures forall k :: 0 <= k < |CollectUnique(xs, build, key, seen)| ==> q(CollectUnique(xs, build, key, seen)[k])
  {
    var r := CollectUnique(xs, build, key, seen);
    forall k | 0 <= k < |r|
      ensures q(r[k])
    {
      var i := CollectFrom(xs, build, key, seen, k);
    }
  }
}

=== FILE: ext.dfy ===
/** lib/ext.js: add-on configuration from a query object, Stremio id parsing,
    the stream filters, and the Knaben torrent search with its magnet
    deduplication. The metadata lookup and the Knaben POST are oracles. */
module Ext {
  import opened Wrappers
  import opened Text
  import opened Js
  import opened Lists
  import opened Records
  import Dedup

  // ---------------------------------------------------------------------------
  // parseConfig

  /** A parsed query object; a missing key reads as the falsy empty string. */
  type Query = map<string, Value>

  function Get(q: Query, key: string): Value {
    if key in q then q[key] else Str([])
  }

  /** `String(v || fallback)`. */
  function StrOr(v: Value, fallback: string): (r: string)
    ensures v.Truthy() ==> r == v.ToStr()
    ensures !v.Truthy() ==> r == fallback
  {
    if v.Truthy() then v.ToStr() else fallback
  }

  /** Every piece trimmed. */
  function TrimAll(parts: seq<string>): (r: seq<string>)
    ensures |r| == |parts| && forall i :: 0 <= i < |parts| ==> r[i] == Trim(parts[i])
  {
    seq(|parts|, i requires 0 <= i < |parts| => Trim(parts[i]))
  }

  predicate NonEmpty(s: string) {
    s != []
  }

  /** No comma, and no white space at either end. */
  predicate CleanKeyword(k: string) {
    ',' !in k && Trimmed(k)
  }

  /** `String(v || '').split(',').map(s => s.trim()).filter(Boolean)`. */
  function KeywordList(v: Value): (r: seq<string>)
    ensures forall i :: 0 <= i < |r| ==> r[i] != [] && CleanKeyword(r[i])
  {
    var parts := Split(StrOr(v, []), ',');
    var trimmed := TrimAll(parts);
    assert forall i :: 0 <= i < |trimmed| ==> CleanKeyword(trimmed[i]) by {
      forall i | 0 <= i < |trimmed|
        ensures CleanKeyword(trimmed[i])
      {
        TrimmedPieceIsClean(parts[i]);
      }
    }
    FilterKeepsProperty(NonEmpty, CleanKeyword, trimmed);
    Filter(NonEmpty, trimmed)
  }

  /** Trimming a comma-free piece gives a clean keyword. */
  lemma TrimmedPieceIsClean(p: string)
    requires ',' !in p
    ensures CleanKeyword(Trim(p))
  {
    TrimIsPiece(p);
  }

  /** A trimmed string is a contiguous piece of the original, so it holds no
      character the original does not. */
  lemma TrimIsPiece(s: string)
    ensures forall c :: c in Trim(s) ==> c in s
  {
    var r := Trim(s);
    var k := TrimIsSlice(s);
    forall c | c in r
      ensures c in s
    {
      var j :| 0 <= j < |r| && r[j] == c;
      assert s[k + j] == c;
    }
  }

  /** Each element of a subsequence is an element of the larger sequence. */
  lemma {:induction false} SubsequenceKeeps<T>(a: seq<T>, b: seq<T>)
    requires IsSubsequence(a, b)
    ensures forall i :: 0 <= i < |a| ==> a[i] in b
    decreases |b|
  {
    if a != [] {
      if a[0] == b[0] && IsSubsequence(a[1..], b[1..]) {
        SubsequenceKeeps(a[1..], b[1..]);
        forall i | 0 <= i < |a|
          ensures a[i] in b
        {
          if i > 0 {
            assert a[i] == a[1..][i - 1];
            assert a[i] in b[1..];
          }
        }
      } else {
        SubsequenceKeeps(a, b[1..]);
      }
    }
  }

  /** `Math.max(parseInt(v, 10) || 10, 0)`. */
  function MaxResults(v: Value): (n: int)
    ensures n >= 0
    ensures !ParseInt(v.ToStr()).Truthy() ==> n == 10
    ensures ParseInt(v.ToStr()).Truthy() ==> n == (if ParseInt(v.ToStr()).value < 0 then 0 else ParseInt(v.ToStr()).value)
  {
    var p := ParseInt(v.ToStr());
    var m := if p.Truthy() then p.value else 10;
    if m < 0 then 0 else m
  }

  /** `String(query.debrid || 'none').toLowerCase()`. */
  function ServiceSetting(q: Query): (s: string)
    ensures IsLower(s)
    ensures !Get(q, "debrid").Truthy() ==> s == "none"
  {
    var service := StrOr(Get(q, "debrid"), "none");
    ToLowerIsLower(service);
    ToLower(service)
  }

  /** `String(query.debridToken || '').trim()`. */
  function TokenSetting(q: Query): (t: string)
    ensures Trimmed(t)
  {
    Trim(StrOr(Get(q, "debridToken"), []))
  }

  /** `parseConfig`: the service name is lower case, the token and the keywords are trimmed, keywords are non-empty and
      comma-free, and the result limit is never negative. */
  function ParseConfig(q: Query): (c: Config)
    ensures IsLower(c.debridService)
    ensures Trimmed(c.debridToken)
    ensures forall i :: 0 <= i < |c.includes| ==> c.includes[i] != [] && CleanKeyword(c.includes[i])
    ensures forall i :: 0 <= i < |c.excludes| ==> c.excludes[i] != [] && CleanKeyword(c.excludes[i])
    ensures c.maxResults >= 0
  {
    Config(StrOr(Get(q, "quality"), "any"), ServiceSetting(q), TokenSetting(q),
           KeywordList(Get(q, "include")), KeywordList(Get(q, "exclude")),
           MaxResults(Get(q, "maxResults")))
  }

  /** An empty query gives the defaults. */
  lemma ParseConfigDefaults()
    ensures ParseConfig(map[]) == Config("any", "none", [], [], [], 10)
  {
    ParseConfigMissingKeys(map[]);
  }

  /** A missing or falsy key gives that field's default, whatever the other
      keys hold. */
  lemma ParseConfigMissingKeys(q: Query)
    ensures !Get(q, "quality").Truthy() ==> ParseConfig(q).quality == "any"
    ensures !Get(q, "debrid").Truthy() ==> ParseConfig(q).debridService == "none"
    ensures !Get(q, "debridToken").Truthy() ==> ParseConfig(q).debridToken == []
    ensures !Get(q, "include").Truthy() ==> ParseConfig(q).includes == []
    ensures !Get(q, "exclude").Truthy() ==> ParseConfig(q).excludes == []
    ensures !Get(q, "maxResults").Truthy() ==> ParseConfig(q).maxResults == 10
  {
    FalsyDefaults(Get(q, "include"));
    FalsyDefaults(Get(q, "exclude"));
    FalsyDefaults(Get(q, "maxResults"));
  }

  /** A falsy value gives no keywords and the default result limit. */
  lemma FalsyDefaults(v: Value)
    ensures !v.Truthy() ==> KeywordList(v) == [] && MaxResults(v) == 10
  {
    if !v.Truthy() {
      EmptyKeywordList();
      assert ParseInt([]) == NaN;
    }
  }

  /** The keyword list of a falsy value is empty. */
  lemma EmptyKeywordList()
    ensures KeywordList(Str([])) == []
  {
    assert Split([], ',') == [[]];
    assert Filter(NonEmpty, TrimAll([[]])) == [];
  }

  /** The query a configuration page writes for a configuration: each
      setting under its own key, the keyword lists comma-joined. */
  function SettingsQuery(c: Config): Query {
    map["quality" := Str(c.quality), "debrid" := Str(c.debridService), "debridToken" := Str(c.debridToken),
        "include" := Str(Join(c.includes, ',')), "exclude" := Str(Join(c.excludes, ',')),
        "maxResults" := Str(IntToString(c.maxResults))]
  }

  /** Settings already in the shape `parseConfig` produces, written to a query
      and parsed again, come back unchanged. */
  lemma ParseConfigOfSettings(c: Config)
    requires c.quality != [] && c.debridService != [] && IsLower(c.debridService) && Trimmed(c.debridToken)
    requires forall i :: 0 <= i < |c.includes| ==> c.includes[i] != [] && CleanKeyword(c.includes[i])
    requires forall i :: 0 <= i < |c.excludes| ==> c.excludes[i] != [] && CleanKeyword(c.excludes[i])
    requires c.maxResults > 0
    ensures ParseConfig(SettingsQuery(c)) == c
  {
    var q := SettingsQuery(c);
    SettingsLookups(c);
    SettingsBack(c);
    KeywordListOfJoin(c.includes);
    KeywordListOfJoin(c.excludes);
    MaxResultsOfIntToString(c.maxResults);
    assert ParseConfig(q).includes == c.includes;
    assert ParseConfig(q).excludes == c.excludes;
  }

  /** The three text settings are read back as written. */
  lemma SettingsBack(c: Config)
    requires c.quality != [] && c.debridService != [] && IsLower(c.debridService) && Trimmed(c.debridToken)
    ensures StrOr(Get(SettingsQuery(c), "quality"), "any") == c.quality
    ensures ServiceSetting(SettingsQuery(c)) == c.debridService
    ensures TokenSetting(SettingsQuery(c)) == c.debridToken
  {
    SettingsLookups(c);
    LowerIsFixed(c.debridService);
    TrimTrimmed(c.debridToken);
  }

  /** Each setting is read back from its own key. */
  lemma SettingsLookups(c: Config)
    ensures Get(SettingsQuery(c), "quality") == Str(c.quality)
    ensures Get(SettingsQuery(c), "debrid") == Str(c.debridService)
    ensures Get(SettingsQuery(c), "debridToken") == Str(c.debridToken)
    ensures Get(SettingsQuery(c), "include") == Str(Join(c.includes, ','))
    ensures Get(SettingsQuery(c), "exclude") == Str(Join(c.excludes, ','))
    ensures Get(SettingsQuery(c), "maxResults") == Str(IntToString(c.maxResults))
  {
  }

  /** Each keyword with white space written around it. */
  function Padded(kws: seq<string>, pre: string, post: string): (r: seq<string>)
    ensures |r| == |kws| && forall i :: 0 <= i < |kws| ==> r[i] == pre + kws[i] + post
  {
    seq(|kws|, i requires 0 <= i < |kws| => pre + kws[i] + post)
  }

  /** The same settings as a person might type them: the service name in any
      case, white space around the token and around each keyword, and an
      empty piece after the last comma. */
  function UntidyQuery(c: Config, service: string, pre: string, post: string): Query {
    SettingsQuery(c)["debrid" := Str(service)]["debridToken" := Str(pre + c.debridToken + post)]
      ["include" := Str(Join(Padded(c.includes, pre, post) + [[]], ','))]
      ["exclude" := Str(Join(Padded(c.excludes, pre, post) + [[]], ','))]
  }

  /** `parseConfig` cleans untidy input: the service is lower-cased, the
      token trimmed, and the keywords trimmed with empty pieces dropped. */
  lemma ParseConfigOfUntidy(c: Config, service: string, pre: string, post: string)
    requires c.quality != [] && c.debridService != [] && IsLower(c.debridService) && Trimmed(c.debridToken)
    requires forall i :: 0 <= i < |c.includes| ==> c.includes[i] != [] && CleanKeyword(c.includes[i])
    requires forall i :: 0 <= i < |c.excludes| ==> c.excludes[i] != [] && CleanKeyword(c.excludes[i])
    requires c.maxResults > 0
    requires ToLower(service) == c.debridService
    requires AllSpace(pre) && AllSpace(post)
    ensures ParseConfig(UntidyQuery(c, service, pre, post)) == c
  {
    var q := UntidyQuery(c, service, pre, post);
    UntidyLookups(c, service, pre, post);
    UntidyBack(c, service, pre, post);
    PaddedKeywords(c.includes, pre, post);
    PaddedKeywords(c.excludes, pre, post);
    MaxResultsOfIntToString(c.maxResults);
    assert ParseConfig(q).includes == c.includes;
    assert ParseConfig(q).excludes == c.excludes;
  }

  lemma UntidyLookups(c: Config, service: string, pre: string, post: string)
    ensures Get(UntidyQuery(c, service, pre, post), "quality") == Str(c.quality)
    ensures Get(UntidyQuery(c, service, pre, post), "debrid") == Str(service)
    ensures Get(UntidyQuery(c, service, pre, post), "debridToken") == Str(pre + c.debridToken + post)
    ensures Get(UntidyQuery(c, service, pre, post), "include") == Str(Join(Padded(c.includes, pre, post) + [[]], ','))
    ensures Get(UntidyQuery(c, service, pre, post), "exclude") == Str(Join(Padded(c.excludes, pre, post) + [[]], ','))
    ensures Get(UntidyQuery(c, service, pre, post), "maxResults") == Str(IntToString(c.maxResults))
  {
  }

  /** The untidy text settings are read as the tidy ones. */
  lemma UntidyBack(c: Config, service: string, pre: string, post: string)
    requires c.quality != [] && c.debridService != [] && Trimmed(c.debridToken)
    requires ToLower(service) == c.debridService
    requires AllSpace(pre) && AllSpace(post)
    ensures StrOr(Get(UntidyQuery(c, service, pre, post), "quality"), "any") == c.quality
    ensures ServiceSetting(UntidyQuery(c, service, pre, post)) == c.debridService
    ensures TokenSetting(UntidyQuery(c, service, pre, post)) == c.debridToken
  {
    var q := UntidyQuery(c, service, pre, post);
    UntidyLookups(c, service, pre, post);
    assert service != [];
    assert StrOr(Get(q, "debrid"), "none") == service;
    UntidyToken(Get(q, "debridToken"), pre, c.debridToken, post);
  }

  lemma UntidyToken(v: Value, pre: string, t: string, post: string)
    requires v == Str(pre + t + post)
    requires AllSpace(pre) && Trimmed(t) && AllSpace(post)
    ensures Trim(StrOr(v, [])) == t
  {
    assert StrOr(v, []) == pre + t + post;
    TrimSurrounded(pre, t, post);
  }

  /** Keywords with white space around them and a trailing empty piece read
      back as the bare keywords. */
  lemma PaddedKeywords(kws: seq<string>, pre: string, post: string)
    requires forall i :: 0 <= i < |kws| ==> kws[i] != [] && CleanKeyword(kws[i])
    requires AllSpace(pre) && AllSpace(post)
    ensures KeywordList(Str(Join(Padded(kws, pre, post) + [[]], ','))) == kws
  {
    var parts := Padded(kws, pre, post) + [[]];
    forall i | 0 <= i < |parts|
      ensures ',' !in parts[i] && Trim(parts[i]) == (kws + [[]])[i]
    {
      if i < |kws| {
        NoCommaAround(pre, kws[i], post);
        TrimSurrounded(pre, kws[i], post);
      }
    }
    SplitJoin(parts, ',');
    assert TrimAll(parts) == kws + [[]];
    FilterConcat(NonEmpty, kws, [[]]);
    FilterAll(NonEmpty, kws);
    assert Filter(NonEmpty, [[]]) == [];
    assert kws + [] == kws;
  }

  lemma NoCommaAround(pre: string, k: string, post: string)
    requires AllSpace(pre) && ',' !in k && AllSpace(post)
    ensures ',' !in pre + k + post
  {
    assert !IsSpace(',');
  }

  /** A comma-joined list of clean keywords is read back as the same list. */
  lemma KeywordListOfJoin(kws: seq<string>)
    requires forall i :: 0 <= i < |kws| ==> kws[i] != [] && CleanKeyword(kws[i])
    ensures KeywordList(Str(Join(kws, ','))) == kws
  {
    if kws == [] {
      EmptyKeywordList();
    } else {
      JoinedKeywords(kws);
    }
  }

  lemma JoinedKeywords(kws: seq<string>)
    requires |kws| >= 1
    requires forall i :: 0 <= i < |kws| ==> kws[i] != [] && CleanKeyword(kws[i])
    ensures KeywordList(Str(Join(kws, ','))) == kws
  {
    SplitJoin(kws, ',');
    TrimAllTrimmed(kws);
    FilterAll(NonEmpty, kws);
  }

  lemma TrimAllTrimmed(parts: seq<string>)
    requires forall i :: 0 <= i < |parts| ==> Trimmed(parts[i])
    ensures TrimAll(parts) == parts
  {
    forall i | 0 <= i < |parts|
      ensures TrimAll(parts)[i] == parts[i]
    {
      TrimTrimmed(parts[i]);
    }
  }

  /** A positive `maxResults` is read back as given; zero means the default 10. */
  lemma MaxResultsOfIntToString(n: int)
    ensures n > 0 ==> MaxResults(Str(IntToString(n))) == n
    ensures n == 0 ==> MaxResults(Str(IntToString(n))) == 10
    ensures n < 0 ==> MaxResults(Str(IntToString(n))) == 0
  {
    ParseIntOfIntToString(n);
  }

  // ---------------------------------------------------------------------------
  // parseId and normalizeImdbId

  /** `{ imdbId, season, episode }`; an absent season or episode is `None`. */
  datatype ParsedId = ParsedId(imdbId: string, season: Option<JsInt>, episode: Option<JsInt>)

  /** `/tt\d+/i` matches at `i`. */
  predicate ImdbTagAt(s: string, i: nat) {
    i + 3 <= |s| && LowerChar(s[i]) == 't' && LowerChar(s[i + 1]) == 't' && IsDigit(s[i + 2])
  }

  /** `i` is the leftmost match: there is one at `i` and none before it. */
  predicate LeftmostImdbTag(s: string, i: nat) {
    ImdbTagAt(s, i) && forall j :: 0 <= j < i ==> !ImdbTagAt(s, j)
  }

  /** The leftmost match position at or after `start`. */
  function FirstImdbTagFrom(s: string, start: nat): (r: Option<nat>)
    ensures r.Some? ==> start <= r.value && ImdbTagAt(s, r.value)
    ensures r.Some? ==> forall j :: start <= j < r.value ==> !ImdbTagAt(s, j)
    ensures r.None? ==> forall j :: start <= j ==> !ImdbTagAt(s, j)
    decreases |s| - start
  {
    if start + 3 > |s| then None
    else if ImdbTagAt(s, start) then Some(start)
    else FirstImdbTagFrom(s, start + 1)
  }

  /** The text `/tt\d+/i` matches at `i`: the two letters and every digit after them. */
  function ImdbTag(s: string, i: nat): (t: string)
    requires ImdbTagAt(s, i)
    ensures |t| >= 3 && i + |t| <= |s| && t == s[i..i + |t|]
    ensures forall k :: 2 <= k < |t| ==> IsDigit(t[k])
    ensures i + |t| < |s| ==> !IsDigit(s[i + |t|])
  {
    var d := DigitPrefix(s[i + 2..]);
    s[i..i + 2 + |d|]
  }

  /** `(id.match(/tt\d+/i) || [])[0]`, with "" for no match. */
  function FindImdbTag(s: string): (r: string)
    ensures r == [] <==> forall i :: !ImdbTagAt(s, i)
    ensures r != [] ==> exists i :: LeftmostImdbTag(s, i) && r == ImdbTag(s, i)
    ensures r != [] ==> ':' !in r
  {
    match FirstImdbTagFrom(s, 0)
    case None => []
    case Some(i) =>
      assert LeftmostImdbTag(s, i);
      var t := ImdbTag(s, i);
      assert ':' !in t by {
        forall k | 0 <= k < |t|
          ensures t[k] != ':'
        {
          if k >= 2 {
            assert IsDigit(t[k]);
          }
        }
      }
      t
  }

  /** `parts[k] ? parseInt(parts[k], 10) : null`. */
  function PartNumber(parts: seq<string>, k: nat): (r: Option<JsInt>)
    ensures r.Some? <==> k < |parts| && parts[k] != []
    ensures r.Some? ==> r.value == ParseInt(parts[k])
  {
    if k < |parts| && parts[k] != [] then Some(ParseInt(parts[k])) else None
  }

  /** `parseId`: the IMDb id is the first `:`-separated part when it starts
      with `tt`, else the leftmost `tt<digits>` anywhere in the id (either case). */
  function ParseId(id: string): (r: Option<ParsedId>)
    ensures r.None? <==> id == [] || (!StartsWith(Split(id, ':')[0], "tt") && forall i :: !ImdbTagAt(id, i))
    ensures r.Some? ==> |r.value.imdbId| >= 2 && LowerChar(r.value.imdbId[0]) == 't' && LowerChar(r.value.imdbId[1]) == 't'
    ensures r.Some? ==> ':' !in r.value.imdbId
    ensures r.Some? && StartsWith(Split(id, ':')[0], "tt") ==> r.value.imdbId == Split(id, ':')[0]
    ensures r.Some? && !StartsWith(Split(id, ':')[0], "tt") ==> r.value.imdbId == FindImdbTag(id)
    ensures r.Some? ==> r.value.season == PartNumber(Split(id, ':'), 1)
    ensures r.Some? ==> r.value.episode == PartNumber(Split(id, ':'), 2)
  {
    if id == [] then None
    else
      var parts := Split(id, ':');
      var imdbId := if StartsWith(parts[0], "tt") then parts[0] else FindImdbTag(id);
      if imdbId == [] then None
      else
        assert LowerChar(imdbId[0]) == 't' && LowerChar(imdbId[1]) == 't' by {
          if !StartsWith(parts[0], "tt") {
            var i: nat :| LeftmostImdbTag(id, i) && imdbId == ImdbTag(id, i);
            assert imdbId[0] == id[i] && imdbId[1] == id[i + 1];
          }
        }
        Some(ParsedId(imdbId, PartNumber(parts, 1), PartNumber(parts, 2)))
  }

  /** `normalizeImdbId`. */
  function NormalizeImdbId(id: string): (r: Option<string>)
    ensures r.None? <==> ParseId(id).None?
    ensures r.Some? ==> r.value == ParseId(id).value.imdbId
  {
    match ParseId(id)
    case None => None
    case Some(p) => Some(p.imdbId)
  }

  /** The id Stremio sends for an episode: `<imdb>:<season>:<episode>`. */
  function EpisodeId(imdbId: string, season: int, episode: int): string {
    imdbId + ":" + IntToString(season) + ":" + IntToString(episode)
  }

  /** `String(n)` holds no colon. */
  lemma NoColonInIntToString(n: int)
    ensures ':' !in IntToString(n)
  {
    var s := IntToString(n);
    assert forall k :: 0 <= k < |s| ==> s[k] == '-' || IsDigit(s[k]);
  }

  /** An episode id splits into the IMDb id, the season and the episode. */
  lemma SplitEpisodeId(imdbId: string, season: int, episode: int)
    requires ':' !in imdbId
    ensures Split(EpisodeId(imdbId, season, episode), ':') == [imdbId, IntToString(season), IntToString(episode)]
  {
    var s := IntToString(season);
    var e := IntToString(episode);
    NoColonInIntToString(season);
    NoColonInIntToString(episode);
    assert EpisodeId(imdbId, season, episode) == imdbId + [':'] + (s + [':'] + e);
    SplitAtSeparator(imdbId, ':', s + [':'] + e);
    SplitAtSeparator(s, ':', e);
    SplitNoSeparator(e, ':');
  }

  /** Parsing an episode id gives back its three parts. */
  lemma ParseEpisodeId(imdbId: string, season: int, episode: int)
    requires StartsWith(imdbId, "tt") && ':' !in imdbId
    ensures ParseId(EpisodeId(imdbId, season, episode)) == Some(ParsedId(imdbId, Some(Int(season)), Some(Int(episode))))
  {
    var id := EpisodeId(imdbId, season, episode);
    var parts := [imdbId, IntToString(season), IntToString(episode)];
    SplitEpisodeId(imdbId, season, episode);
    ParseIntOfIntToString(season);
    ParseIntOfIntToString(episode);
    assert PartNumber(parts, 1) == Some(Int(season));
    assert PartNumber(parts, 2) == Some(Int(episode));
    assert id != [];
  }

  /** A movie id is just the IMDb id. */
  lemma ParseMovieId(imdbId: string)
    requires StartsWith(imdbId, "tt") && ':' !in imdbId
    ensures ParseId(imdbId) == Some(ParsedId(imdbId, None, None))
  {
    SplitNoSeparator(imdbId, ':');
  }

  /** A string that is exactly one `tt<digits>` match (either case) is found whole. */
  lemma FindImdbTagWhole(m: string)
    requires ImdbTagAt(m, 0) && forall k :: 2 <= k < |m| ==> IsDigit(m[k])
    ensures FindImdbTag(m) == m
  {
    DigitPrefixOfDigits(m[2..]);
    assert ImdbTag(m, 0) == m;
    assert FirstImdbTagFrom(m, 0) == Some(0);
  }

  /** The text matched at `i` is itself a match at 0, all digits after `tt`. */
  lemma ImdbTagIsWhole(s: string, i: nat)
    requires ImdbTagAt(s, i)
    ensures ImdbTagAt(ImdbTag(s, i), 0)
    ensures forall k :: 2 <= k < |ImdbTag(s, i)| ==> IsDigit(ImdbTag(s, i)[k])
  {
    var t := ImdbTag(s, i);
    assert t[0] == s[i] && t[1] == s[i + 1] && t[2] == s[i + 2];
  }

  /** A colon-free `tt<digits>` id (either case) parses to itself. */
  lemma ParseIdOfTag(m: string)
    requires ImdbTagAt(m, 0) && forall k :: 2 <= k < |m| ==> IsDigit(m[k])
    requires ':' !in m
    ensures ParseId(m) == Some(ParsedId(m, None, None))
  {
    SplitNoSeparator(m, ':');
    FindImdbTagWhole(m);
  }

  /** A normalized id normalizes to itself. */
  lemma NormalizeImdbIdIdempotent(id: string)
    requires NormalizeImdbId(id).Some?
    ensures NormalizeImdbId(NormalizeImdbId(id).value) == NormalizeImdbId(id)
  {
    var m := ParseId(id).value.imdbId;
    if StartsWith(m, "tt") {
      ParseMovieId(m);
    } else {
      assert !StartsWith(Split(id, ':')[0], "tt");
      var i: nat :| LeftmostImdbTag(id, i) && m == ImdbTag(id, i);
      ImdbTagIsWhole(id, i);
      ParseIdOfTag(m);
    }
  }

  // ---------------------------------------------------------------------------
  // filterStreams

  /** The title, lower-cased, contains the configured quality (`any` keeps everything). */
  predicate QualityOk(config: Config, s: Stream) {
    config.quality == "any" || Contains(ToLower(s.title), ToLower(config.quality))
  }

  /** The lower-cased title contains every include keyword. */
  predicate IncludesOk(config: Config, s: Stream) {
    forall i :: 0 <= i < |config.includes| ==> Contains(ToLower(s.title), ToLower(config.includes[i]))
  }

  /** The lower-cased title contains no exclude keyword. */
  predicate ExcludesOk(config: Config, s: Stream) {
    forall i :: 0 <= i < |config.excludes| ==> !Contains(ToLower(s.title), ToLower(config.excludes[i]))
  }

  /** A stream survives all three filters. */
  predicate Keep(config: Config, s: Stream) {
    QualityOk(config, s) && IncludesOk(config, s) && ExcludesOk(config, s)
  }

  function QualityFilter(config: Config): Stream -> bool {
    s => QualityOk(config, s)
  }

  function IncludeFilter(config: Config): Stream -> bool {
    s => IncludesOk(config, s)
  }

  function ExcludeFilter(config: Config): Stream -> bool {
    s => ExcludesOk(config, s)
  }

  function KeepFilter(config: Config): Stream -> bool {
    s => Keep(config, s)
  }

  /** The three filters of `filterStreams` in order, each applied only when configured. */
  function Staged(streams: seq<Stream>, config: Config): seq<Stream> {
    var byQuality := if config.quality != "any" then Filter(QualityFilter(config), streams) else streams;
    var byInclude := if |config.includes| > 0 then Filter(IncludeFilter(config), byQuality) else byQuality;
    if |config.excludes| > 0 then Filter(ExcludeFilter(config), byInclude) else byInclude
  }

  /** `filterStreams`: the three filters in order, then the first `maxResults`
      (zero means no limit). */
  function FilterStreams(streams: seq<Stream>, config: Config): (r: seq<Stream>)
    ensures forall i :: 0 <= i < |r| ==> Keep(config, r[i])
    ensures IsSubsequence(r, streams)
    ensures config.maxResults > 0 ==> |r| <= config.maxResults
  {
    var staged := Staged(streams, config);
    var r := if config.maxResults != 0 then SliceTo(staged, config.maxResults) else staged;
    StagedIsOneFilter(streams, config);
    FilterIsSubsequence(KeepFilter(config), streams);
    assert r == staged[..|r|];
    PrefixIsSubsequence(staged, |r|);
    SubsequenceTransitive(r, staged, streams);
    r
  }

  /** The three filters together are one filter by `Keep`. */
  lemma StagedIsOneFilter(streams: seq<Stream>, config: Config)
    ensures Staged(streams, config) == Filter(KeepFilter(config), streams)
  {
    var q := QualityFilter(config);
    var qi := s => QualityOk(config, s) && IncludesOk(config, s);
    var byQuality := if config.quality != "any" then Filter(q, streams) else streams;
    if config.quality == "any" {
      FilterAll(q, streams);
    }
    assert byQuality == Filter(q, streams);
    var byInclude := if |config.includes| > 0 then Filter(IncludeFilter(config), byQuality) else byQuality;
    if |config.includes| == 0 {
      FilterAll(IncludeFilter(config), byQuality);
    }
    FilterFilter(q, IncludeFilter(config), qi, streams);
    assert byInclude == Filter(qi, streams);
    if |config.excludes| == 0 {
      FilterAll(ExcludeFilter(config), byInclude);
    }
    FilterFilter(qi, ExcludeFilter(config), KeepFilter(config), streams);
  }

  /** `filterStreams` is one filter by `Keep` followed by `slice(0, maxResults)`. */
  lemma FilterStreamsReference(streams: seq<Stream>, config: Config)
    ensures FilterStreams(streams, config)
            == (if config.maxResults != 0 then SliceTo(Filter(KeepFilter(config), streams), config.maxResults)
                else Filter(KeepFilter(config), streams))
  {
    StagedIsOneFilter(streams, config);
  }

  /** Every stream that survives the filters is kept when no limit applies. */
  lemma FilterStreamsKeepsAll(streams: seq<Stream>, config: Config, i: nat)
    requires config.maxResults == 0 && i < |streams| && Keep(config, streams[i])
    ensures streams[i] in FilterStreams(streams, config)
  {
    FilterStreamsReference(streams, config);
    var m := FilterFind(KeepFilter(config), streams, i);
  }

  // ---------------------------------------------------------------------------
  // searchTorrents

  /** The search text: the title, plus ` SxxEyy` for a series episode, each
      number padded to two characters with zeros. */
  function SearchQuery(title: string, kind: string, parsed: ParsedId): (q: string)
    ensures StartsWith(q, title)
    ensures kind != "series" || parsed.season.None? || parsed.episode.None? ==> q == title
  {
    if kind == "series" && parsed.season.Some? && parsed.episode.Some? then
      title + " S" + PadStart(JsIntToString(parsed.season.value), 2, '0')
            + "E" + PadStart(JsIntToString(parsed.episode.value), 2, '0')
    else title
  }

  /** The two-character tag of a season or episode number below 100. */
  function Tag(n: int): string {
    PadStart(IntToString(n), 2, '0')
  }

  /** For numbers below 100 the tag is two digits, and reading it back with
      `parseInt` gives the number. */
  lemma TagRoundTrip(n: nat)
    requires n < 100
    ensures |Tag(n)| == 2 && IsDigit(Tag(n)[0]) && IsDigit(Tag(n)[1])
    ensures ParseInt(Tag(n)) == Int(n)
  {
    var t := Tag(n);
    if n < 10 {
      assert IntToString(n) == [DigitChar(n)];
      assert t == ['0', DigitChar(n)];
      ParseIntOfDigits(t);
      assert t[..1] == ['0'];
      assert DigitsValue(['0']) == 0 by {
        assert ['0'][..0] == [];
      }
      assert DigitsValue(t) == n;
    } else {
      assert |NatToString(n / 10)| == 1;
      ParseIntOfIntToString(n);
    }
  }

  /** An episode search ends in the `SxxEyy` tag. Below 100 the query is the
      title, ` S`, two digits that read back as the season, `E`, and two
      digits that read back as the episode. */
  lemma EpisodeQuery(title: string, imdbId: string, season: nat, episode: nat)
    ensures SearchQuery(title, "series", ParsedId(imdbId, Some(Int(season)), Some(Int(episode))))
            == title + " S" + Tag(season) + "E" + Tag(episode)
    ensures season < 100 && episode < 100 ==>
      var q := SearchQuery(title, "series", ParsedId(imdbId, Some(Int(season)), Some(Int(episode))));
      var n := |title|;
      && |q| == n + 7 && q[..n] == title && q[n..n + 2] == " S" && q[n + 4] == 'E'
      && IsDigit(q[n + 2]) && IsDigit(q[n + 3]) && ParseInt(q[n + 2..n + 4]) == Int(season)
      && IsDigit(q[n + 5]) && IsDigit(q[n + 6]) && ParseInt(q[n + 5..]) == Int(episode)
  {
    if season < 100 && episode < 100 {
      TagRoundTrip(season);
      TagRoundTrip(episode);
      TaggedLayout(title, Tag(season), Tag(episode));
    }
  }

  /** Where the pieces of `title Sxx Eyy` sit. */
  lemma TaggedLayout(title: string, s: string, e: string)
    requires |s| == 2 && |e| == 2
    ensures var q := title + " S" + s + "E" + e;
      var n := |title|;
      && |q| == n + 7 && q[..n] == title && q[n..n + 2] == " S" && q[n + 4] == 'E'
      && q[n + 2..n + 4] == s && q[n + 2] == s[0] && q[n + 3] == s[1]
      && q[n + 5..] == e && q[n + 5] == e[0] && q[n + 6] == e[1]
  {
  }

  /** One Knaben hit; absent strings are "" and absent numbers 0. */
  datatype Hit = Hit(magnetUrl: string, link: string, title: string, bytes: int, seeders: int, cachedOrigin: string)

  /** The JSON body of the Knaben search request. */
  datatype KnabenRequest = KnabenRequest(
    searchField: string, query: string, orderBy: string, orderDirection: string,
    from: int, size: int, hideUnsafe: bool, hideXxx: bool)

  /** The request for a query: the ten most seeded title matches, unsafe and adult results hidden. */
  function KnabenRequestFor(query: string): (r: KnabenRequest)
    ensures r.query == query && r.size == 10 && r.from == 0
  {
    KnabenRequest("title", query, "seeders", "desc", 0, 10, true, true)
  }

  /** `hit.magnetUrl || hit.link`. */
  function HitMagnet(h: Hit): string {
    if h.magnetUrl != [] then h.magnetUrl else h.link
  }

  /** The stream a hit becomes, or nothing when it has no `magnet:` link.
      `formatBytes` stands for the size formatting. */
  function HitStream(h: Hit, formatBytes: int -> string): (r: Option<Stream>)
    ensures r.None? <==> !StartsWith(HitMagnet(h), "magnet:")
    ensures r.Some? ==> r.value.url == HitMagnet(h) && r.value.name == AddonName
    ensures r.Some? ==> StartsWith(r.value.title, if h.title != [] then h.title else "Unknown")
    ensures r.Some? ==>
      var name := if h.title != [] then h.title else "Unknown";
      var head := name + "\n" + formatBytes(h.bytes) + " | S:";
      var src := if h.cachedOrigin != [] then h.cachedOrigin else "Unknown";
      var t := r.value.title;
      && |head| <= |t| && t[..|head|] == head
      && ParseInt(t[|head|..]) == Int(h.seeders)
      && EndsWith(t, " | " + src)
  {
    var magnet := HitMagnet(h);
    if magnet == [] || !StartsWith(magnet, "magnet:") then None
    else
      var name := if h.title != [] then h.title else "Unknown";
      var head := name + "\n" + formatBytes(h.bytes) + " | S:";
      var src := if h.cachedOrigin != [] then h.cachedOrigin else "Unknown";
      var title := head + IntToString(h.seeders) + " | " + src;
      HitTitleReads(name, head, h.seeders, src);
      Some(Stream(AddonName, title, magnet, [], []))
  }

  /** Where the pieces of a hit's two-line title sit, and what `parseInt`
      reads after the `S:`. */
  lemma {:induction false} HitTitleReads(name: string, head: string, seeders: int, src: string)
    requires StartsWith(head, name)
    ensures var t := head + IntToString(seeders) + " | " + src;
      && StartsWith(t, name) && |head| <= |t| && t[..|head|] == head
      && ParseInt(t[|head|..]) == Int(seeders) && EndsWith(t, " | " + src)
  {
    var seeds := IntToString(seeders);
    var rest := " | " + src;
    assert rest[0] == ' ';
    assert head + seeds + " | " + src == head + seeds + rest;
    ParseIntOfIntToStringThen(seeders, rest);
    HitTitleLayout(name, head, seeds, rest);
  }

  /** Where the pieces of a title `head + seeds + rest` sit. */
  lemma {:induction false} HitTitleLayout(name: string, head: string, seeds: string, rest: string)
    requires StartsWith(head, name)
    ensures var t := head + seeds + rest;
      && StartsWith(t, name) && |head| <= |t| && t[..|head|] == head
      && t[|head|..] == seeds + rest && EndsWith(t, rest)
  {
    var t := head + seeds + rest;
    assert t == head + (seeds + rest);
    assert t[..|name|] == head[..|name|];
  }

  function StreamUrl(s: Stream): string {
    s.url
  }

  /** The hit loop: one stream per distinct magnet link, first hit first. */
  function KnabenStreams(hits: seq<Hit>, formatBytes: int -> string): (r: seq<Stream>)
    ensures |r| <= |hits|
    ensures forall i :: 0 <= i < |r| ==> StartsWith(r[i].url, "magnet:") && r[i].name == AddonName
    ensures forall i :: 0 <= i < |r| ==> r[i].externalUrl == []
    ensures forall i, j :: 0 <= i < j < |r| ==> r[i].url != r[j].url
  {
    var r := Dedup.CollectUnique(hits, h => HitStream(h, formatBytes), StreamUrl, {});
    assert forall i :: 0 <= i < |r| ==> StartsWith(r[i].url, "magnet:") && r[i].name == AddonName && r[i].externalUrl == [] by {
      Dedup.CollectIsSubsequence(hits, h => HitStream(h, formatBytes), StreamUrl, {});
      AcceptedHitStreams(hits, formatBytes);
      SubsequenceKeeps(r, Dedup.Accepted(hits, h => HitStream(h, formatBytes)));
    }
    r
  }

  lemma {:induction false} AcceptedHitStreams(hits: seq<Hit>, formatBytes: int -> string)
    ensures forall s :: s in Dedup.Accepted(hits, h => HitStream(h, formatBytes)) ==>
              StartsWith(s.url, "magnet:") && s.name == AddonName && s.externalUrl == []
  {
    if hits != [] {
      AcceptedHitStreams(hits[1..], formatBytes);
    }
  }

  /** Every hit with a `magnet:` link is represented by a stream with that link. */
  lemma KnabenKeepsEveryMagnet(hits: seq<Hit>, formatBytes: int -> string, i: nat)
    requires i < |hits| && StartsWith(HitMagnet(hits[i]), "magnet:")
    ensures exists j :: 0 <= j < |KnabenStreams(hits, formatBytes)| && KnabenStreams(hits, formatBytes)[j].url == HitMagnet(hits[i])
  {
    var r := KnabenStreams(hits, formatBytes);
    Dedup.CollectCovers(hits, h => HitStream(h, formatBytes), StreamUrl, {}, i);
    var ks := Dedup.Keys(r, StreamUrl);
    var j :| 0 <= j < |ks| && ks[j] == HitMagnet(hits[i]);
  }

  /** `searchTorrents`: `meta` is the title lookup (a failure is a thrown
      error, "" a missing title) and `knaben` the search request (any failure
      is swallowed). */
  function SearchTorrents(id: string, kind: string, meta: (string, string) -> Result<string, string>,
                          knaben: KnabenRequest -> Result<seq<Hit>, string>, formatBytes: int -> string): (r: Result<seq<Stream>, string>)
    ensures ParseId(id).None? ==> r == Success([])
    ensures r.Success? ==> forall i :: 0 <= i < |r.value| ==> r.value[i].externalUrl == []
    ensures r.Failure? <==> ParseId(id).Some? && meta(ParseId(id).value.imdbId, if kind == [] then "movie" else kind).Failure?
    ensures r.Success? && r.value != [] ==>
      var p := ParseId(id).value;
      var kind' := if kind == [] then "movie" else kind;
      var title := meta(p.imdbId, kind').value;
      && title != []
      && knaben(KnabenRequestFor(SearchQuery(title, kind', p))).Success?
      && r.value == KnabenStreams(knaben(KnabenRequestFor(SearchQuery(title, kind', p))).value, formatBytes)
    ensures ParseId(id).Some? && meta(ParseId(id).value.imdbId, if kind == [] then "movie" else kind).Success? ==>
      var p := ParseId(id).value;
      var kind' := if kind == [] then "movie" else kind;
      var title := meta(p.imdbId, kind').value;
      && (title == [] ==> r == Success([]))
      && (title != [] && knaben(KnabenRequestFor(SearchQuery(title, kind', p))).Failure? ==> r == Success([]))
      && (title != [] && knaben(KnabenRequestFor(SearchQuery(title, kind', p))).Success? ==>
            r == Success(KnabenStreams(knaben(KnabenRequestFor(SearchQuery(title, kind', p))).value, formatBytes)))
  {
    var kind' := if kind == [] then "movie" else kind;
    match ParseId(id)
    case None => Success([])
    case Some(p) =>
      match meta(p.imdbId, kind')
      case Failure(e) => Failure(e)
      case Success(title) =>
        if title == [] then Success([])
        else match knaben(KnabenRequestFor(SearchQuery(title, kind', p)))
          case Failure(_) => Success([])
          case Success(hits) => Success(KnabenStreams(hits, formatBytes))
  }

  /** A search that reaches Knaben answers with a stream for every hit that
      carries a `magnet:` link. */
  lemma SearchKeepsEveryMagnet(id: string, kind: string, meta: (string, string) -> Result<string, string>,
                               knaben: KnabenRequest -> Result<seq<Hit>, string>, formatBytes: int -> string, i: nat)
    requires ParseId(id).Some?
    requires meta(ParseId(id).value.imdbId, if kind == [] then "movie" else kind).Success?
    requires meta(ParseId(id).value.imdbId, if kind == [] then "movie" else kind).value != []
    requires knaben(KnabenRequestFor(SearchQuery(meta(ParseId(id).value.imdbId, if kind == [] then "movie" else kind).value,
                                                 if kind == [] then "movie" else kind, ParseId(id).value))).Success?
    requires var hits := knaben(KnabenRequestFor(SearchQuery(meta(ParseId(id).value.imdbId, if kind == [] then "movie" else kind).value,
                                                             if kind == [] then "movie" else kind, ParseId(id).value))).value;
             i < |hits| && StartsWith(HitMagnet(hits[i]), "magnet:")
    ensures SearchTorrents(id, kind, meta, knaben, formatBytes).Success?
    ensures var hits := knaben(KnabenRequestFor(SearchQuery(meta(ParseId(id).value.imdbId, if kind == [] then "movie" else kind).value,
                                                            if kind == [] then "movie" else kind, ParseId(id).value))).value;
            var r := SearchTorrents(id, kind, meta, knaben, formatBytes).value;
            exists j :: 0 <= j < |r| && r[j].url == HitMagnet(hits[i])
  {
    var kind' := if kind == [] then "movie" else kind;
    var p := ParseId(id).value;
    var hits := knaben(KnabenRequestFor(SearchQuery(meta(p.imdbId, kind').value, kind', p))).value;
    KnabenKeepsEveryMagnet(hits, formatBytes, i);
  }
}

=== FILE: js.dfy ===
/** JavaScript value conversions the server performs on loosely typed input:
    `parseInt(s, 10)`, `String(n)` for integers, and the string-or-array
    values a parsed query string holds. */
module Js {
  import opened Text

  /** The result of `parseInt`: an integer or `NaN`. */
  datatype JsInt = Int(value: int) | NaN {

    /** JavaScript truthiness: `NaN` and `0` are falsy. */
    predicate Truthy() {
      Int? && value != 0
    }
  }

  /** A query value: a single string, or the array a repeated key collects. */
  datatype Value = Str(s: string) | List(items: seq<string>) {

    /** JavaScript truthiness: the empty string is falsy, every array is truthy. */
    predicate Truthy() {
      List? || s != []
    }

    /** `String(v)`: arrays are joined with commas. */
    function ToStr(): string {
      match this
      case Str(s) => s
      case List(items) => Join(items, ',')
    }
  }

  /** The longest prefix of `s` made of decimal digits. */
  function DigitPrefix(s: string): (d: string)
    ensures StartsWith(s, d)
    ensures forall i :: 0 <= i < |d| ==> IsDigit(s[i])
    ensures |d| < |s| ==> !IsDigit(s[|d|])
  {
    if s != [] && IsDigit(s[0]) then [s[0]] + DigitPrefix(s[1..]) else []
  }

  /** The number a string of decimal digits denotes. */
  function DigitsValue(d: string): nat
    requires forall i :: 0 <= i < |d| ==> IsDigit(d[i])
  {
    if d == [] then 0
    else
      var last := d[|d| - 1];
      assert IsDigit(last);
      DigitsValue(d[..|d| - 1]) * 10 + (last as int - '0' as int)
  }

  /** What `parseInt` reads digits from: `s` without leading white space and
      without one leading sign. */
  function NumberBody(s: string): string {
    var t := TrimStart(s);
    if t != [] && (t[0] == '-' || t[0] == '+') then t[1..] else t
  }

  /** `parseInt(s, 10)`: leading white space and one sign are skipped, then the
      longest run of digits is read; no digit at all gives `NaN`. */
  function ParseInt(s: string): (r: JsInt)
    ensures r.NaN? <==> NumberBody(s) == [] || !IsDigit(NumberBody(s)[0])
  {
    var t := TrimStart(s);
    var negative := t != [] && t[0] == '-';
    var d := DigitPrefix(NumberBody(s));
    if d == [] then NaN
    else
      var v: int := DigitsValue(d);
      Int(if negative then -v else v)
  }

  function DigitChar(n: nat): char
    requires n < 10
  {
    ('0' as int + n) as char
  }

  /** The decimal digits of `n`, without leading zeros. */
  function NatToString(n: nat): (r: string)
    ensures r != []
    ensures forall i :: 0 <= i < |r| ==> IsDigit(r[i])
    ensures r[0] == '0' ==> n == 0
  {
    if n < 10 then [DigitChar(n)] else NatToString(n / 10) + [DigitChar(n % 10)]
  }

  /** `String(n)` for an integer: a minus sign for negatives, then the digits. */
  function IntToString(n: int): (r: string)
    ensures r != [] && !IsSpace(r[0])
  {
    if n < 0 then "-" + NatToString(-n) else NatToString(n)
  }

  /** `String(x)` for the result of a `parseInt`. */
  function JsIntToString(x: JsInt): string {
    match x
    case Int(n) => IntToString(n)
    case NaN => "NaN"
  }

  lemma {:induction false} DigitsValueOfNatToString(n: nat)
    ensures DigitsValue(NatToString(n)) == n
  {
    if n >= 10 {
      var r := NatToString(n);
      DigitsValueOfNatToString(n / 10);
      assert r[..|r| - 1] == NatToString(n / 10);
    }
  }

  lemma DigitPrefixOfDigits(d: string)
    requires forall i :: 0 <= i < |d| ==> IsDigit(d[i])
    ensures DigitPrefix(d) == d
  {
    if d != [] {
      DigitPrefixOfDigits(d[1..]);
    }
  }

  /** A string that starts with a non-space is its own `TrimStart`. */
  lemma TrimStartOfNonSpace(s: string)
    requires s != [] && !IsSpace(s[0])
    ensures TrimStart(s) == s
  {
  }

  /** `parseInt` of a plain run of digits (leading zeros allowed) is its value. */
  lemma ParseIntOfDigits(d: string)
    requires d != [] && forall i :: 0 <= i < |d| ==> IsDigit(d[i])
    ensures ParseInt(d) == Int(DigitsValue(d))
  {
    assert '0' <= d[0] <= '9';
    assert !IsSpace(d[0]) && d[0] != '-' && d[0] != '+';
    TrimStartOfNonSpace(d);
    assert NumberBody(d) == d;
    DigitPrefixOfDigits(d);
  }

  /** `parseInt` of a minus sign and a run of digits is the negated value. */
  lemma ParseIntOfMinusDigits(s: string, d: string)
    requires d != [] && forall i :: 0 <= i < |d| ==> IsDigit(d[i])
    requires s != [] && s[0] == '-' && s[1..] == d
    ensures ParseInt(s) == Int(-(DigitsValue(d) as int))
  {
    TrimStartOfNonSpace(s);
    assert NumberBody(s) == d;
    DigitPrefixOfDigits(d);
    assert DigitPrefix(NumberBody(s)) == d;
  }

  /** `parseInt(String(n), 10)` gives back `n`. */
  lemma ParseIntOfIntToString(n: int)
    ensures ParseInt(IntToString(n)) == Int(n)
  {
    if n < 0 {
      ParseIntOfNegative(n);
    } else {
      ParseIntOfNatToString(n);
    }
  }

  lemma ParseIntOfNegative(n: int)
    requires n < 0
    ensures ParseInt(IntToString(n)) == Int(n)
  {
    var m: nat := -n;
    var d := NatToString(m);
    var s := "-" + d;
    assert IntToString(n) == s;
    assert s[1..] == d;
    DigitsValueOfNatToString(m);
    ParseIntOfMinusDigits(s, d);
  }

  lemma ParseIntOfNatToString(n: nat)
    ensures ParseInt(NatToString(n)) == Int(n)
  {
    ParseIntOfDigits(NatToString(n));
    DigitsValueOfNatToString(n);
  }

  /** The digit run that starts a string ends at its first non-digit. */
  lemma {:induction false} DigitPrefixOfDigitsThen(d: string, rest: string)
    requires forall i :: 0 <= i < |d| ==> IsDigit(d[i])
    requires rest == [] || !IsDigit(rest[0])
    ensures DigitPrefix(d + rest) == d
    decreases |d|
  {
    if d != [] {
      assert (d + rest)[1..] == d[1..] + rest;
      DigitPrefixOfDigitsThen(d[1..], rest);
    } else {
      assert d + rest == rest;
    }
  }

  /** What `parseInt` reads: after leading white space and an optional sign,
      the value of the whole run of digits (leading zeros allowed), whatever
      follows the first non-digit. */
  lemma ParseIntReads(pre: string, sign: string, d: string, rest: string)
    requires AllSpace(pre) && (sign == "" || sign == "-" || sign == "+")
    requires d != [] && forall i :: 0 <= i < |d| ==> IsDigit(d[i])
    requires rest == [] || !IsDigit(rest[0])
    ensures ParseInt(pre + sign + d + rest) == Int(if sign == "-" then -(DigitsValue(d) as int) else DigitsValue(d))
  {
    var body := d + rest;
    var t := sign + body;
    Regroup(pre, sign, d, rest);
    SignedStart(sign, body);
    TrimStartSkips(pre, t);
    SignedBody(sign, body);
    DigitPrefixOfDigitsThen(d, rest);
    ParseIntOfTrimmedStart(pre + t, t, body, d, sign == "-");
  }

  /** Without white space or sign in front, the leading digit run is read. */
  lemma ParseIntOfDigitsThen(d: string, rest: string)
    requires d != [] && forall i :: 0 <= i < |d| ==> IsDigit(d[i])
    requires rest == [] || !IsDigit(rest[0])
    ensures ParseInt(d + rest) == Int(DigitsValue(d))
  {
    var s := d + rest;
    assert s[0] == d[0] && '0' <= d[0] <= '9';
    TrimStartOfNonSpace(s);
    DigitPrefixOfDigitsThen(d, rest);
    ParseIntOfTrimmedStart(s, s, s, d, false);
  }

  /** `parseInt` reads a printed integer back even when text follows it,
      as long as that text does not start with a digit. */
  lemma ParseIntOfIntToStringThen(n: int, rest: string)
    requires rest == [] || !IsDigit(rest[0])
    ensures ParseInt(IntToString(n) + rest) == Int(n)
  {
    if n < 0 {
      var m: nat := -n;
      var d := NatToString(m);
      assert IntToString(n) == "-" + d;
      ParseIntOfMinusThen(d, rest);
      DigitsValueOfNatToString(m);
    } else {
      ParseIntOfDigitsThen(NatToString(n), rest);
      DigitsValueOfNatToString(n);
    }
  }

  /** A minus sign, a digit run and then a non-digit read as the negated run. */
  lemma {:induction false} ParseIntOfMinusThen(d: string, rest: string)
    requires d != [] && forall i :: 0 <= i < |d| ==> IsDigit(d[i])
    requires rest == [] || !IsDigit(rest[0])
    ensures ParseInt("-" + d + rest) == Int(-(DigitsValue(d) as int))
  {
    var body := d + rest;
    var s := "-" + body;
    assert "-" + d + rest == s;
    assert s[0] == '-' && s[1..] == body;
    TrimStartOfNonSpace(s);
    DigitPrefixOfDigitsThen(d, rest);
    ParseIntOfTrimmedStart(s, s, body, d, true);
  }

  lemma Regroup(a: string, b: string, c: string, e: string)
    ensures a + b + c + e == a + (b + (c + e))
  {
  }

  /** `parseInt` given its intermediate results. */
  lemma ParseIntOfTrimmedStart(s: string, t: string, body: string, d: string, negative: bool)
    requires TrimStart(s) == t && t != []
    requires negative == (t[0] == '-')
    requires (if t[0] == '-' || t[0] == '+' then t[1..] else t) == body
    requires d != [] && forall i :: 0 <= i < |d| ==> IsDigit(d[i])
    requires DigitPrefix(body) == d
    ensures ParseInt(s) == Int(if negative then -(DigitsValue(d) as int) else DigitsValue(d))
  {
    assert NumberBody(s) == body;
  }

  /** A sign or a digit is not white space. */
  lemma SignedStart(sign: string, body: string)
    requires sign == "" || sign == "-" || sign == "+"
    requires body != [] && IsDigit(body[0])
    ensures (sign + body)[0] == (if sign == "" then body[0] else sign[0])
    ensures !IsSpace((sign + body)[0])
  {
  }

  /** Dropping the optional sign leaves the digits. */
  lemma SignedBody(sign: string, body: string)
    requires sign == "" || sign == "-" || sign == "+"
    requires body != [] && IsDigit(body[0])
    ensures var t := sign + body;
            (if t != [] && (t[0] == '-' || t[0] == '+') then t[1..] else t) == body
  {
    var t := sign + body;
    if sign == "" {
      assert t == body;
    } else {
      assert t[1..] == body;
    }
  }
}

=== FILE: lists.dfy ===
/** Sequence operations shared by the filters and collectors of the model:
    `Array.prototype.filter`, `slice(0, n)`, and the order-preserving
    subsequence relation their results stand in. */
module Lists {

  /** `a` can be obtained from `b` by deleting elements. */
  ghost predicate IsSubsequence<T>(a: seq<T>, b: seq<T>)
    decreases |b|
  {
    a == [] || (b != [] && ((a[0] == b[0] && IsSubsequence(a[1..], b[1..])) || IsSubsequence(a, b[1..])))
  }

  /** `Array.prototype.filter`. */
  function Filter<T>(p: T -> bool, s: seq<T>): (r: seq<T>)
    ensures |r| <= |s|
    ensures forall i :: 0 <= i < |r| ==> p(r[i])
  {
    if s == [] then [] else (if p(s[0]) then [s[0]] else []) + Filter(p, s[1..])
  }

  /** `Array.prototype.slice(0, n)`: a negative `n` counts from the end. */
  function SliceTo<T>(s: seq<T>, n: int): (r: seq<T>)
    ensures n >= 0 ==> |r| == (if n < |s| then n else |s|)
    ensures n < 0 ==> |r| == (if |s| + n > 0 then |s| + n else 0)
    ensures r == s[..|r|]
  {
    if n >= 0 then (if n < |s| then s[..n] else s)
    else if |s| + n > 0 then s[..|s| + n] else []
  }

  lemma {:induction false} SubsequenceLength<T>(a: seq<T>, b: seq<T>)
    requires IsSubsequence(a, b)
    ensures |a| <= |b|
    decreases |b|
  {
    if a != [] {
      if a[0] == b[0] && IsSubsequence(a[1..], b[1..]) {
        SubsequenceLength(a[1..], b[1..]);
      } else {
        SubsequenceLength(a, b[1..]);
      }
    }
  }

  lemma {:induction false} SubsequenceReflexive<T>(a: seq<T>)
    ensures IsSubsequence(a, a)
  {
    if a != [] {
      SubsequenceReflexive(a[1..]);
    }
  }

  lemma {:induction false} PrefixIsSubsequence<T>(b: seq<T>, k: nat)
    requires k <= |b|
    ensures IsSubsequence(b[..k], b)
  {
    if k > 0 {
      PrefixIsSubsequence(b[1..], k - 1);
      assert b[..k][1..] == b[1..][..k - 1];
    }
  }

  lemma {:induction false} SubsequenceTransitive<T>(a: seq<T>, b: seq<T>, c: seq<T>)
    requires IsSubsequence(a, b) && IsSubsequence(b, c)
    ensures IsSubsequence(a, c)
    decreases |c|
  {
    if a != [] {
      SubsequenceLength(a, b);
      if b[0] == c[0] && IsSubsequence(b[1..], c[1..]) {
        if a[0] == b[0] && IsSubsequence(a[1..], b[1..]) {
          SubsequenceTransitive(a[1..], b[1..], c[1..]);
        } else {
          SubsequenceTransitive(a, b[1..], c[1..]);
        }
      } else {
        SubsequenceTransitive(a, b, c[1..]);
      }
    }
  }

  /** Prepending the same element keeps the relation. */
  lemma SubsequenceCons<T>(x: T, a: seq<T>, b: seq<T>)
    requires IsSubsequence(a, b)
    ensures IsSubsequence([x] + a, [x] + b)
  {
    assert ([x] + a)[1..] == a;
    assert ([x] + b)[1..] == b;
  }

  /** Prepending an element to the larger sequence keeps the relation. */
  lemma SubsequenceSkip<T>(x: T, a: seq<T>, b: seq<T>)
    requires IsSubsequence(a, b)
    ensures IsSubsequence(a, [x] + b)
  {
    assert ([x] + b)[1..] == b;
  }

  /** A filter keeps elements in their original order. */
  lemma {:induction false} FilterIsSubsequence<T>(p: T -> bool, s: seq<T>)
    ensures IsSubsequence(Filter(p, s), s)
  {
    if s == [] {
    } else {
      FilterIsSubsequence(p, s[1..]);
      if p(s[0]) {
        SubsequenceCons(s[0], Filter(p, s[1..]), s[1..]);
        assert [s[0]] + s[1..] == s;
      } else {
        assert Filter(p, s) == Filter(p, s[1..]);
      }
    }
  }

  lemma {:induction false} FilterConcat<T>(p: T -> bool, a: seq<T>, b: seq<T>)
    ensures Filter(p, a + b) == Filter(p, a) + Filter(p, b)
  {
    if a != [] {
      assert (a + b)[1..] == a[1..] + b;
      FilterConcat(p, a[1..], b);
    } else {
      assert a + b == b;
    }
  }

  /** A property of every input element holds of every kept element. */
  lemma {:induction false} FilterKeepsProperty<T>(p: T -> bool, q: T -> bool, s: seq<T>)
    requires forall i :: 0 <= i < |s| ==> q(s[i])
    ensures forall i :: 0 <= i < |Filter(p, s)| ==> q(Filter(p, s)[i])
  {
    if s != [] {
      FilterKeepsProperty(p, q, s[1..]);
    }
  }

  /** Two filters in a row are one filter by the conjunction. */
  lemma {:induction false} FilterFilter<T>(p: T -> bool, q: T -> bool, both: T -> bool, s: seq<T>)
    requires forall i :: 0 <= i < |s| ==> both(s[i]) == (p(s[i]) && q(s[i]))
    ensures Filter(q, Filter(p, s)) == Filter(both, s)
  {
    if s != [] {
      var f1 := Filter(p, s[1..]);
      FilterFilter(p, q, both, s[1..]);
      if p(s[0]) {
        assert Filter(p, s) == [s[0]] + f1;
        FilterConcat(q, [s[0]], f1);
        assert Filter(q, [s[0]]) == if q(s[0]) then [s[0]] else [];
      } else {
        assert Filter(p, s) == f1;
      }
    }
  }

  /** A filter whose predicate holds of every element keeps everything. */
  lemma {:induction false} FilterAll<T>(p: T -> bool, s: seq<T>)
    requires forall i :: 0 <= i < |s| ==> p(s[i])
    ensures Filter(p, s) == s
  {
    if s != [] {
      FilterAll(p, s[1..]);
    }
  }

  /** Filters agreeing on the elements give the same result. */
  lemma {:induction false} FilterCongruent<T>(p: T -> bool, q: T -> bool, s: seq<T>)
    requires forall i :: 0 <= i < |s| ==> p(s[i]) == q(s[i])
    ensures Filter(p, s) == Filter(q, s)
  {
    if s != [] {
      FilterCongruent(p, q, s[1..]);
    }
  }

  /** The element of a filter at position `m` sits at some index `k` of the
      input, and the filtered prefix before `k` is exactly the first `m` results. */
  lemma {:induction false} FilterPosition<T>(p: T -> bool, s: seq<T>, m: nat) returns (k: nat)
    requires m < |Filter(p, s)|
    ensures k < |s| && s[k] == Filter(p, s)[m] && p(s[k])
    ensures Filter(p, s[..k]) == Filter(p, s)[..m]
  {
    var f := Filter(p, s);
    var f1 := Filter(p, s[1..]);
    if p(s[0]) && m == 0 {
      k := 0;
      assert s[..0] == [];
    } else {
      var m' := if p(s[0]) then m - 1 else m;
      assert f == (if p(s[0]) then [s[0]] else []) + f1;
      var k' := FilterPosition(p, s[1..], m');
      k := k' + 1;
      FilterPrefixStep(p, s, k');
      if p(s[0]) {
        assert f[..m] == [s[0]] + f1[..m'];
      }
    }
  }

  /** Filtering a prefix of length `k + 1` is the head's contribution followed
      by the filtered prefix of the tail. */
  lemma FilterPrefixStep<T>(p: T -> bool, s: seq<T>, k: nat)
    requires k < |s|
    ensures Filter(p, s[..k + 1]) == (if p(s[0]) then [s[0]] else []) + Filter(p, s[1..][..k])
  {
    var a := s[..k + 1];
    assert a[0] == s[0] && a[1..] == s[1..][..k];
  }

  /** An element the predicate accepts appears in the filter, after exactly
      the accepted elements before it. */
  lemma FilterFind<T>(p: T -> bool, s: seq<T>, k: nat) returns (m: nat)
    requires k < |s| && p(s[k])
    ensures m < |Filter(p, s)| && Filter(p, s)[m] == s[k]
    ensures Filter(p, s[..k]) == Filter(p, s)[..m]
  {
    assert s == s[..k] + s[k..];
    FilterConcat(p, s[..k], s[k..]);
    assert s[k..] == [s[k]] + s[k + 1..];
    FilterConcat(p, [s[k]], s[k + 1..]);
    assert Filter(p, [s[k]]) == [s[k]];
    m := |Filter(p, s[..k])|;
  }
}

=== FILE: magnet.dfy ===
/** The search both hash extractors run over a magnet URI: the leftmost
    `urn:btih:` (letters in any case, as under the regular-expression flag `i`)
    followed by a fixed number of characters of one class, captured and
    lower-cased. */
module Magnet {
  import opened Wrappers
  import opened Text

  const BtihPrefix: string := "urn:btih:"

  /** The prefix every synthesized magnet URI puts before its hash. */
  const MagnetPrefix: string := "magnet:?xt=urn:btih:"

  /** `urn:btih:` followed by `width` characters of class `cls` starts at `i`. */
  predicate BtihAt(s: string, i: nat, width: nat, cls: char -> bool) {
    && i + |BtihPrefix| + width <= |s|
    && ToLower(s[i..i + |BtihPrefix|]) == BtihPrefix
    && forall k :: i + |BtihPrefix| <= k < i + |BtihPrefix| + width ==> cls(s[k])
  }

  /** `i` is the leftmost match: there is one at `i` and none before it. */
  predicate LeftmostBtih(s: string, i: nat, width: nat, cls: char -> bool) {
    BtihAt(s, i, width, cls) && forall j :: 0 <= j < i ==> !BtihAt(s, j, width, cls)
  }

  /** The leftmost match position at or after `start`. */
  function FirstBtihFrom(s: string, start: nat, width: nat, cls: char -> bool): (r: Option<nat>)
    ensures r.Some? ==> start <= r.value && BtihAt(s, r.value, width, cls)
    ensures r.Some? ==> forall j :: start <= j < r.value ==> !BtihAt(s, j, width, cls)
    ensures r.None? ==> forall j :: start <= j ==> !BtihAt(s, j, width, cls)
    decreases |s| - start
  {
    if start + |BtihPrefix| + width > |s| then None
    else if BtihAt(s, start, width, cls) then Some(start)
    else FirstBtihFrom(s, start + 1, width, cls)
  }

  /** The characters a match at `i` captures. */
  function Captured(s: string, i: nat, width: nat): string
    requires i + |BtihPrefix| + width <= |s|
  {
    s[i + |BtihPrefix|..i + |BtihPrefix| + width]
  }

  /** `s.match(/urn:btih:(C{width})/i)`, with the capture lower-cased. */
  function FindBtih(s: string, width: nat, cls: char -> bool): (r: Option<string>)
    ensures r.None? <==> forall i :: !BtihAt(s, i, width, cls)
    ensures r.Some? ==> |r.value| == width && IsLower(r.value)
    ensures r.Some? ==> exists i :: LeftmostBtih(s, i, width, cls) && r.value == ToLower(Captured(s, i, width))
  {
    match FirstBtihFrom(s, 0, width, cls)
    case None => None
    case Some(i) =>
      ToLowerIsLower(Captured(s, i, width));
      Some(ToLower(Captured(s, i, width)))
  }

  /** Extracting from a synthesized magnet URI gives back the hash it was built from. */
  lemma FindBtihOfMagnetUri(h: string, width: nat, cls: char -> bool)
    requires |h| == width && IsLower(h)
    requires forall k :: 0 <= k < |h| ==> cls(h[k])
    ensures FindBtih(MagnetPrefix + h, width, cls) == Some(h)
  {
    var s := MagnetPrefix + h;
    var start := |MagnetPrefix| - |BtihPrefix|;
    forall j | 0 <= j < start
      ensures !BtihAt(s, j, width, cls)
    {
      NoBtihInScheme(h, width, cls, j);
    }
    assert s[start..start + |BtihPrefix|] == BtihPrefix;
    assert BtihAt(s, start, width, cls);
    assert Captured(s, start, width) == h;
    LowerIsFixed(h);
    var r := FirstBtihFrom(s, 0, width, cls);
    assert r == Some(start);
  }

  /** No match starts inside the `magnet:?xt=` scheme part: none of its
      characters is a `u`. */
  lemma NoBtihInScheme(h: string, width: nat, cls: char -> bool, j: nat)
    requires j < |MagnetPrefix| - |BtihPrefix|
    ensures !BtihAt(MagnetPrefix + h, j, width, cls)
  {
    var s := MagnetPrefix + h;
    assert s[j] == MagnetPrefix[j];
    assert LowerChar(MagnetPrefix[j]) != 'u';
    if j + |BtihPrefix| <= |s| {
      assert ToLower(s[j..j + |BtihPrefix|])[0] == LowerChar(s[j]);
    }
  }
}

=== FILE: records.dfy ===
/** The record shapes passed between the search, the filter, the debrid
    resolver and the request handlers. */
module Records {

  /** The name every stream entry of the add-on carries. */
  const AddonName: string := "Flix-Finder"

  /** A stream entry. String fields that the source leaves unset are the empty
      string, which is falsy exactly like the missing property. */
  datatype Stream = Stream(name: string, title: string, url: string, infoHash: string, externalUrl: string)

  /** The object `parseConfig` returns; `includes` and `excludes` are its
      `include` and `exclude` keyword lists. */
  datatype Config = Config(
    quality: string,
    debridService: string,
    debridToken: string,
    includes: seq<string>,
    excludes: seq<string>,
    maxResults: int)

  /** What a handler answers: the HTTP status and the `streams` of the JSON body. */
  datatype Reply = Reply(status: int, streams: seq<Stream>)
}

=== FILE: scrapers.dfy ===
/** The two HTML scrapers (1337x and TorrentGalaxy) and the combined search
    that merges their hits by seeders. The HTML itself is not modelled: each
    result row arrives as the texts the scraper reads from it, and the page
    requests are oracles that either give the rows or fail. */
module Scrapers {
  import opened Wrappers
  import opened Text
  import opened Js
  import opened Lists
  import Records
  import Magnet
  import Dedup
  import Debrid

  // ---------------------------------------------------------------------------
  // Info hashes

  /** A 40-digit hexadecimal `urn:btih:` hash starts at `i`. */
  predicate HexAt(s: string, i: nat) {
    Magnet.BtihAt(s, i, 40, IsHexDigit)
  }

  /** A 32-character base32 `urn:btih:` hash starts at `i`. */
  predicate Base32At(s: string, i: nat) {
    Magnet.BtihAt(s, i, 32, IsBase32Char)
  }

  /** The shape of every hash the scrapers produce. */
  predicate ValidHash(h: string) {
    IsLower(h) && (|h| == 40 || |h| == 32)
  }

  /** `extractInfoHash`: the leftmost hexadecimal hash when there is one,
      otherwise the leftmost base32 hash, lower-cased either way; a missing
      or empty magnet has none. A base32 hash stays in base32. */
  function ExtractInfoHash(magnet: string): (r: Option<string>)
    ensures r.None? <==> forall i :: !HexAt(magnet, i) && !Base32At(magnet, i)
    ensures r.Some? ==> ValidHash(r.value)
    ensures (exists i :: HexAt(magnet, i)) ==> r.Some? && |r.value| == 40
    ensures r.Some? ==>
      || (exists i :: Magnet.LeftmostBtih(magnet, i, 40, IsHexDigit) && r.value == ToLower(Magnet.Captured(magnet, i, 40)))
      || ((forall i :: !HexAt(magnet, i))
          && exists i :: Magnet.LeftmostBtih(magnet, i, 32, IsBase32Char) && r.value == ToLower(Magnet.Captured(magnet, i, 32)))
  {
    if magnet == [] then None
    else match Magnet.FirstBtihFrom(magnet, 0, 40, IsHexDigit)
      case Some(i) =>
        var r := Magnet.FindBtih(magnet, 40, IsHexDigit);
        assert HexAt(magnet, i);
        assert Magnet.LeftmostBtih(magnet, i, 40, IsHexDigit) && r.value == ToLower(Magnet.Captured(magnet, i, 40));
        r
      case None =>
        var r := Magnet.FindBtih(magnet, 32, IsBase32Char);
        assert forall i: nat :: !HexAt(magnet, i);
        match Magnet.FirstBtihFrom(magnet, 0, 32, IsBase32Char)
        case None =>
          assert forall i: nat :: !Base32At(magnet, i);
          r
        case Some(j) =>
          assert Base32At(magnet, j);
          assert Magnet.LeftmostBtih(magnet, j, 32, IsBase32Char) && r.value == ToLower(Magnet.Captured(magnet, j, 32));
          r
  }

  /** Where the debrid resolver finds a hash, the scrapers find the same one. */
  lemma ExtractAgreesWithDebrid(magnet: string)
    requires Debrid.BtihFromMagnet(magnet).Some?
    ensures ExtractInfoHash(magnet) == Debrid.BtihFromMagnet(magnet)
  {
    var i: nat :| Magnet.BtihAt(magnet, i, 40, IsHexDigit);
    assert magnet != [];
  }

  /** A magnet URI built from a lower-case hexadecimal hash gives that hash back. */
  lemma ExtractOfHexMagnet(h: string)
    requires |h| == 40 && IsLower(h) && forall k :: 0 <= k < |h| ==> IsHexDigit(h[k])
    ensures ExtractInfoHash(Magnet.MagnetPrefix + h) == Some(h)
  {
    Magnet.FindBtihOfMagnetUri(h, 40, IsHexDigit);
  }

  /** A magnet URI built from a lower-case base32 hash gives that hash back:
      the URI is too short for a hexadecimal match. */
  lemma ExtractOfBase32Magnet(h: string)
    requires |h| == 32 && IsLower(h) && forall k :: 0 <= k < |h| ==> IsBase32Char(h[k])
    ensures ExtractInfoHash(Magnet.MagnetPrefix + h) == Some(h)
  {
    var s := Magnet.MagnetPrefix + h;
    forall i: nat
      ensures !Magnet.BtihAt(s, i, 40, IsHexDigit)
    {
      if i + |Magnet.BtihPrefix| + 40 <= |s| {
        assert ToLower(s[i..i + |Magnet.BtihPrefix|])[0] == LowerChar(s[i]);
      }
    }
    assert Magnet.FindBtih(s, 40, IsHexDigit).None?;
    Magnet.FindBtihOfMagnetUri(h, 32, IsBase32Char);
  }

  // ---------------------------------------------------------------------------
  // Row texts

  /** `parseInt(text.trim(), 10) || 0`: `NaN` and zero both become zero. */
  function Count(text: string): (n: int)
    ensures ParseInt(Trim(text)).NaN? ==> n == 0
    ensures ParseInt(Trim(text)).Int? ==> n == ParseInt(Trim(text)).value
  {
    var v := ParseInt(Trim(text));
    if v.Truthy() then v.value else 0
  }

  /** A count cell read as `parseInt` reads it: the whole leading run of
      digits, leading zeros included, whatever text follows it ("012" is 12,
      "12 seeds" is 12). */
  lemma CountReads(d: string, rest: string)
    requires d != [] && forall i :: 0 <= i < |d| ==> IsDigit(d[i])
    requires rest == [] || !IsDigit(rest[0])
    requires Trimmed(d + rest)
    ensures Count(d + rest) == DigitsValue(d)
  {
    TrimTrimmed(d + rest);
    ParseIntOfDigitsThen(d, rest);
  }

  /** A count written out in a title reads back as the same count. */
  lemma CountOfIntToString(n: int)
    ensures Count(IntToString(n)) == n
  {
    var t := IntToString(n);
    assert !IsSpace(t[|t| - 1]) by {
      if n < 0 {
        assert t[|t| - 1] == NatToString(-n)[|NatToString(-n)| - 1];
      }
    }
    TrimTrimmed(t);
    ParseIntOfIntToString(n);
  }

  /** `s.replace(/\d+$/, '')`: drops the run of digits that ends the string. */
  function DropTrailingDigits(s: string): (r: string)
    ensures |r| <= |s| && r == s[..|r|]
    ensures forall k :: |r| <= k < |s| ==> IsDigit(s[k])
    ensures r == [] || !IsDigit(r[|r| - 1])
  {
    if s != [] && IsDigit(s[|s| - 1]) then DropTrailingDigits(s[..|s| - 1]) else s
  }

  /** The second line of a scraped title: size, seeders, leechers, site. */
  function Title(name: string, size: string, seeders: int, leechers: int, site: string): string {
    name + "\n" + size + " | S:" + IntToString(seeders) + " L:" + IntToString(leechers) + " | " + site
  }

  /** A scraped hit, as both scrapers push it. */
  datatype Scraped = Scraped(name: string, title: string, infoHash: string, seeders: int, source: string)

  function InfoHashOf(s: Scraped): string {
    s.infoHash
  }

  /** A row of the 1337x search table: the texts of its name link, seeders,
      leechers and size cells, and the name link's `href` (empty when absent). */
  datatype Row1337x = Row1337x(nameText: string, detailPath: string, seedText: string, leechText: string, sizeText: string)

  /** A row of the TorrentGalaxy table: the torrent link's `title` attribute
      (empty when absent) and text, the magnet link's `href`, and the texts of
      the size badge and the seeders and leechers figures. */
  datatype RowTgx = RowTgx(titleAttr: string, linkText: string, magnet: string, sizeText: string, seedText: string, leechText: string)

  const Base1337x: string := "https://1337x.to"

  /** How many rows each scraper looks at. */
  const Rows1337x: nat := 10
  const RowsTgx: nat := 15

  /** The size cell of 1337x ends with the seeders figure, which is cut off. */
  function SizeLabel(text: string): string {
    Trim(DropTrailingDigits(Trim(text)))
  }

  /** One 1337x row. `detail` gives the magnet link of a detail page, or the
      empty string when the request fails, the page is not OK or it has no
      magnet link: each of these skips the row. */
  function Scrape1337x(detail: string -> string, row: Row1337x): (r: Option<Scraped>)
    ensures r.Some? <==> row.detailPath != [] && Trim(row.nameText) != []
                         && ExtractInfoHash(detail(Base1337x + row.detailPath)).Some?
    ensures r.Some? ==> r.value.infoHash == ExtractInfoHash(detail(Base1337x + row.detailPath)).value
    ensures r.Some? ==> r.value.seeders == Count(row.seedText) && r.value.source == "1337x"
  {
    var name := Trim(row.nameText);
    if row.detailPath == [] || name == [] then None
    else match ExtractInfoHash(detail(Base1337x + row.detailPath))
      case None => None
      case Some(h) =>
        var seeders := Count(row.seedText);
        var leechers := Count(row.leechText);
        Some(Scraped(Records.AddonName, Title(name, SizeLabel(row.sizeText), seeders, leechers, "1337x"), h, seeders, "1337x"))
  }

  function Build1337x(detail: string -> string): Row1337x -> Option<Scraped> {
    row => Scrape1337x(detail, row)
  }

  /** One TorrentGalaxy row: the name is the title attribute, or else the
      trimmed link text. A row without a name is skipped before its hash is
      marked as seen. */
  function ScrapeTgx(row: RowTgx): (r: Option<Scraped>)
    ensures r.Some? <==> (row.titleAttr != [] || Trim(row.linkText) != []) && ExtractInfoHash(row.magnet).Some?
    ensures r.Some? ==> r.value.infoHash == ExtractInfoHash(row.magnet).value
    ensures r.Some? ==> r.value.seeders == Count(row.seedText) && r.value.source == "torrentgalaxy"
  {
    var name := if row.titleAttr != [] then row.titleAttr else Trim(row.linkText);
    match ExtractInfoHash(row.magnet)
    case None => None
    case Some(h) =>
      if name == [] then None
      else
        var seeders := Count(row.seedText);
        var leechers := Count(row.leechText);
        Some(Scraped(Records.AddonName, Title(name, Trim(row.sizeText), seeders, leechers, "TGx"), h, seeders, "torrentgalaxy"))
  }

  function BuildTgx(): RowTgx -> Option<Scraped> {
    row => ScrapeTgx(row)
  }

  predicate From1337x(s: Scraped) {
    s.name == Records.AddonName && s.source == "1337x" && ValidHash(s.infoHash)
  }

  predicate FromTgx(s: Scraped) {
    s.name == Records.AddonName && s.source == "torrentgalaxy" && ValidHash(s.infoHash)
  }

  /** The rows the 1337x scraper visits. */
  function Visited<R>(rows: seq<R>, limit: nat): (v: seq<R>)
    ensures |v| <= limit && |v| <= |rows| && v == rows[..|v|]
    ensures |rows| >= limit ==> |v| == limit
  {
    SliceTo(rows, limit)
  }

  /** `search1337x`: `search` gives the rows of the result page, or nothing
      when that request fails. */
  function Search1337x(query: string, search: string -> Option<seq<Row1337x>>, detail: string -> string): (r: seq<Scraped>)
    ensures search(query).None? ==> r == []
    ensures |r| <= Rows1337x
    ensures forall i, j :: 0 <= i < j < |r| ==> r[i].infoHash != r[j].infoHash
    ensures forall i :: 0 <= i < |r| ==> From1337x(r[i])
  {
    match search(query)
    case None => []
    case Some(rows) =>
      var v := Visited(rows, Rows1337x);
      Dedup.CollectKeepsProperty(v, Build1337x(detail), InfoHashOf, {}, From1337x);
      Dedup.CollectUnique(v, Build1337x(detail), InfoHashOf, {})
  }

  /** `searchTorrentGalaxy`, with `search` as for 1337x. */
  function SearchTorrentGalaxy(query: string, search: string -> Option<seq<RowTgx>>): (r: seq<Scraped>)
    ensures search(query).None? ==> r == []
    ensures |r| <= RowsTgx
    ensures forall i, j :: 0 <= i < j < |r| ==> r[i].infoHash != r[j].infoHash
    ensures forall i :: 0 <= i < |r| ==> FromTgx(r[i])
  {
    match search(query)
    case None => []
    case Some(rows) =>
      var v := Visited(rows, RowsTgx);
      Dedup.CollectKeepsProperty(v, BuildTgx(), InfoHashOf, {}, FromTgx);
      Dedup.CollectUnique(v, BuildTgx(), InfoHashOf, {})
  }

  /** Every 1337x hit comes from one of the first ten rows. */
  lemma Search1337xFrom(query: string, search: string -> Option<seq<Row1337x>>, detail: string -> string, k: nat)
    returns (i: nat)
    requires k < |Search1337x(query, search, detail)|
    ensures search(query).Some? && i < |search(query).value| && i < Rows1337x
    ensures Scrape1337x(detail, search(query).value[i]) == Some(Search1337x(query, search, detail)[k])
  {
    var v := Visited(search(query).value, Rows1337x);
    i := Dedup.CollectFrom(v, Build1337x(detail), InfoHashOf, {}, k);
  }

  /** Every hash found in the first ten rows is among the 1337x hits, even when
      an earlier row with the same hash was skipped. */
  lemma Search1337xCovers(query: string, search: string -> Option<seq<Row1337x>>, detail: string -> string, i: nat)
    requires search(query).Some? && i < |search(query).value| && i < Rows1337x
    requires Scrape1337x(detail, search(query).value[i]).Some?
    ensures exists k :: 0 <= k < |Search1337x(query, search, detail)|
                        && Search1337x(query, search, detail)[k].infoHash == Scrape1337x(detail, search(query).value[i]).value.infoHash
  {
    var rows := search(query).value;
    var v := Visited(rows, Rows1337x);
    assert Search1337x(query, search, detail) == Dedup.CollectUnique(v, Build1337x(detail), InfoHashOf, {});
    assert v[i] == rows[i];
    Covers1337xRow(v, detail, i);
  }

  lemma Covers1337xRow(v: seq<Row1337x>, detail: string -> string, i: nat)
    requires i < |v| && Scrape1337x(detail, v[i]).Some?
    ensures var r := Dedup.CollectUnique(v, Build1337x(detail), InfoHashOf, {});
            exists k :: 0 <= k < |r| && r[k].infoHash == Scrape1337x(detail, v[i]).value.infoHash
  {
    var r := Dedup.CollectUnique(v, Build1337x(detail), InfoHashOf, {});
    Dedup.CollectCovers(v, Build1337x(detail), InfoHashOf, {}, i);
    var ks := Dedup.Keys(r, InfoHashOf);
    var k :| 0 <= k < |ks| && ks[k] == Scrape1337x(detail, v[i]).value.infoHash;
    assert r[k].infoHash == ks[k];
  }

  /** Every TorrentGalaxy hit comes from one of the first fifteen rows. */
  lemma SearchTorrentGalaxyFrom(query: string, search: string -> Option<seq<RowTgx>>, k: nat)
    returns (i: nat)
    requires k < |SearchTorrentGalaxy(query, search)|
    ensures search(query).Some? && i < |search(query).value| && i < RowsTgx
    ensures ScrapeTgx(search(query).value[i]) == Some(SearchTorrentGalaxy(query, search)[k])
  {
    var v := Visited(search(query).value, RowsTgx);
    i := Dedup.CollectFrom(v, BuildTgx(), InfoHashOf, {}, k);
  }

  /** Every hash of a named row among the first fifteen is among the
      TorrentGalaxy hits: a nameless row with the same hash before it does not
      hide it. */
  lemma SearchTorrentGalaxyCovers(query: string, search: string -> Option<seq<RowTgx>>, i: nat)
    requires search(query).Some? && i < |search(query).value| && i < RowsTgx
    requires ScrapeTgx(search(query).value[i]).Some?
    ensures exists k :: 0 <= k < |SearchTorrentGalaxy(query, search)|
                        && SearchTorrentGalaxy(query, search)[k].infoHash == ExtractInfoHash(search(query).value[i].magnet).value
  {
    var rows := search(query).value;
    var v := Visited(rows, RowsTgx);
    var r := Dedup.CollectUnique(v, BuildTgx(), InfoHashOf, {});
    assert SearchTorrentGalaxy(query, search) == r;
    assert v[i] == rows[i];
    Dedup.CollectCovers(v, BuildTgx(), InfoHashOf, {}, i);
    var ks := Dedup.Keys(r, InfoHashOf);
    var k :| 0 <= k < |ks| && ks[k] == ScrapeTgx(rows[i]).value.infoHash;
    assert r[k].infoHash == ks[k];
  }

  // ---------------------------------------------------------------------------
  // Merging by seeders

  /** Seeders never increase along `s`. */
  predicate BySeeders(s: seq<Scraped>) {
    forall i, j :: 0 <= i < j < |s| ==> s[i].seeders >= s[j].seeders
  }

  /** A hit with at least as many seeders as the head of a sorted list can
      go in front of it. */
  lemma ConsBySeeders(h: Scraped, s: seq<Scraped>)
    requires BySeeders(s) && (s == [] || h.seeders >= s[0].seeders)
    ensures BySeeders([h] + s)
  {
    var r := [h] + s;
    forall i, j | 0 <= i < j < |r|
      ensures r[i].seeders >= r[j].seeders
    {
      if i == 0 {
        assert r[j] == s[j - 1] && s[0].seeders >= s[j - 1].seeders;
      } else {
        assert r[i] == s[i - 1] && r[j] == s[j - 1];
      }
    }
  }

  /** Places `x` before the first hit with fewer seeders. */
  function Insert(x: Scraped, s: seq<Scraped>): (r: seq<Scraped>)
    requires BySeeders(s)
    ensures BySeeders(r)
    ensures multiset(r) == multiset(s) + multiset{x}
    ensures |r| == |s| + 1
    ensures r[0] == x || (s != [] && r[0] == s[0])
  {
    if s == [] || x.seeders >= s[0].seeders then
      ConsBySeeders(x, s);
      [x] + s
    else
      assert BySeeders(s[1..]);
      var rest := Insert(x, s[1..]);
      InsertBehind(x, s, rest);
      [s[0]] + rest
  }

  /** The step of `Insert` that keeps the head of `s` in front. */
  lemma InsertBehind(x: Scraped, s: seq<Scraped>, rest: seq<Scraped>)
    requires s != [] && BySeeders(s) && x.seeders < s[0].seeders
    requires BySeeders(rest) && |rest| == |s|
    requires multiset(rest) == multiset(s[1..]) + multiset{x}
    requires rest[0] == x || (|s| > 1 && rest[0] == s[1])
    ensures BySeeders([s[0]] + rest)
    ensures multiset([s[0]] + rest) == multiset(s) + multiset{x}
  {
    assert s == [s[0]] + s[1..];
    assert rest[0].seeders <= s[0].seeders;
    ConsBySeeders(s[0], rest);
  }

  /** `results.sort((a, b) => (b.seeders || 0) - (a.seeders || 0))`: a
      permutation with the seeders in descending order. */
  function SortBySeeders(xs: seq<Scraped>): (r: seq<Scraped>)
    ensures BySeeders(r)
    ensures multiset(r) == multiset(xs)
  {
    if xs == [] then []
    else
      assert xs == [xs[0]] + xs[1..];
      Insert(xs[0], SortBySeeders(xs[1..]))
  }

  /** Sorting hits already in order changes nothing. */
  lemma {:induction false} SortSorted(xs: seq<Scraped>)
    requires BySeeders(xs)
    ensures SortBySeeders(xs) == xs
  {
    if xs != [] {
      SortSorted(xs[1..]);
      assert xs == [xs[0]] + xs[1..];
    }
  }

  const DefaultProviders: seq<string> := ["knaben", "1337x", "torrentgalaxy"]

  /** `searchAll`: the hits of the selected scrapers, merged by seeders.
      Which scraper finishes first decides only the order of hits with equal
      seeders; `tgxFirst` stands for that. */
  function SearchAll(query: string, providers: Option<seq<string>>,
                     search1337x: string -> Option<seq<Row1337x>>, detail: string -> string,
                     searchTgx: string -> Option<seq<RowTgx>>, tgxFirst: bool): (r: seq<Scraped>)
    ensures BySeeders(r)
    ensures |r| <= Rows1337x + RowsTgx
    ensures multiset(r) ==
      (if "1337x" in providers.GetOr(DefaultProviders) then multiset(Search1337x(query, search1337x, detail)) else multiset{})
      + (if "torrentgalaxy" in providers.GetOr(DefaultProviders) then multiset(SearchTorrentGalaxy(query, searchTgx)) else multiset{})
  {
    var chosen := providers.GetOr(DefaultProviders);
    var a := if "1337x" in chosen then Search1337x(query, search1337x, detail) else [];
    var b := if "torrentgalaxy" in chosen then SearchTorrentGalaxy(query, searchTgx) else [];
    var r := SortBySeeders(if tgxFirst then b + a else a + b);
    assert |r| == |multiset(r)|;
    r
  }
}

=== FILE: server.dfy ===
/** server.js: the base path the server is mounted under, the query object
    built from the URL's search parameters, and the choice of handler for a
    request path. Sockets, files and the handlers' own I/O are outside the
    model; path segments are taken as already percent-decoded. */
module Server {
  import opened Wrappers
  import opened Text
  import opened Js
  import opened Lists
  import opened Records
  import Ext

  // ---------------------------------------------------------------------------
  // Base path

  /** `s.replace(/\/+$/, '')`. */
  function DropTrailingSlashes(s: string): (r: string)
    ensures |r| <= |s| && r == s[..|r|]
    ensures forall k :: |r| <= k < |s| ==> s[k] == '/'
    ensures r == [] || r[|r| - 1] != '/'
  {
    if s != [] && s[|s| - 1] == '/' then DropTrailingSlashes(s[..|s| - 1]) else s
  }

  /** `normalizeBasePath`: trimmed, given a leading slash, trailing slashes
      dropped; blank input and `/` give no base path at all. */
  function NormalizeBasePath(value: string): (r: string)
    ensures Trim(value) == [] || Trim(value) == "/" ==> r == []
    ensures r == [] || (r[0] == '/' && r[|r| - 1] != '/')
  {
    var raw := Trim(value);
    if raw == [] || raw == "/" then [] else Mount(raw)
  }

  /** The non-blank branch of `normalizeBasePath`: a leading slash is added
      when missing, then trailing slashes are dropped. */
  function Mount(raw: string): (r: string)
    ensures r == [] || (r[0] == '/' && r[|r| - 1] != '/')
  {
    var lead := if StartsWith(raw, "/") then raw else "/" + raw;
    assert lead[0] == '/';
    var r := DropTrailingSlashes(lead);
    assert r != [] ==> r[0] == lead[0];
    r
  }

  /** A base path in normal form is its own normal form. Trimming comes before
      the slashes are dropped, so white space left in front of a trailing
      slash survives one pass but not a second: the condition is needed. */
  lemma NormalizeBasePathFixed(b: string)
    requires b == [] || (b[0] == '/' && b[|b| - 1] != '/' && Trimmed(b))
    ensures NormalizeBasePath(b) == b
  {
    if b != [] {
      TrimTrimmed(b);
      assert StartsWith(b, "/");
    }
  }

  /** A bare name is mounted under a slash. */
  lemma NormalizeBasePathName(name: string)
    requires name != [] && Trimmed(name) && name[0] != '/' && name[|name| - 1] != '/'
    ensures NormalizeBasePath(name) == "/" + name
  {
    TrimTrimmed(name);
    assert name != "/";
    assert !StartsWith(name, "/");
    var lead := "/" + name;
    assert lead[|lead| - 1] == name[|name| - 1];
    assert DropTrailingSlashes(lead) == lead;
  }

  /** `stripBasePath`, with the configured base path as a parameter. */
  function StripBasePath(base: string, pathname: string): (r: string)
    ensures base == [] ==> r == pathname
    ensures r == pathname || (pathname == base && r == "/") || (StartsWith(r, "/") && pathname == base + r)
  {
    if base == [] then pathname
    else if pathname == base then "/"
    else if StartsWith(pathname, base + "/") then
      var stripped := pathname[|base|..];
      assert pathname == base + stripped;
      if stripped == [] then "/" else stripped
    else pathname
  }

  /** Under a base path, the base itself is the root and every path below it
      loses exactly the base. */
  lemma StripBasePathBelow(base: string, rest: string)
    requires base != []
    ensures StripBasePath(base, base) == "/"
    ensures StripBasePath(base, base + "/" + rest) == "/" + rest
  {
    var p := base + "/" + rest;
    assert p[..|base + "/"|] == base + "/";
    assert p[|base|..] == "/" + rest;
  }

  /** A path that shares only characters with the base, not a whole leading
      segment, is left alone: base `/foo` does not capture `/foobar`. */
  lemma StripBasePathTextualPrefix(base: string, tail: string)
    requires base != [] && tail != [] && tail[0] != '/'
    ensures StripBasePath(base, base + tail) == base + tail
  {
    var p := base + tail;
    assert p != base;
    assert p[|base|] == tail[0];
  }

  // ---------------------------------------------------------------------------
  // Query object

  /** A decoded search parameter: key and value. */
  type Entry = (string, string)

  /** One search parameter added to the query object: the first value of a
      key is a string, the second turns it into a two-element array, later
      ones are appended. */
  function AddEntry(q: Ext.Query, k: string, v: string): (r: Ext.Query)
    ensures r.Keys == q.Keys + {k}
    ensures forall j :: j in q && j != k ==> r[j] == q[j]
  {
    if k !in q then q[k := Str(v)]
    else match q[k]
      case List(items) => q[k := List(items + [v])]
      case Str(s) => q[k := List([s, v])]
  }

  /** `parseQuery` on an object without a prototype: every key is kept. */
  function ParseQuery(entries: seq<Entry>): (q: Ext.Query)
    ensures forall i :: 0 <= i < |entries| ==> entries[i].0 in q
    decreases |entries|
  {
    if entries == [] then map[]
    else
      var last := entries[|entries| - 1];
      AddEntry(ParseQuery(entries[..|entries| - 1]), last.0, last.1)
  }

  /** The key a plain `{}` object does not store: assigning a string to
      `__proto__` goes to the inherited setter, which ignores it. */
  const ProtoKey: string := "__proto__"

  /** `parseQuery` as written, on a plain `{}`: `hasOwnProperty` never sees
      `__proto__` and the assignment to it is ignored, so that key vanishes. */
  function ParseQueryAsWritten(entries: seq<Entry>): (q: Ext.Query)
    ensures ProtoKey !in q
    decreases |entries|
  {
    if entries == [] then map[]
    else
      var before := ParseQueryAsWritten(entries[..|entries| - 1]);
      var last := entries[|entries| - 1];
      if last.0 == ProtoKey then before else AddEntry(before, last.0, last.1)
  }

  /** All values given for key `k`, in order of appearance. */
  function ValuesFor(entries: seq<Entry>, k: string): (vs: seq<string>)
    ensures |vs| <= |entries|
    decreases |entries|
  {
    if entries == [] then []
    else
      var last := entries[|entries| - 1];
      ValuesFor(entries[..|entries| - 1], k) + (if last.0 == k then [last.1] else [])
  }

  /** How a key with values `vs` appears in the query object. */
  function Shape(vs: seq<string>): (r: Option<Value>)
    ensures r.None? <==> vs == []
  {
    if vs == [] then None
    else if |vs| == 1 then Some(Str(vs[0]))
    else Some(List(vs))
  }

  function Lookup(q: Ext.Query, k: string): Option<Value> {
    if k in q then Some(q[k]) else None
  }

  /** A key given once maps to its value, a key given several times maps to
      the array of all its values in order, and no other key is present. */
  lemma {:induction false} ParseQueryGroups(entries: seq<Entry>, k: string)
    ensures Lookup(ParseQuery(entries), k) == Shape(ValuesFor(entries, k))
    decreases |entries|
  {
    if entries != [] {
      var init := entries[..|entries| - 1];
      var e := entries[|entries| - 1];
      var q := ParseQuery(init);
      var vs := ValuesFor(init, k);
      ParseQueryGroups(init, k);
      assert ParseQuery(entries) == AddEntry(q, e.0, e.1);
      assert ValuesFor(entries, k) == vs + (if e.0 == k then [e.1] else []);
      if e.0 != k {
        assert ValuesFor(entries, k) == vs;
        assert k in q <==> k in AddEntry(q, e.0, e.1);
      } else if k !in q {
        assert vs == [];
        assert vs + [e.1] == [e.1];
      } else {
        match q[k]
        case Str(s) =>
          assert |vs| == 1 && vs[0] == s;
          assert vs + [e.1] == [s, e.1];
          assert AddEntry(q, k, e.1)[k] == List([s, e.1]);
        case List(items) =>
          assert vs == items;
      }
    }
  }

  /** The distinct keys, in order of first appearance. */
  function DistinctKeys(entries: seq<Entry>): (ks: seq<string>)
    ensures forall i, j :: 0 <= i < j < |ks| ==> ks[i] != ks[j]
    decreases |entries|
  {
    if entries == [] then []
    else
      var init := DistinctKeys(entries[..|entries| - 1]);
      var k := entries[|entries| - 1].0;
      if k in init then init else init + [k]
  }

  /** The number of values the keys `ks` hold. */
  function Total(entries: seq<Entry>, ks: seq<string>): nat {
    if ks == [] then 0 else |ValuesFor(entries, ks[0])| + Total(entries, ks[1..])
  }

  /** Appending one entry adds one value to its key and none to the others. */
  lemma {:induction false} TotalGrows(entries: seq<Entry>, e: Entry, ks: seq<string>)
    requires forall i, j :: 0 <= i < j < |ks| ==> ks[i] != ks[j]
    ensures Total(entries + [e], ks) == Total(entries, ks) + (if e.0 in ks then 1 else 0)
  {
    var all := entries + [e];
    assert all[..|all| - 1] == entries;
    if ks != [] {
      TotalGrows(entries, e, ks[1..]);
      assert e.0 in ks <==> e.0 == ks[0] || e.0 in ks[1..];
    }
  }

  /** A key is among the distinct keys exactly when it has values. */
  lemma {:induction false} DistinctKeysHaveValues(entries: seq<Entry>, k: string)
    ensures k in DistinctKeys(entries) <==> ValuesFor(entries, k) != []
    decreases |entries|
  {
    if entries != [] {
      DistinctKeysHaveValues(entries[..|entries| - 1], k);
    }
  }

  /** Grouping loses and invents no value: the distinct keys together hold
      exactly as many values as there were search parameters. */
  lemma {:induction false} ParseQueryKeepsCount(entries: seq<Entry>)
    ensures Total(entries, DistinctKeys(entries)) == |entries|
    decreases |entries|
  {
    if entries != [] {
      var init := entries[..|entries| - 1];
      var e := entries[|entries| - 1];
      assert entries == init + [e];
      var ks := DistinctKeys(init);
      ParseQueryKeepsCount(init);
      TotalGrows(init, e, ks);
      if e.0 !in ks {
        DistinctKeysHaveValues(init, e.0);
        TotalAppend(entries, ks, e.0);
      }
    }
  }

  /** The total over keys followed by one more key. */
  lemma {:induction false} TotalAppend(entries: seq<Entry>, ks: seq<string>, k: string)
    ensures Total(entries, ks + [k]) == Total(entries, ks) + |ValuesFor(entries, k)|
  {
    if ks != [] {
      assert (ks + [k])[1..] == ks[1..] + [k];
      TotalAppend(entries, ks[1..], k);
    }
  }

  predicate NotProto(e: Entry) {
    e.0 != ProtoKey
  }

  /** One more parameter at the end is one more `AddEntry`. */
  lemma ParseQuerySnoc(entries: seq<Entry>, e: Entry)
    ensures ParseQuery(entries + [e]) == AddEntry(ParseQuery(entries), e.0, e.1)
  {
    assert (entries + [e])[..|entries|] == entries;
  }

  lemma ParseQueryAsWrittenSnoc(entries: seq<Entry>, e: Entry)
    ensures ParseQueryAsWritten(entries + [e])
            == if NotProto(e) then AddEntry(ParseQueryAsWritten(entries), e.0, e.1) else ParseQueryAsWritten(entries)
  {
    assert (entries + [e])[..|entries|] == entries;
  }

  /** As written, `parseQuery` is the intended grouping of every parameter
      whose key is not `__proto__`. */
  lemma {:induction false} ParseQueryAsWrittenDropsProto(entries: seq<Entry>)
    ensures ParseQueryAsWritten(entries) == ParseQuery(Filter(NotProto, entries))
    decreases |entries|
  {
    if entries != [] {
      var init := entries[..|entries| - 1];
      var e := entries[|entries| - 1];
      assert entries == init + [e];
      ParseQueryAsWrittenDropsProto(init);
      ParseQueryAsWrittenSnoc(init, e);
      FilterConcat(NotProto, init, [e]);
      var f := Filter(NotProto, init);
      if NotProto(e) {
        assert Filter(NotProto, [e]) == [e];
        ParseQuerySnoc(f, e);
      } else {
        assert Filter(NotProto, [e]) == [];
        assert f + [] == f;
      }
    }
  }

  /** `?__proto__=x` reaches no handler as written, while the grouping keeps it. */
  lemma ProtoParameterLost()
    ensures ParseQueryAsWritten([(ProtoKey, "x")]) == map[]
    ensures Lookup(ParseQuery([(ProtoKey, "x")]), ProtoKey) == Some(Str("x"))
  {
    var es: seq<Entry> := [(ProtoKey, "x")];
    assert es[..0] == [];
  }

  // ---------------------------------------------------------------------------
  // Routing

  /** Where the request callback sends a request. */
  datatype Target =
    | Preflight                          // OPTIONS: 204, empty body
    | NotAllowed                         // any verb but GET and HEAD: 405
    | ConfigurePage                      // public/configure.html
    | Manifest(query: Ext.Query)
    | ConfigManifest(query: Ext.Query)
    | StreamRoute(query: Ext.Query)
    | ConfigStreamRoute(query: Ext.Query)
    | ResolveRoute(query: Ext.Query)
    | Logo                               // logo.svg
    | StaticOrMissing(path: string)      // a file under public/, or 404

  /** A `[^/]+` capture: a non-empty segment (a segment never holds `/`). */
  predicate Named(seg: string) {
    seg != []
  }

  /** A `([^/]+)\.json` final segment. */
  predicate JsonFile(seg: string) {
    |seg| > |".json"| && EndsWith(seg, ".json")
  }

  function Stem(seg: string): string
    requires JsonFile(seg)
  {
    seg[..|seg| - |".json"|]
  }

  function With(q: Ext.Query, k: string, v: string): Ext.Query {
    q[k := Str(v)]
  }

  /** The keys a route pattern sets from the path. */
  const PathKeys: set<string> := {"config", "type", "id", "service", "infoHash"}

  /** The targets that hand a query to a handler. */
  predicate CarriesQuery(t: Target) {
    t.Manifest? || t.ConfigManifest? || t.StreamRoute? || t.ConfigStreamRoute? || t.ResolveRoute?
  }

  /** The order of checks in the request callback, on the segments of the
      path between slashes. A path is a given literal exactly when its
      segments are the literal's segments (`SegmentsDetermine`), and each
      anchored pattern is a fixed count of segments. */
  function Route(p: string, q: Ext.Query): (t: Target)
    ensures t.StaticOrMissing? ==> t.path == p
    ensures !t.Preflight? && !t.NotAllowed?
  {
    var s := Split(p, '/');
    if s == ["", ""] || s == ["", "configure"] || s == ["", "configure.html"] then ConfigurePage
    else if s == ["", "manifest.json"] || s == ["", "api", "manifest"] then Manifest(q)
    else if |s| == 3 && s[0] == [] && Named(s[1]) && s[2] == "manifest.json" then
      ConfigManifest(With(q, "config", s[1]))
    else if |s| == 4 && s[0] == [] && s[1] == "stream" && Named(s[2]) && JsonFile(s[3]) then
      StreamRoute(With(With(q, "type", s[2]), "id", Stem(s[3])))
    else if |s| == 5 && s[0] == [] && Named(s[1]) && s[2] == "stream" && Named(s[3]) && JsonFile(s[4]) then
      ConfigStreamRoute(With(With(With(q, "config", s[1]), "type", s[3]), "id", Stem(s[4])))
    else if |s| == 5 && s[0] == [] && s[1] == "api" && s[2] == "stream" && Named(s[3]) && Named(s[4]) then
      StreamRoute(With(With(q, "type", s[3]), "id", s[4]))
    else if s == ["", "api", "config-manifest"] then ConfigManifest(q)
    else if s == ["", "api", "config-stream"] then ConfigStreamRoute(q)
    else if (|s| == 4 || |s| == 5) && s[0] == [] && s[1] == "resolve"
            && Named(s[2]) && Named(s[3]) && (|s| == 4 || Named(s[4])) then
      ResolveRoute(With(With(q, "service", s[2]), "infoHash", s[3]))
    else if (|s| == 5 || |s| == 6) && s[0] == [] && Named(s[1]) && s[2] == "resolve"
            && Named(s[3]) && Named(s[4]) && (|s| == 5 || Named(s[5])) then
      ResolveRoute(With(With(q, "service", s[3]), "infoHash", s[4]))
    else if s == ["", "api", "resolve"] then ResolveRoute(q)
    else if |s| == 4 && s[0] == [] && Named(s[1]) && s[2] == "api" && s[3] == "resolve" then ResolveRoute(q)
    else if s == ["", "logo.svg"] then Logo
    else StaticOrMissing(p)
  }

  /** A route hands on the query it was given, with at most the keys of
      `PathKeys` set from the path: every other key is kept as it was, and no
      new key appears. */
  lemma RouteKeepsQuery(p: string, q: Ext.Query)
    ensures CarriesQuery(Route(p, q)) ==> Route(p, q).query.Keys <= q.Keys + PathKeys
    ensures CarriesQuery(Route(p, q)) ==>
              forall k :: k in q && k !in PathKeys ==> k in Route(p, q).query && Route(p, q).query[k] == q[k]
  {
  }

  /** Two paths with the same segments are the same path. */
  lemma SegmentsDetermine(p: string, p': string)
    requires Split(p, '/') == Split(p', '/')
    ensures p == p'
  {
    JoinSplit(p, '/');
    JoinSplit(p', '/');
  }

  /** The request callback up to the handler call. */
  function Dispatch(verb: string, base: string, pathname: string, entries: seq<Entry>): (t: Target)
    ensures verb == "OPTIONS" <==> t.Preflight?
    ensures t.NotAllowed? <==> verb != "OPTIONS" && verb != "GET" && verb != "HEAD"
    ensures (verb == "GET" || verb == "HEAD") ==>
              t == Route(StripBasePath(base, pathname), ParseQuery(Filter(NotProto, entries)))
    ensures CarriesQuery(t) ==> ProtoKey !in t.query
  {
    if verb == "OPTIONS" then Preflight
    else if verb != "GET" && verb != "HEAD" then NotAllowed
    else
      RouteDropsProto(StripBasePath(base, pathname), entries);
      Route(StripBasePath(base, pathname), ParseQueryAsWritten(entries))
  }

  /** Routed with the query as written, a request reaches its handler with
      the intended grouping of its parameters other than `__proto__`. */
  lemma RouteDropsProto(p: string, entries: seq<Entry>)
    ensures Route(p, ParseQueryAsWritten(entries)) == Route(p, ParseQuery(Filter(NotProto, entries)))
    ensures CarriesQuery(Route(p, ParseQueryAsWritten(entries))) ==> ProtoKey !in Route(p, ParseQueryAsWritten(entries)).query
  {
    ParseQueryAsWrittenDropsProto(entries);
    ProtoNotPathKey();
    RouteAddsNoKey(p, ParseQueryAsWritten(entries), ProtoKey);
  }

  lemma ProtoNotPathKey()
    ensures ProtoKey !in PathKeys
  {
    assert |ProtoKey| == 9;
    assert forall k :: k in PathKeys ==> |k| < 9;
  }

  /** A key the query lacks and no pattern sets is absent from the routed query. */
  lemma RouteAddsNoKey(p: string, q: Ext.Query, k: string)
    requires k !in q && k !in PathKeys
    ensures CarriesQuery(Route(p, q)) ==> k !in Route(p, q).query
  {
    RouteKeepsQuery(p, q);
  }

  /** `runHandler`: a handler that throws answers 500 with no streams. */
  function RunHandler(outcome: Result<Reply, string>): (r: Reply)
    ensures outcome.Failure? ==> r == Reply(500, [])
    ensures outcome.Success? ==> r == outcome.value
  {
    match outcome
    case Success(reply) => reply
    case Failure(_) => Reply(500, [])
  }

  /** A piece that can stand between two slashes of a path. */
  predicate Segment(seg: string) {
    Named(seg) && '/' !in seg
  }

  /** A leading slash splits off an empty first segment. */
  lemma SplitLeadingSlash(t: string)
    ensures Split("/" + t, '/') == [""] + Split(t, '/')
  {
    SplitAtSeparator([], '/', t);
    assert [] + ['/'] + t == "/" + t;
  }

  /** `"/" + a + "/" + b + ...` splits into `""`, `a`, `b`, ... */
  lemma SplitPath3(a: string, b: string, c: string)
    requires '/' !in a && '/' !in b && '/' !in c
    ensures Split("/" + a + "/" + b + "/" + c, '/') == ["", a, b, c]
  {
    var t2 := b + "/" + c;
    var t1 := a + "/" + t2;
    Regroup3(a, b, c);
    SplitNoSeparator(c, '/');
    SplitAtSeparator(b, '/', c);
    SplitAtSeparator(a, '/', t2);
    SplitLeadingSlash(t1);
  }

  lemma SplitPath4(a: string, b: string, c: string, d: string)
    requires '/' !in a && '/' !in b && '/' !in c && '/' !in d
    ensures Split("/" + a + "/" + b + "/" + c + "/" + d, '/') == ["", a, b, c, d]
  {
    var t3 := c + "/" + d;
    var t2 := b + "/" + t3;
    var t1 := a + "/" + t2;
    Regroup4(a, b, c, d);
    SplitNoSeparator(d, '/');
    SplitAtSeparator(c, '/', d);
    SplitAtSeparator(b, '/', t3);
    SplitAtSeparator(a, '/', t2);
    SplitLeadingSlash(t1);
  }

  lemma Regroup3(a: string, b: string, c: string)
    ensures "/" + a + "/" + b + "/" + c == "/" + (a + "/" + (b + "/" + c))
  {
  }

  lemma Regroup4(a: string, b: string, c: string, d: string)
    ensures "/" + a + "/" + b + "/" + c + "/" + d == "/" + (a + "/" + (b + "/" + (c + "/" + d)))
  {
    Regroup3(a, b, c);
  }

  lemma SlashFreeJson(id: string)
    requires '/' !in id
    ensures '/' !in id + ".json"
  {
    var f := id + ".json";
    forall i | 0 <= i < |f|
      ensures f[i] != '/'
    {
      if i < |id| {
        assert f[i] == id[i];
      } else {
        assert f[i] == ".json"[i - |id|];
      }
    }
  }

  lemma JsonFileOf(id: string)
    requires id != []
    ensures JsonFile(id + ".json") && Stem(id + ".json") == id
  {
  }

  /** `/stream/T/I.json` goes to the stream handler with type `T` and id `I`. */
  lemma RouteStream(t: string, id: string, q: Ext.Query)
    requires Segment(t) && Segment(id)
    ensures Route("/stream/" + t + "/" + id + ".json", q) == StreamRoute(With(With(q, "type", t), "id", id))
  {
    var f := id + ".json";
    SlashFreeJson(id);
    SplitPath3("stream", t, f);
    assert "/stream/" + t + "/" + id + ".json" == "/" + "stream" + "/" + t + "/" + f;
    JsonFileOf(id);
  }

  /** `/C/stream/T/I.json` goes to the configured stream handler with config
      `C`, type `T` and id `I`, whatever `C` is. */
  lemma RouteConfigStream(c: string, t: string, id: string, q: Ext.Query)
    requires Segment(c) && Segment(t) && Segment(id)
    ensures Route("/" + c + "/stream/" + t + "/" + id + ".json", q)
            == ConfigStreamRoute(With(With(With(q, "config", c), "type", t), "id", id))
  {
    var f := id + ".json";
    SlashFreeJson(id);
    SplitPath4(c, "stream", t, f);
    assert "/" + c + "/stream/" + t + "/" + id + ".json" == "/" + c + "/" + "stream" + "/" + t + "/" + f;
    JsonFileOf(id);
  }

  /** `/resolve/S/H` goes to the resolve handler with service `S` and hash `H`. */
  lemma RouteResolve(service: string, hash: string, q: Ext.Query)
    requires Segment(service) && Segment(hash)
    ensures Route("/resolve/" + service + "/" + hash, q)
            == ResolveRoute(With(With(q, "service", service), "infoHash", hash))
  {
    SplitPath3("resolve", service, hash);
    assert "/resolve/" + service + "/" + hash == "/" + "resolve" + "/" + service + "/" + hash;
  }

  /** `/resolve/S/H/x` goes there as well, unless it also has the shape of a
      configured stream path (`S` is `stream` and `x` names a `.json` file),
      which is checked first. */
  lemma RouteResolveNamed(service: string, hash: string, x: string, q: Ext.Query)
    requires Segment(service) && Segment(hash) && Segment(x)
    ensures Route("/resolve/" + service + "/" + hash + "/" + x, q)
            == if service == "stream" && JsonFile(x)
               then ConfigStreamRoute(With(With(With(q, "config", "resolve"), "type", hash), "id", Stem(x)))
               else ResolveRoute(With(With(q, "service", service), "infoHash", hash))
  {
    SplitPath4("resolve", service, hash, x);
    assert "/resolve/" + service + "/" + hash + "/" + x == "/" + "resolve" + "/" + service + "/" + hash + "/" + x;
  }

  /** `/api/stream/T/I` goes to the stream handler, but `/api/stream/T/I.json`
      has the configured-stream shape first and is read with config `api`. */
  lemma RouteApiStream(t: string, id: string, q: Ext.Query)
    requires Segment(t) && Segment(id)
    ensures Route("/api/stream/" + t + "/" + id, q)
            == if JsonFile(id)
               then ConfigStreamRoute(With(With(With(q, "config", "api"), "type", t), "id", Stem(id)))
               else StreamRoute(With(With(q, "type", t), "id", id))
  {
    SplitPath4("api", "stream", t, id);
    assert "/api/stream/" + t + "/" + id == "/" + "api" + "/" + "stream" + "/" + t + "/" + id;
  }

  /** Mounted under a base path, a request below it is routed as if the base
      were not there. */
  lemma DispatchUnderBase(verb: string, base: string, rest: string, entries: seq<Entry>)
    requires verb == "GET" || verb == "HEAD"
    requires base != []
    ensures Dispatch(verb, base, base + "/" + rest, entries) == Dispatch(verb, [], "/" + rest, entries)
  {
    StripBasePathBelow(base, rest);
  }
}

=== FILE: text.dfy ===
/** The JavaScript string operations the server relies on (`trim`, `toLowerCase`,
    `startsWith`, `includes`, `split`, `join`, `lastIndexOf`, `padStart`),
    on strings as sequences of characters. */
module Text {

  /** The characters `String.prototype.trim` removes: JavaScript's WhiteSpace
      and LineTerminator productions. */
  predicate IsSpace(c: char) {
    || c == ' ' || c == '\t' || c == '\n' || c == '\r'
    || c == '\U{000B}' || c == '\U{000C}' || c == '\U{00A0}' || c == '\U{1680}'
    || ('\U{2000}' <= c <= '\U{200A}')
    || c == '\U{2028}' || c == '\U{2029}' || c == '\U{202F}' || c == '\U{205F}'
    || c == '\U{3000}' || c == '\U{FEFF}'
  }

  predicate IsDigit(c: char) {
    '0' <= c <= '9'
  }

  predicate IsHexDigit(c: char) {
    IsDigit(c) || 'a' <= c <= 'f' || 'A' <= c <= 'F'
  }

  /** The RFC 4648 base32 alphabet, either case. */
  predicate IsBase32Char(c: char) {
    'a' <= c <= 'z' || 'A' <= c <= 'Z' || '2' <= c <= '7'
  }

  /** Drops leading white space. */
  function TrimStart(s: string): (r: string)
    ensures |r| <= |s| && r == s[|s| - |r|..]
    ensures r == [] || !IsSpace(r[0])
    ensures forall i :: 0 <= i < |s| - |r| ==> IsSpace(s[i])
  {
    if s != [] && IsSpace(s[0]) then TrimStart(s[1..]) else s
  }

  /** Drops trailing white space. */
  function TrimEnd(s: string): (r: string)
    ensures |r| <= |s| && r == s[..|r|]
    ensures r == [] || !IsSpace(r[|r| - 1])
    ensures forall i :: |r| <= i < |s| ==> IsSpace(s[i])
  {
    if s != [] && IsSpace(s[|s| - 1]) then TrimEnd(s[..|s| - 1]) else s
  }

  /** No white space at either end. */
  predicate Trimmed(s: string) {
    s == [] || (!IsSpace(s[0]) && !IsSpace(s[|s| - 1]))
  }

  /** `String.prototype.trim`. */
  function Trim(s: string): (r: string)
    ensures |r| <= |s|
    ensures Trimmed(r)
    ensures (forall i :: 0 <= i < |s| ==> IsSpace(s[i])) <==> r == []
  {
    var t := TrimStart(s);
    var r := TrimEnd(t);
    assert t != [] ==> r != [] by {
      if t != [] {
        assert !IsSpace(t[0]);
      }
    }
    r
  }

  /** Only white space. */
  predicate AllSpace(s: string) {
    forall i :: 0 <= i < |s| ==> IsSpace(s[i])
  }

  /** `trim` keeps exactly the slice of `s` between its leading and its
      trailing white space: what lies before and after `r` at `a` is space. */
  lemma TrimIsSlice(s: string) returns (a: nat)
    ensures a + |Trim(s)| <= |s| && Trim(s) == s[a..a + |Trim(s)|]
    ensures AllSpace(s[..a]) && AllSpace(s[a + |Trim(s)|..])
  {
    var t := TrimStart(s);
    a := |s| - |t|;
    var r := TrimEnd(t);
    assert Trim(s) == r;
    SlicesOfTrim(s, t, r);
  }

  lemma SlicesOfTrim(s: string, t: string, r: string)
    requires |t| <= |s| && t == s[|s| - |t|..] && forall i :: 0 <= i < |s| - |t| ==> IsSpace(s[i])
    requires |r| <= |t| && r == t[..|r|] && forall i :: |r| <= i < |t| ==> IsSpace(t[i])
    ensures r == s[|s| - |t|..|s| - |t| + |r|]
    ensures AllSpace(s[..|s| - |t|]) && AllSpace(s[|s| - |t| + |r|..])
  {
    var a := |s| - |t|;
    assert s[a + |r|..] == t[|r|..];
  }

  /** Leading white space before a non-space start is dropped, and no more. */
  lemma {:induction false} TrimStartSkips(pre: string, x: string)
    requires AllSpace(pre) && (x == [] || !IsSpace(x[0]))
    ensures TrimStart(pre + x) == x
    decreases |pre|
  {
    if pre != [] {
      assert (pre + x)[1..] == pre[1..] + x;
      TrimStartSkips(pre[1..], x);
    } else {
      assert pre + x == x;
    }
  }

  /** Trailing white space after a non-space end is dropped, and no more. */
  lemma {:induction false} TrimEndSkips(x: string, post: string)
    requires AllSpace(post) && (x == [] || !IsSpace(x[|x| - 1]))
    ensures TrimEnd(x + post) == x
    decreases |post|
  {
    if post != [] {
      var init := post[..|post| - 1];
      assert (x + post)[..|x + post| - 1] == x + init;
      TrimEndSkips(x, init);
    } else {
      assert x + post == x;
    }
  }

  /** A trimmed string between runs of white space is what `trim` returns. */
  lemma TrimSurrounded(pre: string, mid: string, post: string)
    requires AllSpace(pre) && Trimmed(mid) && AllSpace(post)
    ensures Trim(pre + mid + post) == mid
  {
    if mid == [] {
      assert pre + mid + post == pre + post;
      assert AllSpace(pre + post);
    } else {
      assert pre + mid + post == pre + (mid + post);
      TrimStartSkips(pre, mid + post);
      TrimEndSkips(mid, post);
    }
  }

  /** Lower-cases one ASCII letter; every other character is kept. */
  function LowerChar(c: char): char {
    if 'A' <= c <= 'Z' then (c as int + 32) as char else c
  }

  /** `String.prototype.toLowerCase`, restricted to the ASCII letters. */
  function ToLower(s: string): (r: string)
    ensures |r| == |s|
    ensures forall i :: 0 <= i < |s| ==> r[i] == LowerChar(s[i])
  {
    seq(|s|, i requires 0 <= i < |s| => LowerChar(s[i]))
  }

  /** True when no ASCII upper-case letter occurs in `s`. */
  predicate IsLower(s: string) {
    forall i :: 0 <= i < |s| ==> !('A' <= s[i] <= 'Z')
  }

  lemma ToLowerIsLower(s: string)
    ensures IsLower(ToLower(s))
    ensures ToLower(ToLower(s)) == ToLower(s)
  {
  }

  /** Lower-casing text without upper-case letters changes nothing. */
  lemma LowerIsFixed(s: string)
    requires IsLower(s)
    ensures ToLower(s) == s
  {
    assert forall i :: 0 <= i < |s| ==> LowerChar(s[i]) == s[i];
  }

  predicate StartsWith(s: string, prefix: string) {
    |prefix| <= |s| && s[..|prefix|] == prefix
  }

  predicate EndsWith(s: string, suffix: string) {
    |suffix| <= |s| && s[|s| - |suffix|..] == suffix
  }

  /** `String.prototype.includes`: `sub` occurs somewhere in `s`. */
  predicate Contains(s: string, sub: string)
    decreases |s|
  {
    StartsWith(s, sub) || (|s| > 0 && Contains(s[1..], sub))
  }

  /** Trimming a string without surrounding white space changes nothing. */
  lemma TrimTrimmed(s: string)
    requires Trimmed(s)
    ensures Trim(s) == s
  {
  }

  /** Trimming twice is trimming once. */
  lemma TrimIdempotent(s: string)
    ensures Trim(Trim(s)) == Trim(s)
  {
    TrimTrimmed(Trim(s));
  }

  /** `String.prototype.split` with a one-character separator: the pieces
      between separators, so `n` separators give `n + 1` pieces. */
  function Split(s: string, sep: char): (parts: seq<string>)
    ensures |parts| >= 1
    ensures forall i :: 0 <= i < |parts| ==> sep !in parts[i]
  {
    if s == [] then [[]]
    else
      var rest := Split(s[1..], sep);
      if s[0] == sep then [[]] + rest
      else [[s[0]] + rest[0]] + rest[1..]
  }

  /** `Array.prototype.join` with a one-character separator. */
  function Join(parts: seq<string>, sep: char): string {
    if parts == [] then []
    else if |parts| == 1 then parts[0]
    else parts[0] + [sep] + Join(parts[1..], sep)
  }

  /** Joining the pieces of a split gives back the original string. */
  lemma {:induction false} JoinSplit(s: string, sep: char)
    ensures Join(Split(s, sep), sep) == s
  {
    if s != [] {
      var rest := Split(s[1..], sep);
      JoinSplit(s[1..], sep);
      if s[0] == sep {
        assert Join(Split(s, sep), sep) == [] + [sep] + Join(rest, sep);
      } else if |rest| == 1 {
        assert Join(rest, sep) == rest[0];
      } else {
        assert Join(rest, sep) == rest[0] + [sep] + Join(rest[1..], sep);
        assert Split(s, sep)[1..] == rest[1..];
      }
    }
  }

  /** A string without the separator splits into itself. */
  lemma {:induction false} SplitNoSeparator(p: string, sep: char)
    requires sep !in p
    ensures Split(p, sep) == [p]
  {
    if p != [] {
      SplitNoSeparator(p[1..], sep);
      assert [p[0]] + p[1..] == p;
    }
  }

  /** Splitting stops exactly at the first separator. */
  lemma {:induction false} SplitAtSeparator(p: string, sep: char, t: string)
    requires sep !in p
    ensures Split(p + [sep] + t, sep) == [p] + Split(t, sep)
  {
    var s := p + [sep] + t;
    if p != [] {
      assert s[1..] == p[1..] + [sep] + t;
      SplitAtSeparator(p[1..], sep, t);
      assert [p[0]] + p[1..] == p;
    } else {
      assert s[1..] == t;
    }
  }

  /** Splitting a join of separator-free pieces gives back the pieces. */
  lemma {:induction false} SplitJoin(parts: seq<string>, sep: char)
    requires |parts| >= 1
    requires forall i :: 0 <= i < |parts| ==> sep !in parts[i]
    ensures Split(Join(parts, sep), sep) == parts
  {
    if |parts| == 1 {
      SplitNoSeparator(parts[0], sep);
    } else {
      SplitJoin(parts[1..], sep);
      SplitAtSeparator(parts[0], sep, Join(parts[1..], sep));
    }
  }

  /** The last index below `n` holding `c`, or -1. */
  function LastIndexBelow(s: string, c: char, n: nat): (i: int)
    requires n <= |s|
    ensures -1 <= i < n
    ensures i >= 0 ==> s[i] == c
    ensures forall j :: i < j < n ==> s[j] != c
  {
    if n == 0 then -1
    else if s[n - 1] == c then n - 1
    else LastIndexBelow(s, c, n - 1)
  }

  /** `String.prototype.lastIndexOf` for one character: -1 when absent. */
  function LastIndexOf(s: string, c: char): (i: int)
    ensures -1 <= i < |s|
    ensures i >= 0 ==> s[i] == c
    ensures forall j :: i < j < |s| ==> s[j] != c
  {
    LastIndexBelow(s, c, |s|)
  }

  /** Every occurrence of `from` replaced by `to` (`replace(/x/g, y)` for one character). */
  function ReplaceChar(s: string, from: char, to: char): (r: string)
    ensures |r| == |s|
    ensures forall i :: 0 <= i < |s| ==> r[i] == (if s[i] == from then to else s[i])
  {
    seq(|s|, i requires 0 <= i < |s| => if s[i] == from then to else s[i])
  }

  function Repeat(c: char, n: nat): (r: string)
    ensures |r| == n && forall i :: 0 <= i < n ==> r[i] == c
  {
    seq(n, _ => c)
  }

  /** `String.prototype.padStart` with a one-character filler. */
  function PadStart(s: string, width: int, fill: char): (r: string)
    ensures |s| >= width ==> r == s
    ensures |s| < width ==> |r| == width && r == Repeat(fill, width - |s|) + s
  {
    if |s| >= width then s else Repeat(fill, width - |s|) + s
  }

  /** `String.prototype.padEnd` with a one-character filler. */
  function PadEnd(s: string, width: int, fill: char): (r: string)
    ensures |s| >= width ==> r == s
    ensures |s| < width ==> |r| == width && r == s + Repeat(fill, width - |s|)
  {
    if |s| >= width then s else s + Repeat(fill, width - |s|)
  }
}

=== FILE: wrappers.dfy ===
/** Failure-carrying datatypes used across the model in place of JavaScript's
    `null` results and thrown errors. */
module Wrappers {

  /** A value that may be absent (JavaScript `null` / `undefined`). */
  datatype Option<+T> = None | Some(value: T) {

    function GetOr(default: T): T {
      match this
      case Some(v) => v
      case None => default
    }
  }

  /** Either a value or an error message (a thrown JavaScript `Error`). */
  datatype Result<+R, +E> = Success(value: R) | Failure(error: E)
}
